=== FILE: README.md ===
# MeTTa source chunker: a Dafny model

This project models the chunker of the MeTTa AI assistant. The chunker cuts
MeTTa source (an s-expression language) into pieces of bounded size for
embedding and retrieval. It has two implementations, and both are modelled:

- **Backend**: Python. It has a Python s-expression parser, a symbol index
  that stores source text, and a greedy packer.
- **Experiment**: a Rust parser exposed to Python, a symbol index that stores
  node ids, and the same greedy packer with a different merge step.

The pipeline has four stages. Each is a module here.

1. **Parsing** (`Text`, `Syntax`, `Scanner`, `Parser`, `ParserFacts`).
   - Both parsers are one-character-lookahead recursive-descent parsers over a
     character reader. They produce top-level syntax nodes with source ranges.
   - One `Parser` module is parameterised by a `Dialect`. The two dialects
     differ in four places:
     - the reader;
     - the whitespace test;
     - the label of a `!` form;
     - the `:` / `=` specialisation of groups, which only the Python parser has.
   - The Python reader advances its character index by the UTF-8 width of the
     character it passes. So after a non-ASCII character it skips characters
     (`PythonReadsPastWideChar`). The Rust reader steps one character and
     reports byte offsets, so every node at any depth starts and ends on a
     UTF-8 character boundary (`RustNodesAreByteRanges`).
2. **Symbol extraction and grouping** (`Symbols`, `SymbolIndex`, `Preprocess`).
   - Every top-level node is classified by its kind and an anchored regular
     expression. Kept nodes are filed under a symbol name in one of four
     buckets: `defs`, `calls`, `asserts` and `types`.
   - Each index row, flattened, is one "potential chunk".
   - The regular expressions are given a declarative meaning (`Denotes`,
     `Captures`). The greedy matcher is proved equal to that meaning.
3. **Splitting** (`Lines`, `Splitter`). An oversized node is split
   recursively into pieces. The pieces are proved to join back into the
   source slices of a reference "frontier" of nodes.
4. **Packing and documents** (`Assembler`, `ChunkDoc`).
   - The fragments of each potential chunk are packed greedily into chunks.
   - Every decision is recorded as an event: a buffer flushed, an oversized
     fragment divided, or a fragment dropped. Each event is proved to have its
     reason, and every fragment to be accounted for exactly once.
   - The Backend wraps every chunk in a document. Its id is a truncated
     SHA-256 digest, and the digest is a parameter of the model.

Two behaviours of the packer and the splitter are easy to miss:

- **Overflowing fragment.** A fragment that does not fit beside the buffer
  flushes the buffer and is discarded (lines 39-42 of
  `Backend/app/core/chunker/chunker.py`, lines 45-48 of
  `Experiment/AST-Based-Recursive-Chunker/chunker.py`). So not every fragment
  reaches a chunk (`Assembler.OverflowDropped`).
- **Size bound.** The size tests add text lengths and ignore the `"\n"`
  separators that joining adds. So a glued split piece can be `max_size + 1`
  long (`Splitter.GluedPieceExceedsBudget`), and a flushed buffer of `k`
  fragments can be `max_size + k - 1` long (`Assembler.FlushedLength`).

## Model

| member | source | states |
|---|---|---|
| Text.IsPySpace | Backend/app/core/chunker/metta_ast_parser.py:110 | Python's whitespace test accepts every character Rust's accepts (and, by `SpaceNotionsDiffer`, U+001C..U+001F besides) |
| Text.IsRustWhitespace | Experiment/AST-Based-Recursive-Chunker/metta_parser/src/lib.rs:165 | on ASCII, Rust's whitespace is the space and the controls `\t` through `\r` |
| Text.PySlice | Backend/app/core/chunker/preprocess.py:63 | `s[a:b]` has the clamped length, holds the characters of `s` from `a` on, and is the ordinary slice when the bounds are in order and in range |
| Text.SpaceNotionsDiffer | Backend/app/core/chunker/metta_ast_parser.py:110 | Python's `str.isspace` and Rust's `char::is_whitespace` disagree exactly on U+001C..U+001F |
| Syntax.IsLeaf | Backend/app/core/chunker/metta_ast_parser.py:21-22 | only expression and error groups are inner nodes, so the call, rule and type groups count as leaves although they are groups |
| Syntax.Size | Backend/app/core/chunker/chunker.py:8-11 | a child of a well-nested node is never larger than its parent |
| Scanner.Advance | Backend/app/core/chunker/metta_ast_parser.py:75-86 | the reported offset grows by the UTF-8 width of the character passed and the reader invariant is kept; the Rust reader, and the Python reader on ASCII text, step to the next character |
| Scanner.SkipWs | Backend/app/core/chunker/metta_ast_parser.py:108-112 | stops at the first non-whitespace character or the end; with a one-step reader, everything skipped is whitespace |
| Parser.ParseWord | Backend/app/core/chunker/metta_ast_parser.py:228-237 | a word is a non-empty run of characters other than whitespace, `(`, `)` and `;`; it stops at such a character or the end, and its text is the source between its bounds |
| Parser.ParseVariable | Backend/app/core/chunker/metta_ast_parser.py:239-249 | a variable consumes the `$` but leaves it out of its text; the text holds no stop character |
| Parser.ParseComment | Backend/app/core/chunker/metta_ast_parser.py:149-157 | a comment runs up to, not including, the next newline, and carries no text |
| Parser.ParseString | Backend/app/core/chunker/metta_ast_parser.py:216-226 | a string's text is what lies between its quotes, or runs to the end when unterminated, and holds no quote |
| Parser.Dispatch | Backend/app/core/chunker/metta_ast_parser.py:107-127 | after whitespace, the next character selects the production; a `)` at top level is an error |
| Parser.ParseExec | Backend/app/core/chunker/metta_ast_parser.py:130-147 | a `!` form is the `!` word and a parenthesised group, labelled `CallGroup` in Python and `ExpressionGroup` in Rust; with no `(` after the optional whitespace it fails |
| Parser.ParseExpr | Backend/app/core/chunker/metta_ast_parser.py:159-208 | a group opens with an `OpenParen` marker and closes with a `CloseParen` marker; it is an `ExpressionGroup`, or a rule or type group (Python only); in Python its kind is read off the first token after `(` and any whitespace: `:` gives a type group, a single `=` a rule group, anything else (`==` included) an expression group |
| Parser.ParseGroup | Backend/app/core/chunker/metta_ast_parser.py:166-214 | the group loop either closes the group or reaches the end of the text and fails with "unclosed expression" |
| Parser.CloseGroup | Backend/app/core/chunker/metta_ast_parser.py:182-185 | closing keeps the collected children in order, appends the `CloseParen` marker and ends the range after the `)` |
| Parser.ParseTop | Backend/app/core/chunker/metta_ast_parser.py:107-128 | returns no node exactly when only whitespace is left; otherwise the node starts after the skipped whitespace |
| Parser.Parse | Backend/app/core/chunker/metta_ast_parser.py:251-259 | the roots are well nested, non-empty and in increasing, non-overlapping order; with a one-step reader they end within the text's byte length |
| ParserFacts.GroupChildIsDispatch | Backend/app/core/chunker/metta_ast_parser.py:209-214 | inside a group the top-level dispatch always yields a node or an error, so the "unexpected end of input inside expression" branch is unreachable |
| ParserFacts.RustGroupsAreExpressions | Experiment/AST-Based-Recursive-Chunker/metta_parser/src/lib.rs:202-208 | no node of a Rust tree, at any depth, is a call, rule or type group |
| ParserFacts.ParseTilesText | Backend/app/core/chunker/metta_ast_parser.py:251-259 | on ASCII text the Python roots tile the text: only whitespace lies before, between and after them |
| ParserFacts.RustNodesAreByteRanges | Experiment/AST-Based-Recursive-Chunker/metta_parser/src/lib.rs:111-122 | every node of a Rust tree, the roots and every node below them, starts and ends on a character boundary of the text's UTF-8 encoding |
| ParserFacts.PythonReadsPastWideChar | Backend/app/core/chunker/metta_ast_parser.py:75-86 | on `é)` the Python reader jumps past the `)` and returns the single word `é` |
| ParserFacts.RustReadsAfterWideChar | Experiment/AST-Based-Recursive-Chunker/metta_parser/src/lib.rs:162-181 | on `é)` the Rust parser reads the `)` and fails |
| ParserFacts.CloseParenAtTop | Experiment/AST-Based-Recursive-Chunker/metta_parser/src/lib.rs:175 | a `)` at top level is an error in both dialects |
| ParserFacts.EndInsideGroup | Experiment/AST-Based-Recursive-Chunker/metta_parser/src/lib.rs:276-278 | text ending inside a group is an "unclosed expression" error in both dialects |
| ParserFacts.BangWithoutGroup | Experiment/AST-Based-Recursive-Chunker/metta_parser/src/lib.rs:197-200 | a `!` not followed by a group is an error in both dialects |
| Symbols.Match | Backend/app/core/chunker/preprocess.py:66 | the greedy matcher returns only names; `MatchIsRegex` ties its result to the regular expression in both directions |
| Symbols.MatchIsRegex | Backend/app/core/chunker/preprocess.py:66 | the greedy matcher returns a name exactly when the anchored regular expression captures that name |
| Symbols.CaptureUnique | Backend/app/core/chunker/preprocess.py:66 | a prefix pattern captures at most one name from a text |
| Symbols.Extract | Backend/app/core/chunker/preprocess.py:61-91 | a symbol is always a non-empty name; only comments get the comment role; each role comes only from its node kinds; a call is never named `assertEqual` |
| Symbols.ExtractDef | Backend/app/core/chunker/preprocess.py:65-68 | a node is a definition of `name` exactly when it is a rule group and `^\(\=\s*\(\s*` captures `name` |
| Symbols.ExtractCall | Backend/app/core/chunker/preprocess.py:70-81 | a node is a call of `name` exactly when it is a call or expression group, `^\!\(\s*` captures `name`, and `name` is not `assertEqual` |
| Symbols.ExtractAssert | Backend/app/core/chunker/preprocess.py:74-77 | a node is an assert on `name` exactly when the call pattern captures `assertEqual` and the assert pattern captures `name` |
| Symbols.ExtractType | Backend/app/core/chunker/preprocess.py:83-86 | a node declares the type of `name` exactly when it is a type group and `^\(:\s*` captures `name` |
| Symbols.ExtractFailures | Backend/app/core/chunker/preprocess.py:78-91 | a node is unknown exactly when its kind has no rule or its pattern fails; an `assertEqual` without an inner name is an assert with no symbol |
| Symbols.BangSpaceNeverMatches | Backend/app/core/chunker/preprocess.py:71 | a `!` not immediately followed by `(` is never a call or an assert |
| Symbols.ParenGroupIsUnknown | Experiment/AST-Based-Recursive-Chunker/preprocess.py:52-53 | a plain parenthesised expression group is unknown |
| Symbols.RuleNamed | Backend/app/core/chunker/preprocess.py:65-68 | `(= (name …` with a delimited name is a definition of `name` |
| Symbols.CallNamed | Backend/app/core/chunker/preprocess.py:70-81 | `!(name …` with a delimited name other than `assertEqual` is a call of `name` |
| Symbols.TypeNamed | Backend/app/core/chunker/preprocess.py:83-86 | `(: name …` with a delimited name declares the type of `name` |
| SymbolIndex.Upsert | Experiment/AST-Based-Recursive-Chunker/db.py:79-101 | upserting touches only the named row's chosen bucket, appends a new row at the end for a new name, and keeps every other row |
| SymbolIndex.UpsertKeeps | Experiment/AST-Based-Recursive-Chunker/db.py:79-101 | after an upsert the entry is present, nothing present before is lost, and nothing else is added |
| SymbolIndex.UpsertUnique | Experiment/AST-Based-Recursive-Chunker/db.py:84-91 | upserting keeps one row per name |
| SymbolIndex.UpsertIdempotent | Experiment/AST-Based-Recursive-Chunker/db/db.py:61-65 | a set-insert upsert repeated is the same as one |
| SymbolIndex.UpsertCounts | Experiment/AST-Based-Recursive-Chunker/db.py:88-90 | an appending upsert adds exactly one occurrence of the value to its bucket |
| SymbolIndex.Flatten | Experiment/AST-Based-Recursive-Chunker/preprocess.py:32-38 | a flattened row is its four buckets laid out in column order: definitions, then calls, then asserts, then types |
| SymbolIndex.StoredIsChunked | Experiment/AST-Based-Recursive-Chunker/preprocess.py:29-37 | every stored value appears in the potential chunk of its symbol's row |
| Preprocess.Entry | Backend/app/core/chunker/preprocess.py:44-55 | unknown nodes and nodes without a symbol are skipped; a comment at root index `idx` is a definition of `comment_<idx>` |
| Preprocess.CommentNamesDistinct | Backend/app/core/chunker/preprocess.py:50-52 | comments at different root indexes get different names |
| Preprocess.IndexRoots | Backend/app/core/chunker/preprocess.py:44-59 | every bucket receives the fragments (text and path) of the kept roots filed under it, one insertion per root in root order (`KeptFrags`); with `array_append` the bucket is exactly its old contents followed by those fragments; nothing filed before is lost and names stay unique |
| Preprocess.IndexRootsAddsOnlyKept | Backend/app/core/chunker/preprocess.py:44-59 | every entry after the loop was there before or comes from a kept root |
| Preprocess.ParseFile | Backend/app/core/chunker/preprocess.py:41-59 | a file fails exactly when its parse fails; otherwise every kept root is filed and nothing filed before is lost |
| Preprocess.BrokenFilesSkipped | Backend/app/core/chunker/preprocess.py:12-24 | indexing all files gives the same index as indexing only the files that parse |
| Preprocess.PreprocessCodeComplete | Backend/app/core/chunker/preprocess.py:9-39 | every kept root of every file that parses reaches some potential chunk |
| Preprocess.IndexFiles | Backend/app/core/chunker/preprocess.py:10-24 | the file loop keeps everything filed before and keeps one row per name |
| Preprocess.IndexFilesAddsOnlyKept | Backend/app/core/chunker/preprocess.py:10-24 | every entry after the file loop was there before or is a kept root of one of the files |
| Preprocess.PreprocessCode | Backend/app/core/chunker/preprocess.py:9-39 | every fragment of every potential chunk is a kept root of one of the files; the converse is `PreprocessCodeComplete` |
| Preprocess.ChunkedIsKept | Backend/app/core/chunker/preprocess.py:26-36 | a fragment of a potential chunk comes with the file, the symbol and the bucket it was filed from |
| Preprocess.IndexRootsById | Experiment/AST-Based-Recursive-Chunker/preprocess.py:9-27 | the node table becomes the old table followed by the nodes of the kept roots in root order (`KeptNodes`); every bucket receives the ids those nodes took, in order (`KeptIds`), and with `array_append` is exactly its old contents followed by them; nothing filed before is lost |
| Preprocess.Record | Experiment/AST-Based-Recursive-Chunker/preprocess.py:22-27 | a kept node is inserted under the next id and that id is inserted into its own bucket, every other bucket unchanged; a skipped node changes nothing |
| Preprocess.RecordModesAgree | Experiment/AST-Based-Recursive-Chunker/preprocess.py:24-27 | because every node id is fresh, set-insert and append upserts give the same store |
| Preprocess.IdsStayValid | Experiment/AST-Based-Recursive-Chunker/preprocess.py:9-27 | every filed id names a stored node |
| Preprocess.NamesStayUnique | Experiment/AST-Based-Recursive-Chunker/preprocess.py:9-27 | the index keeps one row per name |
| Preprocess.KeptRootsRecorded | Experiment/AST-Based-Recursive-Chunker/preprocess.py:9-27 | every kept root's node is stored with its range, path and kind, and its id is filed under its name and bucket |
| Preprocess.RecordedAreKept | Experiment/AST-Based-Recursive-Chunker/preprocess.py:9-27 | every node stored by the loop comes from a kept root |
| Preprocess.ModesAgreeOnFreshIds | Experiment/AST-Based-Recursive-Chunker/preprocess.py:9-27 | over a whole file, set-insert and append upserts give the same store |
| Preprocess.PreprocessById | Experiment/AST-Based-Recursive-Chunker/preprocess.py:6-40 | a file fails exactly when its parse fails; otherwise the node table only grows and there is one potential chunk per index row |
| Lines.JoinSplit | Backend/app/core/chunker/utils.py:13-14 | joining the fields of a split gives back the text |
| Lines.SplitJoin | Backend/app/core/chunker/utils.py:13-14 | splitting a join of separator-free parts gives back the parts |
| Splitter.Absorb | Backend/app/core/chunker/chunker.py:80-89 | the Backend merge loses and duplicates no text: the join is unchanged, the pieces before the last collected one are untouched, with nothing collected the pieces are appended unchanged, and a glued piece is at most `max_size + 1` long |
| Splitter.AbsorbStops | Backend/app/core/chunker/chunker.py:81-86 | the Backend merge glues a maximal run of leading pieces, each fitting when it is glued |
| Splitter.MergeOnce | Experiment/AST-Based-Recursive-Chunker/chunker.py:87-91 | the Experiment merge glues the first piece onto the last collected one (`last + "\n" + first`) exactly when the two fit; the earlier collected pieces and the remaining pieces stay as they are |
| Splitter.Split | Backend/app/core/chunker/chunker.py:65-90 | a node always yields at least one piece; `SplitJoin` and `SplitBound` relate the pieces to the frontier |
| Splitter.Merge | Backend/app/core/chunker/chunker.py:80-89 | both merge styles keep the join and every collected piece but the last, and never shrink the collection |
| Splitter.SplitAll | Backend/app/core/chunker/chunker.py:76-90 | the child loop keeps every collected piece but the last unchanged (only the last can be glued onto), never drops a piece, and yields a piece once a child has been visited |
| Splitter.SizeIsSliceLength | Backend/app/core/chunker/chunker.py:8-11 | when a node's range lies in the text, its size is the length of its source slice |
| Splitter.SplitJoin | Backend/app/core/chunker/chunker.py:65-90 | the split pieces, joined with newlines, equal the joined source slices of the frontier nodes |
| Splitter.SplitBound | Backend/app/core/chunker/chunker.py:67-74 | every piece is at most `max_size + 1` long, or is the slice of a childless frontier node that alone exceeds the budget |
| Splitter.SplitIgnoresKind | Backend/app/core/chunker/chunker.py:72 | the node kind is never consulted; a node with children is descended into whatever its kind |
| Splitter.GluedPieceExceedsBudget | Backend/app/core/chunker/chunker.py:82-85 | `xx yy` under a budget of 4 becomes one 5-character piece |
| Splitter.MergeStylesDiffer | Experiment/AST-Based-Recursive-Chunker/chunker.py:87-89 | when a child yields several pieces that fit, the Backend glues them all and the Experiment only the first |
| ChunkDoc.ChunkId | Backend/app/core/chunker/utils.py:21 | the id is 16 hex digits, a prefix of the digest |
| ChunkDoc.DirnameBasename | Backend/app/core/chunker/utils.py:15-16 | a path is its `dirname`, a run of slashes and its `basename` |
| ChunkDoc.RepoAndRest | Experiment/AST-Based-Recursive-Chunker/chunker/utils.py:9-11 | the repository is the text before the first `/` and the rest the text after it; `split("/")` and `split("/", 1)` agree on both |
| ChunkDoc.BuildersAgreePerPath | Experiment/AST-Based-Recursive-Chunker/chunker/utils.py:12-13 | both builders give the same file name and section, except that the Experiment gives None where the Backend gives `""` |
| ChunkDoc.RepoRootFile | Backend/app/core/chunker/utils.py:15 | a file at the repository root gets section `""` in the Backend and None in the Experiment |
| ChunkDoc.BuildBackendDoc | Backend/app/core/chunker/utils.py:5-34 | the document has the fixed fields, the repository of the first path (`unknown-repo` with none), and one section and one file name per path |
| ChunkDoc.BuildExperimentDoc | Experiment/AST-Based-Recursive-Chunker/chunker/utils.py:5-29 | the document has the fixed fields, the repository of the path, and never an empty section |
| ChunkDoc.DocsAgree | Experiment/AST-Based-Recursive-Chunker/chunker/utils.py:9-29 | for one path the two documents agree on repository, file and text |
| Assembler.Divide | Backend/app/core/chunker/chunker.py:33-36 | an oversized fragment is re-parsed and its first root split; it fails when the re-parse fails or finds no root; the pieces join to that root's frontier slices |
| Assembler.PackFrom | Backend/app/core/chunker/chunker.py:23-46 | the fragment loop only appends events, and succeeds only when every oversized fragment still ahead divides |
| Assembler.PackRow | Backend/app/core/chunker/chunker.py:22-49 | a row packs exactly when every oversized fragment in it divides |
| Assembler.PackRows | Backend/app/core/chunker/chunker.py:21-49 | the row loop succeeds exactly when every row packs; `PackRowsConcat` shows the rows are packed independently |
| Assembler.PackRowAccounts | Backend/app/core/chunker/chunker.py:21-49 | every fragment of a row is accounted for exactly once and in order (flushed, divided or dropped), and every event has its reason |
| Assembler.PackFromFails | Experiment/AST-Based-Recursive-Chunker/chunker.py:35-42 | packing fails only because some oversized fragment fails to divide, with that error |
| Assembler.FlushedLength | Backend/app/core/chunker/chunker.py:39-46 | a flushed buffer of `k` fragments is at most `max_size + k - 1` long, because the joining newlines are not counted |
| Assembler.ChunkPaths | Backend/app/core/chunker/chunker.py:29-49 | every chunk names at least one path, and every path it names is the path of one of its fragments |
| Assembler.PackRowsConcat | Backend/app/core/chunker/chunker.py:21-49 | each potential chunk is packed on its own: the chunks of two runs of rows are the chunks of each run, concatenated |
| Assembler.RowsStaySeparate | Backend/app/core/chunker/chunker.py:21-22 | every chunk comes from the packing of a single row |
| Assembler.DividedChunks | Backend/app/core/chunker/chunker.py:28-36 | a divided fragment yields at least one chunk, each carrying exactly that fragment's path |
| Assembler.OverflowDropped | Backend/app/core/chunker/chunker.py:39-42 | with a budget of 4, fragments `aaa` then `bb` give the single chunk `aaa`; `bb` is lost |
| Assembler.NonEmpty | Backend/app/core/chunker/chunker.py:51 | exactly the chunks with non-empty text are kept |
| Assembler.NonEmptyConcat | Backend/app/core/chunker/chunker.py:51 | the filter works chunk by chunk, so it keeps the order and the duplicates of its input |
| Assembler.NonEmptySingle | Backend/app/core/chunker/chunker.py:51 | a single chunk is kept exactly when its text is non-empty |
| Assembler.ChunkPreprocessedCode | Backend/app/core/chunker/chunker.py:13-52 | the Backend fails exactly when packing fails; otherwise there is one document per non-empty packed chunk, in order, each being the document `_build_chunk_doc` builds from that chunk's text and paths (so repository, project, sections, file names and the 16-digit id follow `ChunkDoc.BuildBackendDoc`) |
| Assembler.Resolve | Experiment/AST-Based-Recursive-Chunker/chunker.py:28-31 | the ids are looked up in order, up to the first id that names no node; each fragment is its node's source slice and path |
| Assembler.PackIds | Experiment/AST-Based-Recursive-Chunker/chunker.py:26-54 | a row succeeds only when all its ids are known; an unknown-id failure names the first unknown id |
| Assembler.ChunkByIds | Experiment/AST-Based-Recursive-Chunker/chunker.py:19-56 | the Experiment succeeds only when every id is known; an unknown-id failure names an id of some row |
| Assembler.StoredIdsResolve | Experiment/AST-Based-Recursive-Chunker/preprocess.py:29-37 | the potential chunks of a store built by the preprocessor hold only known ids |
| Assembler.ChunkByIdsPacks | Experiment/AST-Based-Recursive-Chunker/chunker.py:19-56 | with every id known, the Experiment gives the texts of the shared row packer's chunks, with the first-piece merge |

## Left out

- Files, databases and network: reading files, MongoDB and PostgreSQL
  clients, and async scheduling are not modelled. The symbol index is an
  in-memory sequence of rows in first-insertion order. The node table is a
  sequence, and a node's id is its position in it.
- Upsert mode: Mongo's `$addToSet` and SQL's `array_append` are one `Mode`
  parameter. The Backend's `upsert_symbol` and `get_all_symbols` are not part
  of this model. Its index is assumed to keep the SQL table's bucket order:
  definitions, calls, asserts, types.
- Experiment parser: both the whole-file parse of the Experiment's
  `preprocess_code` (`Experiment/AST-Based-Recursive-Chunker/preprocess.py:7`)
  and the chunker's re-parse of an oversized fragment call a
  `metta_ast_parser` module that is not part of this model. So
  `Preprocess.PreprocessById` and the Experiment packer both take the dialect
  as a parameter.
- Experiment state across files: the node table and the symbol index are
  cleared once at start-up (`Experiment/AST-Based-Recursive-Chunker/chunker.py:99`)
  and never between files (the clear at line 127 is commented out). So a later
  file's potential chunks still hold the ids of earlier files, and line 31
  slices the current file's text at those ranges. The model reproduces this
  when one `Store` is threaded through the files. It does not model the
  driver loop that does so.
- The reader's I/O errors (Rust `io::Result`) cannot occur for an in-memory
  string, and are left out. So are the pyo3 bindings.
- Node `message` and `is_complete` fields: never set to anything but their
  defaults, so they are left out.
- The "unexpected end of input inside expression" error: it belongs to a
  branch no input reaches (`ParserFacts.GroupChildIsDispatch`), so it has no
  error value.
- SHA-256 is a function parameter. The id key's `repr` of a path list
  is modelled without Python's escaping of quotes and backslashes inside
  paths.
- Scan order: `get_all_symbols` is an unordered scan, both as
  `SELECT * FROM symbols` (`Experiment/AST-Based-Recursive-Chunker/db.py:115-119`;
  the `UPDATE` at line 89 may move a row) and as `find({})`
  (`Experiment/AST-Based-Recursive-Chunker/db/db.py:77`). So the order of the
  potential chunks, and with it the order of the chunks
  (`Assembler.PackRowsConcat`), is unspecified in the source. The model fixes
  it as first-insertion order and promises nothing about other orders.
- Backend `list(rel_paths)` turns a set into a list in an unspecified order.
  The model lists paths in first-insertion order.
- Unknown ids in the Experiment: `db.get_text_node` returning nothing makes the
  next line raise. This is modelled as an `UnknownNode` error, raised after
  the fragments before the unknown id have been packed, so an earlier
  re-parse error wins.
- Exceptions escaping `ChunkCode` in the Experiment's `main` are caught per
  file. Only the per-file result is modelled.
- The drivers `ast_based_chunker`, `ChunkCode`, `main` and `insert_chunks`
  read files, call the modelled operations and store results. They are not
  modelled.
- The Experiment driver as written does not reach the chunker. Its
  `ChunkCode` awaits `preprocess_code`
  (`Experiment/AST-Based-Recursive-Chunker/chunker.py:68`), but that is a
  plain function returning a list (`Experiment/AST-Based-Recursive-Chunker/preprocess.py:6`),
  and its calls to the asynchronous store at lines 24, 27 and 30 are not
  awaited. So every file raises a `TypeError` that `main` catches
  (`chunker.py:123-125`), and no chunk is stored. The model describes
  `preprocess_code` and `ChunkPreprocessedCode` as if the store calls
  returned their values.
- Splitter.SplitBound: requires `max_size >= 0`. With a negative budget every
  node with children is split and the bound is vacuous.

=== FILE: assembler.dfy ===
/** `ChunkPreprocessedCode`: pack the fragments of each potential chunk,
    left to right, into chunks under `max_size`.

    Every potential chunk starts with an empty buffer. A fragment longer
    than the budget flushes the buffer, is re-parsed on its own and its
    first root is split; each piece becomes a chunk. A fragment that does
    not fit beside the buffer flushes the buffer and is itself dropped.
    Any other fragment joins the buffer. The buffer's size counter adds the
    fragment lengths only, so the `"\n"` that join a buffer's fragments are
    not counted. At the end of the row a non-empty buffer is flushed.

    What happens to each fragment is recorded as an `Event`; the chunks are
    read off the events. */
module Assembler {
  import opened Outcome
  import opened Text
  import opened Scanner
  import opened Parser
  import opened Lines
  import opened Splitter
  import opened SymbolIndex
  import opened Preprocess
  import opened ChunkDoc

  /** What aborts the whole call: the re-parse of an oversized fragment
      fails, finds no root (`parse(...)[0]`), or (Experiment) a stored id
      names no node. */
  datatype ChunkError = Reparse(error: ParseError) | NoRoot | UnknownNode(id: nat)

  /** The re-parse dialect, the splitter's merge style and `max_size`. */
  datatype Config = Config(dialect: Dialect, style: Style, max: int)

  function BackendConfig(max: int): Config {
    Config(Python, MergeRun, max)
  }

  function ExperimentConfig(d: Dialect, max: int): Config {
    Config(d, MergeFirst, max)
  }

  datatype Event =
    | Flushed(frags: seq<Fragment>)                   // a buffer, emitted as one chunk
    | Divided(frag: Fragment, pieces: seq<string>)    // an oversized fragment, split
    | Dropped(frag: Fragment)                         // a fragment that overflowed the buffer

  function Texts(fs: seq<Fragment>): (r: seq<string>)
    ensures |r| == |fs|
    ensures forall i :: 0 <= i < |fs| ==> r[i] == fs[i].text
  {
    if fs == [] then [] else [fs[0].text] + Texts(fs[1..])
  }

  /** `chunk_size`: the total length of the buffered fragments. */
  function BufferSize(buf: seq<Fragment>): nat {
    SumLen(Texts(buf))
  }

  lemma BufferSizeAppend(buf: seq<Fragment>, f: Fragment)
    ensures BufferSize(buf + [f]) == BufferSize(buf) + |f.text|
  {
    assert Texts(buf + [f]) == Texts(buf) + [f.text];
    SumLenConcat(Texts(buf), [f.text]);
  }

  /** Re-parse an oversized fragment and split its first root. */
  function Divide(cfg: Config, f: Fragment): (r: Result<seq<string>, ChunkError>)
    ensures r.Ok? <==> Parse(cfg.dialect, f.text).Ok? && Parse(cfg.dialect, f.text).value != []
    ensures r.Err? ==> !r.error.UnknownNode?
    ensures Parse(cfg.dialect, f.text).Err? ==> r == Err(Reparse(Parse(cfg.dialect, f.text).error))
    ensures r.Ok? ==> r.value != []
    ensures r.Ok? ==> Join(r.value) == Join(Slices(f.text, Frontier(Parse(cfg.dialect, f.text).value[0], cfg.max)))
  {
    match Parse(cfg.dialect, f.text)
    case Err(e) => Err(Reparse(e))
    case Ok(roots) =>
      if roots == [] then Err(NoRoot)
      else
        Splitter.SplitJoin(cfg.style, roots[0], f.text, cfg.max);
        Ok(Split(cfg.style, roots[0], f.text, cfg.max))
  }

  /** What the packing loop needs to know: the budget, and what becomes of
      a fragment over it. */
  datatype Packer = Packer(max: int, divide: Fragment -> Result<seq<string>, ChunkError>)

  function PackerOf(cfg: Config): (pk: Packer)
    ensures pk.max == cfg.max
    ensures forall f :: pk.divide(f) == Divide(cfg, f)
  {
    Packer(cfg.max, f => Divide(cfg, f))
  }

  /** `if chunk: chunks.append(...)`. */
  function Flush(buf: seq<Fragment>): seq<Event> {
    if buf == [] then [] else [Flushed(buf)]
  }

  // ------------------------------------------------------------ the trace

  /** The fragments an event accounts for. */
  function FragsOfEvent(e: Event): seq<Fragment> {
    match e
    case Flushed(fs) => fs
    case Divided(f, _) => [f]
    case Dropped(f) => [f]
  }

  function FragsOf(es: seq<Event>): seq<Fragment> {
    if es == [] then [] else FragsOfEvent(es[0]) + FragsOf(es[1..])
  }

  lemma {:induction false} FragsOfConcat(a: seq<Event>, b: seq<Event>)
    ensures FragsOf(a + b) == FragsOf(a) + FragsOf(b)
    decreases |a|
  {
    if a == [] {
      assert a + b == b;
    } else {
      assert (a + b)[0] == a[0] && (a + b)[1..] == a[1..] + b;
      FragsOfConcat(a[1..], b);
    }
  }

  /** Why each event happened:
      - a flushed buffer is non-empty and within the budget;
      - a divided fragment is over the budget and its pieces are those of
        its first re-parsed root;
      - a dropped fragment is within the budget, and comes right after the
        flush of a buffer it did not fit beside. */
  predicate EventOk(pk: Packer, es: seq<Event>, k: nat)
    requires k < |es|
  {
    match es[k]
    case Flushed(fs) => fs != [] && BufferSize(fs) <= pk.max
    case Divided(f, ps) => |f.text| > pk.max && pk.divide(f) == Ok(ps)
    case Dropped(f) =>
      && |f.text| <= pk.max
      && k > 0 && es[k - 1].Flushed?
      && BufferSize(es[k - 1].frags) + |f.text| > pk.max
  }

  predicate EventsOk(pk: Packer, es: seq<Event>) {
    forall k :: 0 <= k < |es| ==> EventOk(pk, es, k)
  }

  /** A buffer is flushed only when forced: two flushes are never
      adjacent. */
  predicate FlushForced(es: seq<Event>) {
    forall k :: 0 <= k < |es| - 1 && es[k].Flushed? ==> !es[k + 1].Flushed?
  }

  /** The state the packing loop keeps: a sound trace that does not end in
      a flush, and a buffer within the budget. */
  predicate Sound(pk: Packer, events: seq<Event>, buf: seq<Fragment>) {
    && EventsOk(pk, events)
    && FlushForced(events)
    && (events != [] ==> !events[|events| - 1].Flushed?)
    && (buf != [] ==> BufferSize(buf) <= pk.max)
  }

  // ------------------------------------------------------ the packing loop

  /** The inner loop of `ChunkPreprocessedCode` from fragment `i` on, with
      buffer `buf` and the events so far. */
  function PackFrom(pk: Packer, frags: seq<Fragment>, i: nat, buf: seq<Fragment>, events: seq<Event>)
    : (r: Result<seq<Event>, ChunkError>)
    requires i <= |frags|
    ensures r.Ok? ==> events <= r.value
    ensures r.Ok? ==> forall j :: i <= j < |frags| && |frags[j].text| > pk.max ==> pk.divide(frags[j]).Ok?
    decreases |frags| - i
  {
    if i == |frags| then Ok(events + Flush(buf))
    else
      var f := frags[i];
      if |f.text| > pk.max then
        match pk.divide(f)
        case Err(e) => Err(e)
        case Ok(pieces) => PackFrom(pk, frags, i + 1, [], events + Flush(buf) + [Divided(f, pieces)])
      else if BufferSize(buf) + |f.text| > pk.max then
        PackFrom(pk, frags, i + 1, [], events + Flush(buf) + [Dropped(f)])
      else
        PackFrom(pk, frags, i + 1, buf + [f], events)
  }

  /** Every fragment from `i` on ends up in exactly one event, in order,
      after the buffered ones. */
  lemma {:induction false} PackFromAccounts(pk: Packer, frags: seq<Fragment>, i: nat, buf: seq<Fragment>, events: seq<Event>)
    requires i <= |frags|
    ensures PackFrom(pk, frags, i, buf, events).Ok? ==>
              FragsOf(PackFrom(pk, frags, i, buf, events).value) == FragsOf(events) + buf + frags[i..]
    decreases |frags| - i, 1
  {
    if i == |frags| {
      FlushFrags(events, buf);
    } else if |frags[i].text| <= pk.max && BufferSize(buf) + |frags[i].text| <= pk.max {
      KeepAccounts(pk, frags, i, buf, events);
    } else {
      CloseAccounts(pk, frags, i, buf, events);
    }
  }

  lemma {:induction false} KeepAccounts(pk: Packer, frags: seq<Fragment>, i: nat, buf: seq<Fragment>, events: seq<Event>)
    requires i < |frags| && |frags[i].text| <= pk.max && BufferSize(buf) + |frags[i].text| <= pk.max
    ensures PackFrom(pk, frags, i, buf, events).Ok? ==>
              FragsOf(PackFrom(pk, frags, i, buf, events).value) == FragsOf(events) + buf + frags[i..]
    decreases |frags| - i, 0
  {
    var f, rest := frags[i], frags[i + 1..];
    assert frags[i..] == [f] + rest;
    assert PackFrom(pk, frags, i, buf, events) == PackFrom(pk, frags, i + 1, buf + [f], events);
    PackFromAccounts(pk, frags, i + 1, buf + [f], events);
    assert FragsOf(events) + (buf + [f]) + rest == FragsOf(events) + buf + ([f] + rest);
  }

  lemma {:induction false} CloseAccounts(pk: Packer, frags: seq<Fragment>, i: nat, buf: seq<Fragment>, events: seq<Event>)
    requires i < |frags| && (|frags[i].text| > pk.max || BufferSize(buf) + |frags[i].text| > pk.max)
    ensures PackFrom(pk, frags, i, buf, events).Ok? ==>
              FragsOf(PackFrom(pk, frags, i, buf, events).value) == FragsOf(events) + buf + frags[i..]
    decreases |frags| - i, 0
  {
    if PackFrom(pk, frags, i, buf, events).Ok? {
      var e := CloseStep(pk, frags, i, buf, events);
      var closed := events + Flush(buf) + [e];
      ClosingFrags(events, buf, e);
      PackFromAccounts(pk, frags, i + 1, [], closed);
      Regroup(FragsOf(events), buf, frags, i);
    }
  }

  lemma Regroup(done: seq<Fragment>, buf: seq<Fragment>, frags: seq<Fragment>, i: nat)
    requires i < |frags|
    ensures done + buf + [frags[i]] + [] + frags[i + 1..] == done + buf + frags[i..]
  {
    assert frags[i..] == [frags[i]] + frags[i + 1..];
  }

  /** A fragment that is divided or dropped closes the buffer with one
      event for itself. */
  lemma CloseStep(pk: Packer, frags: seq<Fragment>, i: nat, buf: seq<Fragment>, events: seq<Event>) returns (e: Event)
    requires i < |frags| && (|frags[i].text| > pk.max || BufferSize(buf) + |frags[i].text| > pk.max)
    requires PackFrom(pk, frags, i, buf, events).Ok?
    ensures !e.Flushed? && e.frag == frags[i]
    ensures PackFrom(pk, frags, i, buf, events) == PackFrom(pk, frags, i + 1, [], events + Flush(buf) + [e])
  {
    var f := frags[i];
    e := if |f.text| > pk.max then Divided(f, pk.divide(f).value) else Dropped(f);
  }

  lemma FlushFrags(events: seq<Event>, buf: seq<Fragment>)
    ensures FragsOf(events + Flush(buf)) == FragsOf(events) + buf
  {
    FragsOfConcat(events, Flush(buf));
    if buf != [] {
      assert FragsOf([Flushed(buf)]) == buf;
    }
  }

  /** Flushing the buffer and then closing on a divided or dropped fragment
      accounts for the buffer and that fragment. */
  lemma ClosingFrags(events: seq<Event>, buf: seq<Fragment>, e: Event)
    requires !e.Flushed?
    ensures FragsOf(events + Flush(buf) + [e]) == FragsOf(events) + buf + [e.frag]
  {
    FlushFrags(events, buf);
    FragsOfConcat(events + Flush(buf), [e]);
    assert FragsOf([e]) == [e.frag];
  }

  /** The loop keeps the trace sound: every event has its reason and no
      buffer is flushed unforced. */
  lemma {:induction false} PackFromSound(pk: Packer, frags: seq<Fragment>, i: nat, buf: seq<Fragment>, events: seq<Event>)
    requires i <= |frags| && Sound(pk, events, buf)
    ensures PackFrom(pk, frags, i, buf, events).Ok? ==>
              EventsOk(pk, PackFrom(pk, frags, i, buf, events).value) && FlushForced(PackFrom(pk, frags, i, buf, events).value)
    decreases |frags| - i
  {
    if i == |frags| {
      EndStep(pk, events, buf);
    } else {
      var f := frags[i];
      if |f.text| > pk.max {
        if pk.divide(f).Ok? {
          var pieces := pk.divide(f).value;
          DivideStep(pk, events, buf, f, pieces);
          PackFromSound(pk, frags, i + 1, [], events + Flush(buf) + [Divided(f, pieces)]);
        }
      } else if BufferSize(buf) + |f.text| > pk.max {
        DropStep(pk, events, buf, f);
        PackFromSound(pk, frags, i + 1, [], events + Flush(buf) + [Dropped(f)]);
      } else {
        BufferSizeAppend(buf, f);
        PackFromSound(pk, frags, i + 1, buf + [f], events);
      }
    }
  }

  /** The only errors are those of re-parsing an oversized fragment. */
  lemma {:induction false} PackFromFails(pk: Packer, frags: seq<Fragment>, i: nat, buf: seq<Fragment>, events: seq<Event>)
    requires i <= |frags|
    ensures PackFrom(pk, frags, i, buf, events).Err? ==>
              exists j :: i <= j < |frags| && |frags[j].text| > pk.max
                          && pk.divide(frags[j]) == Err(PackFrom(pk, frags, i, buf, events).error)
    decreases |frags| - i
  {
    if i < |frags| {
      var f := frags[i];
      if |f.text| > pk.max {
        if pk.divide(f).Ok? {
          var pieces := pk.divide(f).value;
          PackFromFails(pk, frags, i + 1, [], events + Flush(buf) + [Divided(f, pieces)]);
        }
      } else if BufferSize(buf) + |f.text| > pk.max {
        PackFromFails(pk, frags, i + 1, [], events + Flush(buf) + [Dropped(f)]);
      } else {
        PackFromFails(pk, frags, i + 1, buf + [f], events);
      }
    }
  }

  lemma EndStep(pk: Packer, events: seq<Event>, buf: seq<Fragment>)
    ensures FragsOf(events + Flush(buf)) == FragsOf(events) + buf
    ensures Sound(pk, events, buf) ==> EventsOk(pk, events + Flush(buf)) && FlushForced(events + Flush(buf))
  {
    FragsOfConcat(events, Flush(buf));
    var es := events + Flush(buf);
    if buf != [] {
      assert FragsOf([Flushed(buf)]) == buf;
      if Sound(pk, events, buf) {
        forall k | 0 <= k < |es| ensures EventOk(pk, es, k) {
          if k < |events| {
            assert es[k] == events[k];
            assert k > 0 ==> es[k - 1] == events[k - 1];
            assert EventOk(pk, events, k);
          }
        }
      }
    } else {
      assert es == events;
    }
  }

  lemma DivideStep(pk: Packer, events: seq<Event>, buf: seq<Fragment>, f: Fragment, pieces: seq<string>)
    requires |f.text| > pk.max && pk.divide(f) == Ok(pieces)
    ensures FragsOf(events + Flush(buf) + [Divided(f, pieces)]) == FragsOf(events) + buf + [f]
    ensures Sound(pk, events, buf) ==> Sound(pk, events + Flush(buf) + [Divided(f, pieces)], [])
  {
    var es := events + Flush(buf) + [Divided(f, pieces)];
    EndStep(pk, events, buf);
    FragsOfConcat(events + Flush(buf), [Divided(f, pieces)]);
    assert FragsOf([Divided(f, pieces)]) == [f];
    if Sound(pk, events, buf) {
      var pre := events + Flush(buf);
      forall k | 0 <= k < |es| ensures EventOk(pk, es, k) {
        if k < |pre| {
          assert es[k] == pre[k];
          assert k > 0 ==> es[k - 1] == pre[k - 1];
          assert EventOk(pk, pre, k);
        }
      }
    }
  }

  lemma DropStep(pk: Packer, events: seq<Event>, buf: seq<Fragment>, f: Fragment)
    requires |f.text| <= pk.max && BufferSize(buf) + |f.text| > pk.max
    ensures buf != []
    ensures FragsOf(events + Flush(buf) + [Dropped(f)]) == FragsOf(events) + buf + [f]
    ensures Sound(pk, events, buf) ==> Sound(pk, events + Flush(buf) + [Dropped(f)], [])
  {
    var es := events + Flush(buf) + [Dropped(f)];
    EndStep(pk, events, buf);
    FragsOfConcat(events + Flush(buf), [Dropped(f)]);
    assert FragsOf([Dropped(f)]) == [f];
    if Sound(pk, events, buf) {
      var pre := events + Flush(buf);
      assert pre[|pre| - 1] == Flushed(buf);
      forall k | 0 <= k < |es| ensures EventOk(pk, es, k) {
        if k < |pre| {
          assert es[k] == pre[k];
          assert k > 0 ==> es[k - 1] == pre[k - 1];
          assert EventOk(pk, pre, k);
        }
      }
    }
  }

  /** One potential chunk: a fresh buffer, no events yet. */
  function PackRow(pk: Packer, frags: seq<Fragment>): (r: Result<seq<Event>, ChunkError>)
    ensures r.Ok? <==> forall f :: f in frags && |f.text| > pk.max ==> pk.divide(f).Ok?
  {
    PackFromFails(pk, frags, 0, [], []);
    assert forall j :: 0 <= j < |frags| ==> frags[j] in frags;
    PackFrom(pk, frags, 0, [], [])
  }

  /** Every fragment of the row is accounted for exactly once and in order
      (kept in a flushed buffer, divided or dropped), and every event has
      its reason. */
  lemma PackRowAccounts(pk: Packer, frags: seq<Fragment>)
    ensures PackRow(pk, frags).Ok? ==> FragsOf(PackRow(pk, frags).value) == frags
    ensures PackRow(pk, frags).Ok? ==> EventsOk(pk, PackRow(pk, frags).value) && FlushForced(PackRow(pk, frags).value)
  {
    assert FragsOf([]) + [] + frags[0..] == frags;
    assert Sound(pk, [], []);
    PackFromAccounts(pk, frags, 0, [], []);
    PackFromSound(pk, frags, 0, [], []);
  }

  // ---------------------------------------------------------------- chunks

  /** A chunk's text and the paths of the code in it. */
  datatype Chunk = Chunk(text: string, paths: seq<string>)

  /** `rel_paths.add(p)`: the set of paths, listed in first-insertion order. */
  function AddPath(ps: seq<string>, p: string): seq<string> {
    if p in ps then ps else ps + [p]
  }

  function PathsOf(fs: seq<Fragment>): (r: seq<string>)
    ensures forall p :: p in r <==> exists f :: f in fs && f.path == p
    ensures forall i, j :: 0 <= i < j < |r| ==> r[i] != r[j]
    decreases |fs|
  {
    if fs == [] then []
    else
      var r := AddPath(PathsOf(fs[..|fs| - 1]), fs[|fs| - 1].path);
      assert fs == fs[..|fs| - 1] + [fs[|fs| - 1]];
      r
  }

  /** The chunks an event contributes: one per flushed buffer, its fragment
      texts joined by `"\n"`; one per piece of a divided fragment, carrying
      that fragment's path only; none for a dropped fragment. */
  function EmitEvent(e: Event): seq<Chunk> {
    match e
    case Flushed(fs) => [Chunk(Join(Texts(fs)), PathsOf(fs))]
    case Divided(f, ps) => seq(|ps|, j requires 0 <= j < |ps| => Chunk(ps[j], [f.path]))
    case Dropped(_) => []
  }

  function EmitAll(es: seq<Event>): seq<Chunk> {
    if es == [] then [] else EmitEvent(es[0]) + EmitAll(es[1..])
  }

  /** A flushed buffer's text is its fragments plus one uncounted newline
      between each two: at most `max_size + k - 1` characters for `k`
      fragments. */
  lemma FlushedLength(pk: Packer, es: seq<Event>, k: nat)
    requires k < |es| && EventsOk(pk, es) && es[k].Flushed?
    ensures |Join(Texts(es[k].frags))| == BufferSize(es[k].frags) + |es[k].frags| - 1
    ensures |Join(Texts(es[k].frags))| <= pk.max + |es[k].frags| - 1
  {
    assert EventOk(pk, es, k);
    JoinLength(Texts(es[k].frags), '\n');
  }

  /** Every chunk of a sound trace names at least one path, and only paths
      of fragments it accounts for. */
  predicate FlushesNonEmpty(es: seq<Event>) {
    forall k :: 0 <= k < |es| && es[k].Flushed? ==> es[k].frags != []
  }

  lemma {:induction false} ChunkPaths(es: seq<Event>)
    requires FlushesNonEmpty(es)
    ensures forall c :: c in EmitAll(es) ==> c.paths != []
    ensures forall c, p :: c in EmitAll(es) && p in c.paths ==> exists f :: f in FragsOf(es) && f.path == p
    decreases |es|
  {
    if es != [] {
      assert FlushesNonEmpty(es[1..]) by {
        forall k | 0 <= k < |es[1..]| && es[1..][k].Flushed? ensures es[1..][k].frags != [] {
          assert es[1..][k] == es[k + 1];
        }
      }
      ChunkPaths(es[1..]);
      forall c, p | c in EmitEvent(es[0]) && p in c.paths
        ensures exists f :: f in FragsOfEvent(es[0]) && f.path == p
      {
        if es[0].Divided? {
          var f := es[0].frag;
          assert f in FragsOfEvent(es[0]);
        }
      }
      forall c | c in EmitEvent(es[0]) ensures c.paths != [] {
        if es[0].Flushed? {
          assert es[0].frags[0] in es[0].frags;
        }
      }
    }
  }

  /** The row loop: each potential chunk is packed on its own, so no chunk
      mixes fragments of two rows; the first error aborts everything. */
  function PackRows(pk: Packer, rows: seq<seq<Fragment>>): (r: Result<seq<Chunk>, ChunkError>)
    ensures r.Ok? <==> forall k :: 0 <= k < |rows| ==> PackRow(pk, rows[k]).Ok?
  {
    PackEach(row => PackRow(pk, row), rows)
  }

  /** The row loop over any per-row packer. */
  function PackEach(pack: seq<Fragment> -> Result<seq<Event>, ChunkError>, rows: seq<seq<Fragment>>)
    : (r: Result<seq<Chunk>, ChunkError>)
    ensures r.Ok? <==> forall k :: 0 <= k < |rows| ==> pack(rows[k]).Ok?
  {
    if rows == [] then Ok([])
    else
      var es :- pack(rows[0]);
      var rest :- PackEach(pack, rows[1..]);
      Ok(EmitAll(es) + rest)
  }

  /** Splitting the rows anywhere splits the chunks there too. */
  lemma PackRowsConcat(pk: Packer, a: seq<seq<Fragment>>, b: seq<seq<Fragment>>)
    requires PackRows(pk, a).Ok? && PackRows(pk, b).Ok?
    ensures PackRows(pk, a + b) == Ok(PackRows(pk, a).value + PackRows(pk, b).value)
  {
    PackEachConcat(row => PackRow(pk, row), a, b);
  }

  lemma {:induction false} PackEachConcat(pack: seq<Fragment> -> Result<seq<Event>, ChunkError>,
                                          a: seq<seq<Fragment>>, b: seq<seq<Fragment>>)
    requires PackEach(pack, a).Ok? && PackEach(pack, b).Ok?
    ensures PackEach(pack, a + b) == Ok(PackEach(pack, a).value + PackEach(pack, b).value)
    decreases |a|
  {
    if a == [] {
      assert a + b == b;
      var u := PackEach(pack, b).value;
      assert PackEach(pack, a) == Ok([]);
      assert [] + u == u;
    } else {
      var ab := a + b;
      assert ab[0] == a[0] && ab[1..] == a[1..] + b;
      PackEachConcat(pack, a[1..], b);
      var h, t, u := EmitAll(pack(a[0]).value), PackEach(pack, a[1..]).value, PackEach(pack, b).value;
      assert PackEach(pack, ab) == Ok(h + (t + u));
      assert h + (t + u) == (h + t) + u;
    }
  }

  lemma PackRowsHead(pk: Packer, rows: seq<seq<Fragment>>)
    requires rows != []
    ensures PackRows(pk, rows).Ok? <==> PackRow(pk, rows[0]).Ok? && PackRows(pk, rows[1..]).Ok?
    ensures PackRows(pk, rows).Ok? ==>
              PackRows(pk, rows).value == EmitAll(PackRow(pk, rows[0]).value) + PackRows(pk, rows[1..]).value
  {
  }

  /** Every chunk of a successful run names at least one path. */
  lemma {:induction false} PackRowsPaths(pk: Packer, rows: seq<seq<Fragment>>)
    requires PackRows(pk, rows).Ok?
    ensures forall c :: c in PackRows(pk, rows).value ==> c.paths != []
    decreases |rows|
  {
    if rows != [] {
      PackRowAccounts(pk, rows[0]);
      var es := PackRow(pk, rows[0]).value;
      assert FlushesNonEmpty(es) by {
        forall k | 0 <= k < |es| && es[k].Flushed? ensures es[k].frags != [] {
          assert EventOk(pk, es, k);
        }
      }
      ChunkPaths(es);
      PackRowsPaths(pk, rows[1..]);
    }
  }

  /** Each row starts with an empty buffer: every chunk comes from the
      events of one row alone. */
  lemma {:induction false} RowsStaySeparate(pk: Packer, rows: seq<seq<Fragment>>)
    requires PackRows(pk, rows).Ok?
    ensures forall c :: c in PackRows(pk, rows).value ==>
              exists i :: 0 <= i < |rows| && PackRow(pk, rows[i]).Ok? && c in EmitAll(PackRow(pk, rows[i]).value)
    decreases |rows|
  {
    if rows != [] {
      var head := EmitAll(PackRow(pk, rows[0]).value);
      RowsStaySeparate(pk, rows[1..]);
      forall c | c in PackRows(pk, rows).value
        ensures exists i :: 0 <= i < |rows| && PackRow(pk, rows[i]).Ok? && c in EmitAll(PackRow(pk, rows[i]).value)
      {
        if c !in head {
          var i :| 0 <= i < |rows[1..]| && PackRow(pk, rows[1..][i]).Ok? && c in EmitAll(PackRow(pk, rows[1..][i]).value);
          assert rows[1..][i] == rows[i + 1];
        }
      }
    }
  }

  /** The pieces of a divided fragment: at least one, each carrying exactly
      that fragment's path, and joined they are the slices of the split
      frontier of its first re-parsed root. */
  lemma DividedChunks(cfg: Config, es: seq<Event>, k: nat)
    requires k < |es| && EventsOk(PackerOf(cfg), es) && es[k].Divided?
    ensures EmitEvent(es[k]) != []
    ensures forall c :: c in EmitEvent(es[k]) ==> c.paths == [es[k].frag.path]
    ensures Parse(cfg.dialect, es[k].frag.text).Ok? && Parse(cfg.dialect, es[k].frag.text).value != []
    ensures Join(ChunkTexts(EmitEvent(es[k]))) ==
              Join(Slices(es[k].frag.text, Frontier(Parse(cfg.dialect, es[k].frag.text).value[0], cfg.max)))
  {
    assert EventOk(PackerOf(cfg), es, k);
    var ps := es[k].pieces;
    assert Divide(cfg, es[k].frag) == Ok(ps);
    assert ChunkTexts(EmitEvent(es[k])) == ps;
  }

  /** The fragment that does not fit beside the buffer is lost: with a budget
      of 4, `"aaa"` is kept and `"bb"` appears in no chunk. */
  lemma OverflowDropped(divide: Fragment -> Result<seq<string>, ChunkError>)
    ensures PackRows(Packer(4, divide), [[Fragment("aaa", "r/a.metta"), Fragment("bb", "r/b.metta")]])
            == Ok([Chunk("aaa", ["r/a.metta"])])
  {
    var pk := Packer(4, divide);
    var fa, fb := Fragment("aaa", "r/a.metta"), Fragment("bb", "r/b.metta");
    var frags := [fa, fb];
    assert BufferSize([]) == 0;
    assert BufferSize([fa]) == 3 by { BufferSizeAppend([], fa); }
    var es := [Flushed([fa]), Dropped(fb)];
    assert Flush([]) == [] && Flush([fa]) == [Flushed([fa])];
    assert es + [] == es;
    assert PackFrom(pk, frags, 2, [], es) == Ok(es);
    assert [] + Flush([fa]) + [Dropped(fb)] == es;
    assert |fb.text| == 2 && BufferSize([fa]) + |fb.text| > 4;
    assert PackFrom(pk, frags, 1, [fa], []) == Ok(es);
    assert [] + [fa] == [fa];
    assert |fa.text| == 3 && BufferSize([]) + |fa.text| <= 4;
    assert PackFrom(pk, frags, 0, [], []) == Ok(es);
    assert PathsOf([fa]) == ["r/a.metta"];
    assert Join(Texts([fa])) == "aaa";
    assert EmitAll([Dropped(fb)]) == [];
    assert EmitAll([Flushed([fa]), Dropped(fb)]) == [Chunk("aaa", ["r/a.metta"])];
  }

  // -------------------------------------------------------------- Backend

  /** `if chunk != ""`: drop chunks whose text is empty. */
  function NonEmpty(cs: seq<Chunk>): (r: seq<Chunk>)
    ensures forall c :: c in r <==> c in cs && c.text != ""
    ensures |r| <= |cs|
  {
    if cs == [] then []
    else if cs[0].text == "" then NonEmpty(cs[1..])
    else [cs[0]] + NonEmpty(cs[1..])
  }

  /** The filter keeps a lone chunk exactly when its text is non-empty. */
  lemma NonEmptySingle(c: Chunk)
    ensures NonEmpty([c]) == if c.text == "" then [] else [c]
  {
    assert [c][1..] == [];
  }

  /** The filter works chunk by chunk: it keeps the order and the
      duplicates of its input. */
  lemma {:induction false} NonEmptyConcat(a: seq<Chunk>, b: seq<Chunk>)
    ensures NonEmpty(a + b) == NonEmpty(a) + NonEmpty(b)
  {
    if a == [] {
      assert a + b == b;
    } else {
      assert (a + b)[0] == a[0];
      assert (a + b)[1..] == a[1..] + b;
      NonEmptyConcat(a[1..], b);
    }
  }

  /** `ChunkPreprocessedCode` (Backend), with the document builder applied
      to every non-empty chunk. */
  function ChunkPreprocessedCode(rows: seq<seq<Fragment>>, max: int, hash: string -> HexDigest)
    : (r: Result<seq<BackendDoc>, ChunkError>)
    ensures r.Ok? <==> PackRows(PackerOf(BackendConfig(max)), rows).Ok?
    ensures r.Ok? ==> |r.value| <= |PackRows(PackerOf(BackendConfig(max)), rows).value|
    ensures r.Ok? ==> forall i :: 0 <= i < |r.value| ==> r.value[i].chunk != "" && r.value[i].section.Some?
    ensures r.Ok? ==> forall i :: 0 <= i < |r.value| ==>
              exists c :: c in PackRows(PackerOf(BackendConfig(max)), rows).value && c.text == r.value[i].chunk
    ensures r.Ok? ==> var kept := NonEmpty(PackRows(PackerOf(BackendConfig(max)), rows).value);
              |r.value| == |kept| &&
              forall i :: 0 <= i < |kept| ==>
                r.value[i].chunk == kept[i].text && r.value[i].file == FileNames(kept[i].paths) &&
                r.value[i].chunkId <= hash(ListRepr(kept[i].paths) + ":" + kept[i].text)
    ensures r.Ok? ==> var kept := NonEmpty(PackRows(PackerOf(BackendConfig(max)), rows).value);
              forall i :: 0 <= i < |kept| ==> r.value[i] == BuildBackendDoc(kept[i].text, kept[i].paths, hash)
  {
    var chunks :- PackRows(PackerOf(BackendConfig(max)), rows);
    PackRowsPaths(PackerOf(BackendConfig(max)), rows);
    var kept := NonEmpty(chunks);
    Ok(seq(|kept|, i requires 0 <= i < |kept| => BuildBackendDoc(kept[i].text, kept[i].paths, hash)))
  }

  // ----------------------------------------------------------- Experiment

  /** Look up the stored ranges of a row's ids, cutting the row at the
      first id without a node: `source_code[st:en]` with the node's path. */
  function Resolve(st: Store, source: string, ids: seq<nat>): (r: (seq<Fragment>, Option<nat>))
    ensures |r.0| <= |ids|
    ensures forall j :: 0 <= j < |r.0| ==> ids[j] < |st.nodes|
    ensures forall j :: 0 <= j < |r.0| ==> r.0[j] == Fragment(PySlice(source, st.nodes[ids[j]].start, st.nodes[ids[j]].end), st.nodes[ids[j]].path)
    ensures r.1.None? <==> |r.0| == |ids|
    ensures r.1.Some? ==> r.1.value == ids[|r.0|] && r.1.value >= |st.nodes|
  {
    if ids == [] then ([], None)
    else if ids[0] >= |st.nodes| then ([], Some(ids[0]))
    else
      var n := st.nodes[ids[0]];
      var (rest, missing) := Resolve(st, source, ids[1..]);
      ([Fragment(PySlice(source, n.start, n.end), n.path)] + rest, missing)
  }

  /** One row of the Experiment: fragments are looked up as they come, so
      an unknown id aborts only after the fragments before it have been
      packed (a re-parse error among them wins). */
  function PackIds(d: Dialect, max: int, st: Store, source: string, ids: seq<nat>): (r: Result<seq<string>, ChunkError>)
    ensures r.Ok? ==> Resolve(st, source, ids).1.None?
    ensures r.Err? && r.error.UnknownNode? ==> Resolve(st, source, ids).1 == Some(r.error.id)
  {
    var (frags, missing) := Resolve(st, source, ids);
    PackFromFails(PackerOf(ExperimentConfig(d, max)), frags, 0, [], []);
    var es :- PackRow(PackerOf(ExperimentConfig(d, max)), frags);
    if missing.Some? then Err(UnknownNode(missing.value))
    else Ok(ChunkTexts(EmitAll(es)))
  }

  function ChunkTexts(cs: seq<Chunk>): (r: seq<string>)
    ensures |r| == |cs| && forall i :: 0 <= i < |cs| ==> r[i] == cs[i].text
  {
    if cs == [] then [] else [cs[0].text] + ChunkTexts(cs[1..])
  }

  /** `ChunkPreprocessedCode` (Experiment): no empty-text filter, and the
      chunks are plain strings. */
  function ChunkByIds(d: Dialect, rows: seq<seq<nat>>, max: int, st: Store, source: string)
    : (r: Result<seq<string>, ChunkError>)
    ensures r.Ok? ==> forall i :: 0 <= i < |rows| ==> Resolve(st, source, rows[i]).1.None?
    ensures r.Err? && r.error.UnknownNode? ==> exists i :: 0 <= i < |rows| && Resolve(st, source, rows[i]).1 == Some(r.error.id)
  {
    if rows == [] then Ok([])
    else
      var first :- PackIds(d, max, st, source, rows[0]);
      var rest :- ChunkByIds(d, rows[1..], max, st, source);
      Ok(first + rest)
  }

  /** A store whose index holds only recorded ids, one row per name, never
      fails the lookup on its potential chunks. */
  lemma StoredIdsResolve(st: Store, source: string, i: nat)
    requires IdsValid(st) && UniqueNames(st.symbols) && i < |st.symbols|
    ensures Resolve(st, source, PotentialChunks(st.symbols)[i]).1.None?
  {
    var ids := PotentialChunks(st.symbols)[i];
    var row := st.symbols[i];
    if Resolve(st, source, ids).1.Some? {
      var k := |Resolve(st, source, ids).0|;
      var id := ids[k];
      assert id in Flatten(row);
      FlattenMembers(row, id);
      var b :| id in Get(row, b);
      FindUnique(st.symbols, i);
      assert Has(st.symbols, row.name, b, id);
    }
  }

  /** The fragments of each row, all ids resolved. */
  function ResolvedRows(st: Store, source: string, rows: seq<seq<nat>>): (r: seq<seq<Fragment>>)
    ensures |r| == |rows|
    ensures forall i :: 0 <= i < |rows| ==> r[i] == Resolve(st, source, rows[i]).0
  {
    if rows == [] then [] else [Resolve(st, source, rows[0]).0] + ResolvedRows(st, source, rows[1..])
  }

  lemma {:induction false} ChunkTextsConcat(a: seq<Chunk>, b: seq<Chunk>)
    ensures ChunkTexts(a + b) == ChunkTexts(a) + ChunkTexts(b)
  {
    assert |ChunkTexts(a + b)| == |ChunkTexts(a) + ChunkTexts(b)|;
    forall i | 0 <= i < |a + b| ensures ChunkTexts(a + b)[i] == (ChunkTexts(a) + ChunkTexts(b))[i] {
      if i < |a| {
        assert (a + b)[i] == a[i];
      } else {
        assert (a + b)[i] == b[i - |a|];
      }
    }
  }

  /** When every id is known, the Experiment packs exactly like the shared
      row packer (with the single-pair merge) and keeps only the texts. */
  lemma {:induction false} ChunkByIdsPacks(d: Dialect, rows: seq<seq<nat>>, max: int, st: Store, source: string)
    requires forall i :: 0 <= i < |rows| ==> Resolve(st, source, rows[i]).1.None?
    ensures var p := PackRows(PackerOf(ExperimentConfig(d, max)), ResolvedRows(st, source, rows));
            && (ChunkByIds(d, rows, max, st, source).Ok? <==> p.Ok?)
            && (p.Ok? ==> ChunkByIds(d, rows, max, st, source).value == ChunkTexts(p.value))
            && (p.Err? ==> ChunkByIds(d, rows, max, st, source).error == p.error)
    decreases |rows|
  {
    if rows != [] {
      var pk := PackerOf(ExperimentConfig(d, max));
      var rr := ResolvedRows(st, source, rows);
      assert rr[0] == Resolve(st, source, rows[0]).0;
      assert rr[1..] == ResolvedRows(st, source, rows[1..]);
      assert forall i :: 0 <= i < |rows[1..]| ==> Resolve(st, source, rows[1..][i]).1.None? by {
        forall i | 0 <= i < |rows[1..]| ensures Resolve(st, source, rows[1..][i]).1.None? {
          assert rows[1..][i] == rows[i + 1];
        }
      }
      ChunkByIdsPacks(d, rows[1..], max, st, source);
      if PackRow(pk, rr[0]).Ok? && PackRows(pk, rr[1..]).Ok? {
        ChunkTextsConcat(EmitAll(PackRow(pk, rr[0]).value), PackRows(pk, rr[1..]).value);
      }
    }
  }
}

=== FILE: chunk_doc.dfy ===
/** `_build_chunk_doc`: the document stored for one chunk. Its repository,
    section and file names are derived from the relative path(s) of the
    code in it, `repo/dir/.../file`, with POSIX `dirname` and `basename`;
    its id is the first 16 hex digits of the SHA-256 digest of the paths
    and the text. The digest is a parameter of the model.

    The Backend builds one document from a list of paths and keeps one
    section and one file name per path; the Experiment builds it from a
    single path. */
module ChunkDoc {
  import opened Outcome
  import opened Lines

  predicate IsHexDigit(ch: char) {
    '0' <= ch <= '9' || 'a' <= ch <= 'f'
  }

  /** What `hexdigest()` returns for SHA-256: 64 lower-case hex digits. */
  type HexDigest = s: string | |s| == 64 && forall i :: 0 <= i < |s| ==> IsHexDigit(s[i])
    witness Zeros(64)

  function Zeros(n: nat): (r: string)
    ensures |r| == n && forall i :: 0 <= i < n ==> r[i] == '0'
  {
    if n == 0 then "" else "0" + Zeros(n - 1)
  }

  /** `hexdigest()[:16]`. */
  function ChunkId(digest: HexDigest): (r: string)
    ensures |r| == 16
    ensures forall i :: 0 <= i < |r| ==> IsHexDigit(r[i])
    ensures r <= digest
  {
    digest[..16]
  }

  // ------------------------------------------------------ POSIX path names

  predicate AllSlashes(s: string) {
    forall k :: 0 <= k < |s| ==> s[k] == '/'
  }

  /** Index just past the last `/`, or 0 when there is none. */
  function AfterLastSlash(p: string): (i: nat)
    ensures i <= |p|
    ensures i > 0 ==> p[i - 1] == '/'
    ensures forall k :: i <= k < |p| ==> p[k] != '/'
    ensures i == 0 <==> '/' !in p
  {
    if p == [] then 0
    else if p[|p| - 1] == '/' then |p|
    else
      var i := AfterLastSlash(p[..|p| - 1]);
      assert forall k :: 0 <= k < |p| - 1 ==> p[..|p| - 1][k] == p[k];
      i
  }

  /** `os.path.basename`: everything after the last `/`. */
  function Basename(p: string): (r: string)
    ensures '/' !in r
    ensures |r| <= |p| && r == p[|p| - |r|..]
    ensures '/' !in p ==> r == p
  {
    p[AfterLastSlash(p)..]
  }

  /** `s.rstrip("/")`. */
  function StripSlashes(s: string): (r: string)
    ensures r <= s
    ensures AllSlashes(s[|r|..])
    ensures r == [] || r[|r| - 1] != '/'
  {
    if s != [] && s[|s| - 1] == '/' then
      var r := StripSlashes(s[..|s| - 1]);
      assert s[..|s| - 1][|r|..] + ['/'] == s[|r|..];
      r
    else s
  }

  /** `os.path.dirname`: the text up to the last `/`, its trailing slashes
      removed unless it consists of slashes only. */
  function Dirname(p: string): string {
    var head := p[..AfterLastSlash(p)];
    if head != [] && !AllSlashes(head) then StripSlashes(head) else head
  }

  /** `dirname` and `basename` take a path apart: the directory, a run of
      slashes, the base name. The run is empty only when the directory is
      empty or all slashes (the root). */
  lemma DirnameBasename(p: string)
    ensures var d := Dirname(p); var b := Basename(p);
            |d| + |b| <= |p| && p == d + p[|d|..|p| - |b|] + b && AllSlashes(p[|d|..|p| - |b|])
    ensures var d := Dirname(p); var b := Basename(p);
            !AllSlashes(d) ==> |d| + |b| < |p| && d[|d| - 1] != '/'
    ensures '/' !in p ==> Dirname(p) == "" && Basename(p) == p
  {
    var i := AfterLastSlash(p);
    var head := p[..i];
    var d, b := Dirname(p), Basename(p);
    assert b == p[i..] && |p| - |b| == i;
    if head != [] && !AllSlashes(head) {
      StrippedHead(p, i);
    } else {
      assert d == head;
      assert p == head + p[i..i] + p[i..];
    }
  }

  lemma StrippedHead(p: string, i: nat)
    requires 0 < i <= |p| && p[i - 1] == '/' && !AllSlashes(p[..i])
    ensures var d := StripSlashes(p[..i]);
            |d| < i && p == d + p[|d|..i] + p[i..] && AllSlashes(p[|d|..i]) && d != [] && d[|d| - 1] != '/'
  {
    var head := p[..i];
    var d := StripSlashes(head);
    assert head[|d|..] == p[|d|..i];
    assert head[|head| - 1] == '/';
    assert head[0..] == head;
    assert p == head + p[i..];
  }

  /** `.replace("\\", "/")`. */
  function BackslashesToSlashes(s: string): (r: string)
    ensures |r| == |s|
    ensures forall k :: 0 <= k < |s| ==> r[k] == if s[k] == '\\' then '/' else s[k]
  {
    if s == [] then [] else [if s[0] == '\\' then '/' else s[0]] + BackslashesToSlashes(s[1..])
  }

  // --------------------------------------------------- repository and rest

  /** Index of the first `/`. */
  function FirstSlash(p: string): (k: nat)
    requires '/' in p
    ensures k < |p| && p[k] == '/'
    ensures forall j :: 0 <= j < k ==> p[j] != '/'
  {
    if p[0] == '/' then 0
    else
      assert '/' in p[1..] by { var j :| 0 <= j < |p| && p[j] == '/'; assert p[1..][j - 1] == '/'; }
      1 + FirstSlash(p[1..])
  }

  /** Splitting on every `/` starts with the text before the first `/`,
      followed by the split of the rest. */
  lemma {:induction false} SplitAt(p: string, k: nat)
    requires k < |p| && p[k] == '/'
    requires forall j :: 0 <= j < k ==> p[j] != '/'
    ensures SplitOn(p, '/') == [p[..k]] + SplitOn(p[k + 1..], '/')
    decreases k
  {
    if k > 0 {
      var q := p[1..];
      assert forall j :: 0 <= j < k - 1 ==> q[j] != '/' by {
        forall j | 0 <= j < k - 1 ensures q[j] != '/' { assert q[j] == p[j + 1]; }
      }
      assert q[k - 1] == p[k];
      SplitAt(q, k - 1);
      var rest := SplitOn(q, '/');
      assert q[..k - 1] == p[1..k] && q[k..] == p[k + 1..];
      assert p[0] != '/';
      assert SplitOn(p, '/') == [[p[0]] + rest[0]] + rest[1..];
      assert [p[0]] + p[1..k] == p[..k];
    }
  }

  /** Backend: `parts = path.split("/")`; the repository is `parts[0]`. */
  function Repo(path: string): string {
    SplitOn(path, '/')[0]
  }

  /** Backend: `"/".join(parts[1:])` when there is more than one part. */
  function InsideRepo(path: string): string {
    var parts := SplitOn(path, '/');
    if |parts| > 1 then JoinWith(parts[1..], '/') else ""
  }

  /** Experiment: `path.split("/", 1)`. */
  function SplitOnce(path: string): (parts: seq<string>)
    ensures 1 <= |parts| <= 2
    ensures |parts| == 2 <==> '/' in path
  {
    if '/' in path then [path[..FirstSlash(path)], path[FirstSlash(path) + 1..]] else [path]
  }

  /** The repository is the text before the first `/`, the rest the text
      after it; a path without `/` is all repository. Both splits agree. */
  lemma RepoAndRest(path: string)
    ensures '/' !in Repo(path) && Repo(path) <= path
    ensures '/' in path ==> path == Repo(path) + "/" + InsideRepo(path)
    ensures '/' !in path ==> Repo(path) == path && InsideRepo(path) == ""
    ensures Repo(path) == SplitOnce(path)[0]
    ensures InsideRepo(path) == if |SplitOnce(path)| > 1 then SplitOnce(path)[1] else ""
  {
    if '/' in path {
      var k := FirstSlash(path);
      SlashedRepo(path);
      assert path == path[..k] + "/" + path[k + 1..];
    } else {
      assert SplitOn(path, '/') == [SplitOn(path, '/')[0]];
      JoinSplit(path, '/');
    }
  }

  lemma SlashedRepo(path: string)
    requires '/' in path
    ensures Repo(path) == path[..FirstSlash(path)]
    ensures InsideRepo(path) == path[FirstSlash(path) + 1..]
  {
    var k := FirstSlash(path);
    var parts := SplitOn(path, '/');
    SplitAt(path, k);
    assert parts[1..] == SplitOn(path[k + 1..], '/');
    JoinSplit(path[k + 1..], '/');
  }

  /** The repository is the longest prefix of the path free of `/`. */
  lemma RepoPrefix(path: string)
    ensures '/' !in Repo(path) && Repo(path) <= path
    ensures Repo(path) == path || path[|Repo(path)|] == '/'
  {
    RepoAndRest(path);
    if '/' in path {
      assert path == Repo(path) + "/" + InsideRepo(path);
    }
  }

  // ----------------------------------------------------- section and file

  /** Backend per path: the dirname of the part inside the repository, or
      None when that part is empty. A file at the repository root gets
      `Some("")`. */
  function Section(path: string): Option<string> {
    var inside := InsideRepo(path);
    if inside != "" then Some(BackslashesToSlashes(Dirname(inside))) else None
  }

  /** Backend per path: the basename of the part inside the repository, or
      the whole path when that part is empty. */
  function FileName(path: string): string {
    var inside := InsideRepo(path);
    if inside != "" then Basename(inside) else path
  }

  /** Experiment: the same, from `split("/", 1)`, with an empty section
      turned into None by the final `section if section else None`. */
  function SectionOnce(path: string): Option<string> {
    var parts := SplitOnce(path);
    var inside := if |parts| > 1 then parts[1] else "";
    var section := if inside != "" then Some(BackslashesToSlashes(Dirname(inside))) else None;
    if section.Some? && section.value != "" then section else None
  }

  function FileOnce(path: string): string {
    var parts := SplitOnce(path);
    var inside := if |parts| > 1 then parts[1] else "";
    if inside != "" then Basename(inside) else path
  }

  /** The two builders name the same file, and the same section except that
      the Experiment reports None where the Backend reports `""`. */
  lemma BuildersAgreePerPath(path: string)
    ensures FileOnce(path) == FileName(path)
    ensures SectionOnce(path) == if Section(path) == Some("") then None else Section(path)
  {
    RepoAndRest(path);
  }

  /** A file directly under the repository: `repo/a.metta`. */
  lemma RepoRootFile()
    ensures Section("repo/a.metta") == Some("")
    ensures SectionOnce("repo/a.metta") == None
    ensures FileName("repo/a.metta") == "a.metta"
  {
    RootFileInside();
    RootFileNames();
    BuildersAgreePerPath("repo/a.metta");
  }

  lemma RootFileInside()
    ensures InsideRepo("repo/a.metta") == "a.metta"
  {
    var path := "repo/a.metta";
    assert path[4] == '/';
    RepoAndRest(path);
    assert FirstSlash(path) == 4;
    assert path[5..] == "a.metta";
  }

  lemma RootFileNames()
    ensures Dirname("a.metta") == "" && Basename("a.metta") == "a.metta"
    ensures BackslashesToSlashes("") == ""
  {
    var inside := "a.metta";
    assert '/' !in inside by {
      assert forall k :: 0 <= k < |inside| ==> inside[k] != '/';
    }
    DirnameBasename(inside);
  }

  // ------------------------------------------------------------ documents

  /** `repr` of a list of paths, as the id's key spells it. */
  function ListRepr(paths: seq<string>): string {
    "[" + Items(paths) + "]"
  }

  function Items(paths: seq<string>): string {
    if paths == [] then ""
    else if |paths| == 1 then "'" + paths[0] + "'"
    else "'" + paths[0] + "', " + Items(paths[1..])
  }

  datatype BackendDoc = BackendDoc(
    chunkId: string, source: string, chunk: string, project: string, repo: string,
    section: Option<seq<Option<string>>>, file: seq<string>,
    version: string, isEmbedded: bool, description: Option<string>)

  datatype ExperimentDoc = ExperimentDoc(
    chunkId: string, source: string, chunk: string, project: string, repo: string,
    section: Option<string>, file: string,
    version: string, isEmbedded: bool, description: Option<string>)

  function Sections(paths: seq<string>): (r: seq<Option<string>>)
    ensures |r| == |paths|
    ensures forall i :: 0 <= i < |paths| ==> r[i] == Section(paths[i])
  {
    if paths == [] then [] else [Section(paths[0])] + Sections(paths[1..])
  }

  function FileNames(paths: seq<string>): (r: seq<string>)
    ensures |r| == |paths|
    ensures forall i :: 0 <= i < |paths| ==> r[i] == FileName(paths[i])
  {
    if paths == [] then [] else [FileName(paths[0])] + FileNames(paths[1..])
  }

  /** Backend `_build_chunk_doc(chunk_text, rel_path)` for a list of paths. */
  function BuildBackendDoc(text: string, paths: seq<string>, hash: string -> HexDigest): (doc: BackendDoc)
    ensures |doc.chunkId| == 16 && doc.chunkId <= hash(ListRepr(paths) + ":" + text)
    ensures doc.source == "code" && doc.version == "1" && !doc.isEmbedded && doc.description == None
    ensures doc.chunk == text && doc.project == doc.repo
    ensures paths == [] <==> doc.section == None
    ensures paths == [] ==> doc.repo == "unknown-repo" && doc.file == []
    ensures paths != [] ==> '/' !in doc.repo && doc.repo <= paths[0]
                            && (doc.repo == paths[0] || paths[0][|doc.repo|] == '/')
    ensures |doc.file| == |paths|
    ensures doc.section.Some? ==> |doc.section.value| == |paths|
    ensures forall i :: 0 <= i < |paths| ==> doc.section.value[i] == Section(paths[i]) && doc.file[i] == FileName(paths[i])
  {
    var repo := if paths != [] then Repo(paths[0]) else "unknown-repo";
    RepoPrefix(if paths != [] then paths[0] else "");
    var sections := Sections(paths);
    BackendDoc(ChunkId(hash(ListRepr(paths) + ":" + text)), "code", text, repo, repo,
               if sections != [] then Some(sections) else None, FileNames(paths), "1", false, None)
  }

  /** Experiment `_build_chunk_doc(chunk_text, rel_path)`. */
  function BuildExperimentDoc(text: string, path: string, hash: string -> HexDigest): (doc: ExperimentDoc)
    ensures |doc.chunkId| == 16 && doc.chunkId <= hash(path + ":" + text)
    ensures doc.source == "code" && doc.version == "1" && !doc.isEmbedded && doc.description == None
    ensures doc.chunk == text && doc.project == doc.repo
    ensures '/' !in doc.repo && doc.repo <= path && (doc.repo == path || path[|doc.repo|] == '/')
    ensures doc.section != Some("")
  {
    var repo := SplitOnce(path)[0];
    RepoAndRest(path);
    RepoPrefix(path);
    ExperimentDoc(ChunkId(hash(path + ":" + text)), "code", text, repo, repo,
                  SectionOnce(path), FileOnce(path), "1", false, None)
  }

  /** For a single path, the Backend document and the Experiment document
      agree on everything but the list wrapping, the id's key and an empty
      section. */
  lemma DocsAgree(text: string, path: string, hash: string -> HexDigest)
    ensures var b := BuildBackendDoc(text, [path], hash);
            var e := BuildExperimentDoc(text, path, hash);
            b.repo == e.repo && b.file == [e.file] && b.chunk == e.chunk
    ensures BuildBackendDoc(text, [path], hash).section == Some([Section(path)])
    ensures BuildExperimentDoc(text, path, hash).section == (if Section(path) == Some("") then None else Section(path))
  {
    BuildersAgreePerPath(path);
    RepoAndRest(path);
    assert Sections([path]) == [Section(path)];
  }
}

=== FILE: lines.dfy ===
/** Joining strings with a separator and splitting them apart again:
    `sep.join(parts)` and `s.split(sep)` for a one-character separator.
    The chunker joins pieces with `"\n"`; the document builder splits and
    joins paths on `"/"`. */
module Lines {

  /** `sep.join(parts)`. */
  function JoinWith(parts: seq<string>, sep: char): string {
    if parts == [] then ""
    else if |parts| == 1 then parts[0]
    else parts[0] + [sep] + JoinWith(parts[1..], sep)
  }

  /** `"\n".join(pieces)`. */
  function Join(pieces: seq<string>): string {
    JoinWith(pieces, '\n')
  }

  /** `s.split(sep)`: the maximal separator-free fields, in order. There is
      always at least one field. */
  function SplitOn(s: string, sep: char): (r: seq<string>)
    ensures |r| >= 1
    ensures forall i :: 0 <= i < |r| ==> sep !in r[i]
    ensures |r| == 1 <==> sep !in s
    decreases |s|
  {
    if s == [] then [""]
    else if s[0] == sep then [""] + SplitOn(s[1..], sep)
    else
      var rest := SplitOn(s[1..], sep);
      [[s[0]] + rest[0]] + rest[1..]
  }

  /** Total length of the pieces, separators not counted. */
  function SumLen(pieces: seq<string>): nat {
    if pieces == [] then 0 else |pieces[0]| + SumLen(pieces[1..])
  }

  lemma {:induction false} SumLenConcat(a: seq<string>, b: seq<string>)
    ensures SumLen(a + b) == SumLen(a) + SumLen(b)
    decreases |a|
  {
    if a != [] {
      assert (a + b)[0] == a[0] && (a + b)[1..] == a[1..] + b;
      SumLenConcat(a[1..], b);
    } else {
      assert a + b == b;
    }
  }

  /** Joining two non-empty runs puts exactly one separator between them. */
  lemma {:induction false} JoinConcat(a: seq<string>, b: seq<string>, sep: char)
    ensures JoinWith(a + b, sep) ==
              if a == [] then JoinWith(b, sep)
              else if b == [] then JoinWith(a, sep)
              else JoinWith(a, sep) + [sep] + JoinWith(b, sep)
    decreases |a|
  {
    if a == [] {
      assert a + b == b;
    } else if b == [] {
      assert a + b == a;
    } else if |a| == 1 {
      assert (a + b)[1..] == b;
    } else {
      assert (a + b)[1..] == a[1..] + b;
      JoinConcat(a[1..], b, sep);
    }
  }

  /** The joined text is the pieces plus one separator between each two. */
  lemma {:induction false} JoinLength(pieces: seq<string>, sep: char)
    ensures pieces != [] ==> |JoinWith(pieces, sep)| == SumLen(pieces) + |pieces| - 1
    ensures pieces == [] ==> JoinWith(pieces, sep) == ""
    decreases |pieces|
  {
    if |pieces| > 1 {
      JoinLength(pieces[1..], sep);
    }
  }

  /** Joining the fields of a split gives back the text. */
  lemma {:induction false} JoinSplit(s: string, sep: char)
    ensures JoinWith(SplitOn(s, sep), sep) == s
    decreases |s|
  {
    if s != [] {
      var rest := SplitOn(s[1..], sep);
      JoinSplit(s[1..], sep);
      if s[0] == sep {
        JoinConcat([""], rest, sep);
        assert [""] + rest == SplitOn(s, sep);
        assert s == [s[0]] + s[1..];
      } else {
        var r := SplitOn(s, sep);
        assert r == [[s[0]] + rest[0]] + rest[1..];
        if |rest| == 1 {
          assert s == [s[0]] + s[1..];
        } else {
          assert r[1..] == rest[1..];
          assert JoinWith(rest, sep) == rest[0] + [sep] + JoinWith(rest[1..], sep);
          assert s == [s[0]] + s[1..];
        }
      }
    }
  }

  /** Splitting a join of separator-free parts gives back the parts. */
  lemma {:induction false} SplitJoin(parts: seq<string>, sep: char)
    requires parts != []
    requires forall i :: 0 <= i < |parts| ==> sep !in parts[i]
    ensures SplitOn(JoinWith(parts, sep), sep) == parts
    decreases |parts|, |parts[0]|
  {
    var p := parts[0];
    if p == [] {
      if |parts| > 1 {
        var s := JoinWith(parts, sep);
        assert s == [sep] + JoinWith(parts[1..], sep);
        assert s[1..] == JoinWith(parts[1..], sep);
        SplitJoin(parts[1..], sep);
        assert parts == [""] + parts[1..];
      }
    } else {
      var parts' := [p[1..]] + parts[1..];
      assert forall i :: 0 <= i < |parts'| ==> sep !in parts'[i] by {
        forall i | 0 <= i < |parts'| ensures sep !in parts'[i] {
          if i == 0 {
            assert forall k :: 0 <= k < |p[1..]| ==> p[1..][k] == p[k + 1];
          } else {
            assert parts'[i] == parts[i];
          }
        }
      }
      var s := JoinWith(parts, sep);
      assert parts'[1..] == parts[1..];
      assert s == [p[0]] + JoinWith(parts', sep) by {
        if |parts| == 1 {
          assert parts' == [p[1..]];
        } else {
          assert JoinWith(parts', sep) == p[1..] + [sep] + JoinWith(parts[1..], sep);
        }
      }
      assert s[1..] == JoinWith(parts', sep);
      assert s[0] == p[0] && p[0] != sep;
      SplitJoin(parts', sep);
      assert [p[0]] + p[1..] == p;
      assert [p] + parts[1..] == parts;
    }
  }
}

=== FILE: outcome.dfy ===
/** Optional values and fallible results, used wherever the source returns
    `None`, raises, or returns an error value. */
module Outcome {

  datatype Option<+T> = None | Some(value: T)

  /** `Err` carries what the source raises (a `ValueError`, an `IndexError`, ...). */
  datatype Result<+T, +E> = Ok(value: T) | Err(error: E) {

    predicate IsFailure() {
      Err?
    }

    function PropagateFailure<U>(): Result<U, E>
      requires Err?
    {
      Err(error)
    }

    function Extract(): T
      requires Ok?
    {
      value
    }
  }
}

=== FILE: parser.dfy ===
/** `SExprParser` and `parse` of both implementations: a predictive
    recursive-descent parser over the one-character-lookahead reader.

    The two dialects differ in three places only: the reader (see
    `Scanner`), the label of a `!` form (`CallGroup` in Python,
    `ExpressionGroup` in Rust), and the `:` / `=` specialisation of groups,
    which only the Python parser has. */
module Parser {
  import opened Outcome
  import opened Text
  import opened Syntax
  import opened Scanner

  /** The errors `parse` raises. The source's fourth message, "Unexpected end
      of input inside expression", belongs to a branch no input reaches (see
      `GroupChildIsDispatch`), so it has no constructor here. */
  datatype ParseError = UnexpectedCloseParen | ExpectedExprAfterBang | UnclosedExpression

  /** Every node of the tree starts and ends on a character boundary of
      the text's UTF-8 encoding. */
  predicate OnBoundaries(text: string, n: Node)
    decreases n
  {
    && IsBoundary(text, n.start)
    && IsBoundary(text, n.end)
    && forall i :: 0 <= i < |n.children| ==> OnBoundaries(text, n.children[i])
  }

  predicate AllOnBoundaries(text: string, nodes: seq<Node>) {
    forall i :: 0 <= i < |nodes| ==> OnBoundaries(text, nodes[i])
  }

  /** A leaf between two places the Rust reader stood. */
  lemma LeafOnBoundaries(text: string, c: Cursor, c': Cursor, n: Node)
    requires n.start == c.off && n.end == c'.off && n.children == []
    ensures Inv(Rust, text, c) && Inv(Rust, text, c') ==> OnBoundaries(text, n)
  {
    RustOnBoundary(text, c);
    RustOnBoundary(text, c');
  }

  /** What every node-producing step guarantees: it consumed at least one
      character, the node starts where the step started and ends where it
      stopped, its ranges nest, and the reader's invariant is kept. The Rust
      reader's nodes, at every depth, lie on character boundaries. */
  predicate Consumes(d: Dialect, text: string, c: Cursor, n: Node, c': Cursor) {
    && Rem(text, c') < Rem(text, c)
    && n.start == c.off
    && c.off < n.end
    && n.end == c'.off
    && WellNested(n)
    && (Inv(d, text, c) ==> Inv(d, text, c'))
    && (d == Rust ==> RustKinds(n))
    && (d == Rust && Inv(d, text, c) ==> OnBoundaries(text, n))
  }

  /** Label of a `!` form. */
  function ExecKind(d: Dialect): Kind {
    match d
    case Python => CallGroup
    case Rust => ExpressionGroup
  }

  /** `parse_word`. */
  function ParseWord(d: Dialect, text: string, c: Cursor): (r: (Node, Cursor))
    requires c.pos < |text| && !IsStop(d, text[c.pos])
    ensures Consumes(d, text, c, r.0, r.1)
    ensures r.0.kind == WordToken && r.0.children == [] && r.0.text.Some?
    ensures r.0.text.value != [] && r.0.text.value[0] == text[c.pos]
    ensures forall i :: 0 <= i < |r.0.text.value| ==> !IsStop(d, r.0.text.value[i])
    ensures r.1.pos >= |text| || IsStop(d, text[r.1.pos])
    ensures StepsByOne(d, text) && Inv(d, text, c) ==> r.0.text.value == text[c.pos..r.1.pos]
  {
    var (w, c1) := ScanWord(d, text, c);
    var n := Node(WordToken, c.off, c1.off, [], Some(w));
    LeafOnBoundaries(text, c, c1, n);
    (n, c1)
  }

  /** `parse_variable`: the `$` is consumed but is not part of the text. */
  function ParseVariable(d: Dialect, text: string, c: Cursor): (r: (Node, Cursor))
    requires c.pos < |text| && text[c.pos] == '$'
    ensures Consumes(d, text, c, r.0, r.1)
    ensures r.0.kind == VariableToken && r.0.children == [] && r.0.text.Some?
    ensures forall i :: 0 <= i < |r.0.text.value| ==> !IsStop(d, r.0.text.value[i])
    ensures r.1.pos >= |text| || IsStop(d, text[r.1.pos])
    ensures StepsByOne(d, text) && Inv(d, text, c) ==>
              c.pos < r.1.pos && r.0.text.value == text[c.pos + 1..r.1.pos]
  {
    var c1 := Advance(d, text, c);
    var (w, c2) := ScanWord(d, text, c1);
    var n := Node(VariableToken, c.off, c2.off, [], Some(w));
    LeafOnBoundaries(text, c, c2, n);
    (n, c2)
  }

  /** `parse_comment`: from `;` up to, not including, the next newline. */
  function ParseComment(d: Dialect, text: string, c: Cursor): (r: (Node, Cursor))
    requires c.pos < |text| && text[c.pos] == ';'
    ensures Consumes(d, text, c, r.0, r.1)
    ensures r.0.kind == Comment && r.0.children == [] && r.0.text == None
    ensures r.1.pos >= |text| || text[r.1.pos] == '\n'
    ensures StepsByOne(d, text) && Inv(d, text, c) ==>
              c.pos < r.1.pos <= |text| && forall i :: c.pos <= i < r.1.pos ==> text[i] != '\n'
  {
    var c1 := Advance(d, text, c);
    var c2 := ScanComment(d, text, c1);
    var n := Node(Comment, c.off, c2.off, [], None);
    LeafOnBoundaries(text, c, c2, n);
    (n, c2)
  }

  /** `parse_string`: the text is what lies between the quotes, with no
      escape processing; an unterminated string runs to the end. */
  function ParseString(d: Dialect, text: string, c: Cursor): (r: (Node, Cursor))
    requires c.pos < |text| && text[c.pos] == '"'
    ensures Consumes(d, text, c, r.0, r.1)
    ensures r.0.kind == StringToken && r.0.children == [] && r.0.text.Some?
    ensures forall i :: 0 <= i < |r.0.text.value| ==> r.0.text.value[i] != '"'
    ensures StepsByOne(d, text) && Inv(d, text, c) ==>
              c.pos < r.1.pos <= |text|
              && ((r.1.pos == |text| && r.0.text.value == text[c.pos + 1..])
                  || (c.pos + 1 < r.1.pos && text[r.1.pos - 1] == '"'
                      && r.0.text.value == text[c.pos + 1..r.1.pos - 1]))
  {
    var c1 := Advance(d, text, c);
    var (s, c2) := ScanString(d, text, c1);
    var n := Node(StringToken, c.off, c2.off, [], Some(s));
    LeafOnBoundaries(text, c, c2, n);
    (n, c2)
  }

  /** Invariant of the children collected so far by a group: each is well
      nested, lies in `[start, hi)`, and they follow each other in order. */
  predicate ChildrenOk(children: seq<Node>, start: nat, hi: nat) {
    && (forall i :: 0 <= i < |children| ==>
          WellNested(children[i]) && start <= children[i].start && children[i].end <= hi)
    && (forall i :: 0 <= i < |children| - 1 ==> children[i].end <= children[i + 1].start)
  }

  lemma ChildrenOkAppend(children: seq<Node>, start: nat, hi: nat, x: Node, hi': nat)
    requires ChildrenOk(children, start, hi)
    requires start <= hi && WellNested(x) && hi <= x.start && x.end <= hi'
    ensures ChildrenOk(children + [x], start, hi')
  {
    var cs := children + [x];
    forall i | 0 <= i < |cs|
      ensures WellNested(cs[i]) && start <= cs[i].start && cs[i].end <= hi'
    {
      if i < |children| {
        assert cs[i] == children[i];
      }
    }
  }

  /** State of the loop in `parse_expr`. */
  predicate GroupState(d: Dialect, c: Cursor, start: nat, children: seq<Node>, kind: Kind) {
    && |children| >= 1
    && children[0] == Node(OpenParen, start, start + 1, [], None)
    && start < c.off
    && ChildrenOk(children, start, c.off)
    && (kind == ExpressionGroup || kind == RuleGroup || kind == TypeCheckGroup)
    && (d == Rust ==> kind == ExpressionGroup && forall i :: 0 <= i < |children| ==> RustKinds(children[i]))
  }

  /** The body of `parse_to_syntax_tree` once whitespace is skipped: dispatch
      on the next character, which is not whitespace. */
  function Dispatch(d: Dialect, text: string, c: Cursor): (r: Result<(Node, Cursor), ParseError>)
    requires c.pos < |text| && !IsSpace(d, text[c.pos])
    ensures r.Ok? ==> Consumes(d, text, c, r.value.0, r.value.1)
    ensures r == Err(UnexpectedCloseParen) <== text[c.pos] == ')'
    decreases Rem(text, c), 2
  {
    var ch := text[c.pos];
    if ch == '!' then ParseExec(d, text, c)
    else if ch == ';' then Ok(ParseComment(d, text, c))
    else if ch == '$' then Ok(ParseVariable(d, text, c))
    else if ch == '(' then ParseExpr(d, text, c)
    else if ch == ')' then Err(UnexpectedCloseParen)
    else if ch == '"' then Ok(ParseString(d, text, c))
    else Ok(ParseWord(d, text, c))
  }

  /** `parse_exec_expression`: a word starting at `!`, optional whitespace,
      then a parenthesised group, which is required. */
  function ParseExec(d: Dialect, text: string, c: Cursor): (r: Result<(Node, Cursor), ParseError>)
    requires c.pos < |text| && text[c.pos] == '!'
    ensures r.Ok? ==> Consumes(d, text, c, r.value.0, r.value.1)
    ensures r.Ok? ==>
              var n := r.value.0;
              && n.kind == ExecKind(d)
              && |n.children| == 2
              && n.children[0].kind == WordToken
              && n.children[0].start == n.start
              && n.children[0].text.Some? && n.children[0].text.value != []
              && n.children[0].text.value[0] == '!'
              && GroupShape(n.children[1])
              && n.children[1].end == n.end
    ensures var c2 := SkipWs(d, text, ParseWord(d, text, c).1);
            c2.pos >= |text| || text[c2.pos] != '(' ==> r == Err(ExpectedExprAfterBang)
    decreases Rem(text, c), 1
  {
    var (bang, c1) := ParseWord(d, text, c);
    var c2 := SkipWs(d, text, c1);
    if c2.pos < |text| && text[c2.pos] == '(' then
      var g :- ParseExpr(d, text, c2);
      var n := Node(ExecKind(d), c.off, g.1.off, [bang, g.0], None);
      PairConsumes(d, text, c, c1, c2, g.1, n);
      Ok((n, g.1))
    else
      Err(ExpectedExprAfterBang)
  }

  /** A `!` form built from a word consumed from `c` to `c1` and a group
      consumed from `c2` to `c3`, with only skipped whitespace between. */
  lemma PairConsumes(d: Dialect, text: string, c: Cursor, c1: Cursor, c2: Cursor, c3: Cursor, n: Node)
    requires |n.children| == 2 && n.start == c.off && n.end == c3.off
    requires d == Rust ==> n.kind == ExpressionGroup
    requires Consumes(d, text, c, n.children[0], c1) && Consumes(d, text, c2, n.children[1], c3)
    requires Rem(text, c2) <= Rem(text, c1) && c1.off <= c2.off && (Inv(d, text, c1) ==> Inv(d, text, c2))
    ensures Consumes(d, text, c, n, c3)
  {
  }

  /** The kind the Python parser gives a group opened at `c`, read off the
      text: the first character after `(` and any whitespace decides it. */
  function PythonHeadKind(text: string, c: Cursor): Kind
    requires c.pos < |text| && text[c.pos] == '('
  {
    var c1 := SkipWs(Python, text, Advance(Python, text, c));
    if c1.pos < |text| then HeadKind(text, c1) else ExpressionGroup
  }

  /** The kind decided by the first token at `c0`. */
  function HeadKind(text: string, c0: Cursor): Kind
    requires c0.pos < |text|
  {
    if text[c0.pos] == ':' then TypeCheckGroup
    else if text[c0.pos] == '=' then
      var c2 := SkipWs(Python, text, Advance(Python, text, c0));
      if c2.pos < |text| && text[c2.pos] == '=' then ExpressionGroup else RuleGroup
    else ExpressionGroup
  }

  /** The first child of a Python group sets the kind `HeadKind` reads. */
  lemma FirstChildKind(text: string, c0: Cursor)
    requires c0.pos < |text| && !IsSpace(Python, text[c0.pos]) && text[c0.pos] != ')'
    requires NextChild(Python, text, c0, 1, ExpressionGroup).Ok?
    ensures NextChild(Python, text, c0, 1, ExpressionGroup).value.2 == HeadKind(text, c0)
    decreases Rem(text, c0), 4
  {
  }

  /** The loop of `parse_expr` starts after the `(` with the `OpenParen`
      marker as its only child. */
  lemma OpenState(d: Dialect, text: string, c: Cursor)
    requires c.pos < |text| && text[c.pos] == '('
    ensures GroupState(d, Advance(d, text, c), c.off, [Node(OpenParen, c.off, c.off + 1, [], None)], ExpressionGroup)
  {
    assert Utf8Width(text[c.pos]) == 1;
  }

  /** A Python group holding only its `OpenParen` marker takes the kind
      its first token decides; a `)` there decides `ExpressionGroup`. */
  lemma OpenGroupKind(d: Dialect, text: string, c1: Cursor, start: nat)
    requires GroupState(d, c1, start, [Node(OpenParen, start, start + 1, [], None)], ExpressionGroup)
    ensures var r := ParseGroup(d, text, c1, start, [Node(OpenParen, start, start + 1, [], None)], ExpressionGroup);
            var c0 := SkipWs(Python, text, c1);
            d == Python && r.Ok? ==> c0.pos < |text| && r.value.0.kind == HeadKind(text, c0)
    decreases Rem(text, c1), 5
  {
    var c0 := SkipWs(Python, text, c1);
    if d == Python && ParseGroup(d, text, c1, start, [Node(OpenParen, start, start + 1, [], None)], ExpressionGroup).Ok? && text[c0.pos] != ')' {
      FirstChildKind(text, c0);
    }
  }

  /** `parse_expr`: emit the `OpenParen` marker, consume `(`, run the loop. */
  function ParseExpr(d: Dialect, text: string, c: Cursor): (r: Result<(Node, Cursor), ParseError>)
    requires c.pos < |text| && text[c.pos] == '('
    ensures r.Ok? ==> Consumes(d, text, c, r.value.0, r.value.1)
    ensures r.Ok? ==> GroupShape(r.value.0)
    ensures r.Ok? ==> var k := r.value.0.kind;
              k == ExpressionGroup || (d == Python && (k == RuleGroup || k == TypeCheckGroup))
    ensures d == Python && r.Ok? ==> r.value.0.kind == PythonHeadKind(text, c)
    decreases Rem(text, c), 0
  {
    var open := Node(OpenParen, c.off, c.off + 1, [], None);
    var c1 := Advance(d, text, c);
    LeafOnBoundaries(text, c, c1, open);
    OpenState(d, text, c);
    OpenGroupKind(d, text, c1, c.off);
    ParseGroup(d, text, c1, c.off, [open], ExpressionGroup)
  }

  /** Whether the loop of `parse_expr` handles the character at `c0` itself
      rather than through the top-level dispatch: a comment, or (Python
      only, while the `OpenParen` marker is the only child) `:` or `=`. */
  predicate LoopHandles(d: Dialect, text: string, c0: Cursor, count: nat) {
    c0.pos < |text|
    && (text[c0.pos] == ';' || (d == Python && count == 1 && (text[c0.pos] == ':' || text[c0.pos] == '=')))
  }

  /** One child the loop of `parse_expr` builds itself, with the kind the
      group has afterwards. A `:` makes a `TypeCheckGroup`; a single `=`
      makes a `RuleGroup`; `=`, optional whitespace, `=` becomes the word
      `==` (ranged over two bytes from the first `=`) and leaves the kind
      alone. */
  function LoopChild(d: Dialect, text: string, c0: Cursor, count: nat, kind: Kind): (r: (Node, Cursor, Kind))
    requires LoopHandles(d, text, c0, count)
    ensures Rem(text, r.1) < Rem(text, c0)
    ensures c0.off <= r.0.start && r.0.end <= r.1.off && c0.off < r.1.off
    ensures WellNested(r.0)
    ensures Inv(d, text, c0) ==> Inv(d, text, r.1)
    ensures d == Rust ==> RustKinds(r.0) && r.2 == kind
    ensures d == Rust && Inv(d, text, c0) ==> OnBoundaries(text, r.0)
    ensures r.2 == kind || ((r.2 == TypeCheckGroup || r.2 == RuleGroup) && count == 1)
  {
    var ch := text[c0.pos];
    if ch == ';' then
      var (comment, c1) := ParseComment(d, text, c0);
      (comment, c1, kind)
    else if ch == ':' then
      (Node(WordToken, c0.off, c0.off + 1, [], Some(":")), Advance(d, text, c0), TypeCheckGroup)
    else
      var c1 := SkipWs(d, text, Advance(d, text, c0));
      if c1.pos < |text| && text[c1.pos] == '=' then
        (Node(WordToken, c0.off, c0.off + 2, [], Some("==")), Advance(d, text, c1), kind)
      else
        (Node(WordToken, c0.off, c0.off + 1, [], Some("=")), c1, RuleGroup)
  }

  /** The child the loop of `parse_expr` adds when the next character is
      neither whitespace nor `)`, with the group's kind afterwards. */
  function NextChild(d: Dialect, text: string, c0: Cursor, count: nat, kind: Kind)
    : (r: Result<(Node, Cursor, Kind), ParseError>)
    requires c0.pos < |text| && !IsSpace(d, text[c0.pos]) && text[c0.pos] != ')'
    ensures r.Ok? ==>
              var (child, c1, kind') := r.value;
              && Rem(text, c1) < Rem(text, c0)
              && c0.off <= child.start && child.end <= c1.off && c0.off < c1.off
              && WellNested(child)
              && (Inv(d, text, c0) ==> Inv(d, text, c1))
              && (d == Rust ==> RustKinds(child) && kind' == kind)
              && (d == Rust && Inv(d, text, c0) ==> OnBoundaries(text, child))
              && (kind' == kind || ((kind' == TypeCheckGroup || kind' == RuleGroup) && count == 1))
    decreases Rem(text, c0), 3
  {
    if LoopHandles(d, text, c0, count) then
      Ok(LoopChild(d, text, c0, count, kind))
    else
      var child :- Dispatch(d, text, c0);
      Ok((child.0, child.1, kind))
  }

  /** `)` ends the loop of `parse_expr`: add the `CloseParen` marker and
      build the group, which ends just past the `)`. */
  function CloseGroup(d: Dialect, text: string, c0: Cursor, start: nat, children: seq<Node>, kind: Kind)
    : (r: (Node, Cursor))
    requires c0.pos < |text| && text[c0.pos] == ')'
    requires GroupState(d, c0, start, children, kind)
    ensures Rem(text, r.1) < Rem(text, c0) && c0.off < r.1.off
    ensures r.0.start == start && r.0.end == r.1.off && r.0.kind == kind
    ensures WellNested(r.0) && GroupShape(r.0)
    ensures |r.0.children| > |children| && r.0.children[..|children|] == children
    ensures Inv(d, text, c0) ==> Inv(d, text, r.1)
    ensures d == Rust ==> RustKinds(r.0)
    ensures d == Rust && Inv(d, text, c0) && AllOnBoundaries(text, children) ==> OnBoundaries(text, r.0)
  {
    var c1 := Advance(d, text, c0);
    var close := Node(CloseParen, c0.off, c0.off + 1, [], None);
    ChildrenOkAppend(children, start, c0.off, close, c1.off);
    var n := Node(kind, start, c1.off, children + [close], None);
    assert (children + [close])[..|children|] == children;
    CloseOnBoundaries(text, c0, c1, children, n);
    (n, c1)
  }

  /** A group closed between the reader positions `c0` and `c1` lies on
      boundaries when its children so far do. */
  lemma CloseOnBoundaries(text: string, c0: Cursor, c1: Cursor, children: seq<Node>, n: Node)
    requires |children| >= 1 && n.start == children[0].start && n.end == c1.off && c1.off == c0.off + 1
    requires n.children == children + [Node(CloseParen, c0.off, c0.off + 1, [], None)]
    ensures Inv(Rust, text, c0) && Inv(Rust, text, c1) && AllOnBoundaries(text, children) ==> OnBoundaries(text, n)
  {
    if Inv(Rust, text, c0) && Inv(Rust, text, c1) && AllOnBoundaries(text, children) {
      LeafOnBoundaries(text, c0, c1, Node(CloseParen, c0.off, c0.off + 1, [], None));
      assert OnBoundaries(text, children[0]);
      forall i | 0 <= i < |n.children| ensures OnBoundaries(text, n.children[i]) {
        if i < |children| {
          assert n.children[i] == children[i];
        }
      }
    }
  }

  /** What the loop of `parse_expr` promises about the group it returns:
      it consumed at least one character and ends where the reader stopped,
      keeps the children collected so far as a prefix, is well nested and
      delimited by its paren markers, and its kind is the one set so far
      unless the `OpenParen` marker was still the only child. */
  predicate GroupResult(d: Dialect, text: string, c: Cursor, start: nat, children: seq<Node>, kind: Kind,
                        n: Node, c': Cursor) {
    && Rem(text, c') < Rem(text, c)
    && c.off < c'.off
    && n.start == start && n.end == c'.off
    && WellNested(n)
    && GroupShape(n)
    && |n.children| > |children| && n.children[..|children|] == children
    && (Inv(d, text, c) ==> Inv(d, text, c'))
    && (d == Rust ==> RustKinds(n))
    && (d == Rust && Inv(d, text, c) && AllOnBoundaries(text, children) ==> OnBoundaries(text, n))
    && (n.kind == ExpressionGroup || n.kind == RuleGroup || n.kind == TypeCheckGroup)
    && (n.kind == kind || (d == Python && |children| == 1))
  }

  lemma GroupResultStep(d: Dialect, text: string, c: Cursor, c1: Cursor, start: nat,
                        children: seq<Node>, child: Node, kind: Kind, kind': Kind, n: Node, c': Cursor)
    requires Rem(text, c1) < Rem(text, c) && c.off < c1.off
    requires Inv(d, text, c) ==> Inv(d, text, c1)
    requires kind' == kind || ((kind' == TypeCheckGroup || kind' == RuleGroup) && |children| == 1)
    requires d == Rust ==> kind' == kind
    requires |children| >= 1
    requires d == Rust && Inv(d, text, c) ==> OnBoundaries(text, child)
    requires GroupResult(d, text, c1, start, children + [child], kind', n, c')
    ensures GroupResult(d, text, c, start, children, kind, n, c')
  {
    assert (children + [child])[..|children|] == children;
    assert n.children[..|children|] == n.children[..|children| + 1][..|children|];
    if d == Rust && Inv(d, text, c) && AllOnBoundaries(text, children) {
      forall i | 0 <= i < |children + [child]| ensures OnBoundaries(text, (children + [child])[i]) {
        if i < |children| {
          assert (children + [child])[i] == children[i];
        }
      }
    }
  }

  /** The loop of `parse_expr`: skip whitespace, close the group at `)`,
      otherwise add one child and go round again. End of input inside the
      group is an error. */
  function ParseGroup(d: Dialect, text: string, c: Cursor, start: nat, children: seq<Node>, kind: Kind)
    : (r: Result<(Node, Cursor), ParseError>)
    requires GroupState(d, c, start, children, kind)
    ensures r.Ok? ==> GroupResult(d, text, c, start, children, kind, r.value.0, r.value.1)
    ensures SkipWs(d, text, c).pos >= |text| ==> r == Err(UnclosedExpression)
    decreases Rem(text, c), 4
  {
    var c0 := SkipWs(d, text, c);
    if c0.pos >= |text| then
      Err(UnclosedExpression)
    else if text[c0.pos] == ')' then
      Ok(CloseGroup(d, text, c0, start, children, kind))
    else
      var next :- NextChild(d, text, c0, |children|, kind);
      var (child, c1, kind') := next;
      ChildrenOkAppend(children, start, c0.off, child, c1.off);
      var r := ParseGroup(d, text, c1, start, children + [child], kind');
      if r.Ok? then
        GroupResultStep(d, text, c, c1, start, children, child, kind, kind', r.value.0, r.value.1);
        r
      else r
  }

  /** `parse_to_syntax_tree`: skip whitespace; `None` when nothing else is
      left, otherwise dispatch. */
  function ParseTop(d: Dialect, text: string, c: Cursor): (r: Result<Option<(Node, Cursor)>, ParseError>)
    ensures r == Ok(None) <==> SkipWs(d, text, c).pos >= |text|
    ensures StepsByOne(d, text) && Inv(d, text, c) ==>
              (r == Ok(None) <==> forall i :: c.pos <= i < |text| ==> IsSpace(d, text[i]))
    ensures r.Ok? && r.value.Some? ==>
              var c0 := SkipWs(d, text, c);
              c.off <= c0.off && Consumes(d, text, c0, r.value.value.0, r.value.value.1)
  {
    var c0 := SkipWs(d, text, c);
    if c0.pos >= |text| then Ok(None)
    else
      var n :- Dispatch(d, text, c0);
      Ok(Some(n))
  }

  /** Roots collected so far: well nested, non-empty, and in strictly
      increasing, non-overlapping source order. */
  predicate RootsOk(d: Dialect, roots: seq<Node>) {
    && (forall i :: 0 <= i < |roots| ==>
          WellNested(roots[i]) && roots[i].start < roots[i].end && (d == Rust ==> RustKinds(roots[i])))
    && (forall i, j :: 0 <= i < j < |roots| ==> roots[i].end <= roots[j].start)
  }

  predicate EndBefore(roots: seq<Node>, hi: nat) {
    forall i :: 0 <= i < |roots| ==> roots[i].end <= hi
  }

  lemma AsciiUtf8Len(s: string)
    requires AllAscii(s)
    ensures Utf8Len(s) == |s|
  {
    if s != [] {
      assert AllAscii(s[..|s| - 1]);
      AsciiUtf8Len(s[..|s| - 1]);
      assert IsAscii(s[|s| - 1]);
    }
  }

  /** Once only whitespace is left, a reader that steps one character at a
      time stands at the byte length of the text. */
  lemma EndOffset(d: Dialect, text: string, c: Cursor)
    ensures StepsByOne(d, text) && Inv(d, text, c) && SkipWs(d, text, c).pos >= |text| ==>
              c.off <= Utf8Len(text)
  {
    if StepsByOne(d, text) && Inv(d, text, c) && SkipWs(d, text, c).pos >= |text| {
      var c0 := SkipWs(d, text, c);
      assert text[..c0.pos] == text;
      if d == Python { AsciiUtf8Len(text); }
    }
  }

  /** The loop of `parse`: collect roots until the dispatch yields `None`;
      the first error aborts with no partial result. */
  function ParseFrom(d: Dialect, text: string, c: Cursor, roots: seq<Node>): (r: Result<seq<Node>, ParseError>)
    requires RootsOk(d, roots) && EndBefore(roots, c.off)
    ensures r.Ok? ==> roots <= r.value && RootsOk(d, r.value)
    ensures r.Ok? && StepsByOne(d, text) && Inv(d, text, c) ==> EndBefore(r.value, Utf8Len(text))
    decreases Rem(text, c)
  {
    var top :- ParseTop(d, text, c);
    match top
    case None =>
      EndOffset(d, text, c);
      Ok(roots)
    case Some((n, c')) =>
      RootsAppend(d, roots, n, c.off);
      ParseFrom(d, text, c', roots + [n])
  }

  /** A node that starts at or after `lo`, past every root so far, extends
      the roots. */
  lemma RootsAppend(d: Dialect, roots: seq<Node>, n: Node, lo: nat)
    requires RootsOk(d, roots) && EndBefore(roots, lo)
    requires lo <= n.start < n.end && WellNested(n) && (d == Rust ==> RustKinds(n))
    ensures RootsOk(d, roots + [n]) && EndBefore(roots + [n], n.end)
  {
    var rs := roots + [n];
    forall i | 0 <= i < |rs| ensures rs[i].end <= n.end {
      if i < |roots| {
        assert rs[i] == roots[i];
      }
    }
  }

  /** `parse`: the top-level nodes of the text, in source order. When the
      reader steps one character at a time they lie within the text's byte
      length. */
  function Parse(d: Dialect, text: string): (r: Result<seq<Node>, ParseError>)
    ensures r.Ok? ==> RootsOk(d, r.value)
    ensures r.Ok? && StepsByOne(d, text) ==> EndBefore(r.value, Utf8Len(text))
  {
    ParseFrom(d, text, Start(), [])
  }
}

=== FILE: parser_facts.dfy ===
/** Properties of `parse` that relate several calls or the whole text. */
module ParserFacts {
  import opened Outcome
  import opened Text
  import opened Syntax
  import opened Scanner
  import opened Parser

  /** Inside a group the loop calls `parse_to_syntax_tree` only after it has
      skipped whitespace and seen something other than `;` and `)`; there the
      call never yields `None`, so "Unexpected end of input inside
      expression" is never raised. */
  lemma GroupChildIsDispatch(d: Dialect, text: string, c: Cursor)
    requires c.pos < |text| && !IsSpace(d, text[c.pos])
    ensures ParseTop(d, text, c) != Ok(None)
    ensures Dispatch(d, text, c).Ok? ==> ParseTop(d, text, c) == Ok(Some(Dispatch(d, text, c).value))
    ensures Dispatch(d, text, c).Err? ==> ParseTop(d, text, c) == Err(Dispatch(d, text, c).error)
  {
    assert SkipWs(d, text, c) == c;
  }

  /** The Rust parser never specialises a group: every group it builds,
      `!` forms included, is an `ExpressionGroup`, at the root and at every
      depth below it (`RustKinds`). */
  lemma RustGroupsAreExpressions(text: string, n: Node)
    requires Parse(Rust, text).Ok? && n in Parse(Rust, text).value
    ensures n.kind != CallGroup && n.kind != RuleGroup && n.kind != TypeCheckGroup
    ensures RustKinds(n)
  {
  }

  /** Everything in `[a, b)` is whitespace. */
  predicate SpaceBetween(d: Dialect, text: string, a: nat, b: nat) {
    forall k :: a <= k < b && k < |text| ==> IsSpace(d, text[k])
  }

  /** The roots, read as character ranges from `lo` on, cover the text with
      only whitespace between, before and after them. */
  predicate Tiled(d: Dialect, text: string, roots: seq<Node>, lo: nat)
    decreases |roots|
  {
    if roots == [] then SpaceBetween(d, text, lo, |text|)
    else lo <= roots[0].start && SpaceBetween(d, text, lo, roots[0].start) && Tiled(d, text, roots[1..], roots[0].end)
  }

  /** Unfolds one iteration of the loop of `parse`. */
  lemma ParseFromStep(d: Dialect, text: string, c: Cursor, roots: seq<Node>)
    requires RootsOk(d, roots) && EndBefore(roots, c.off)
    requires ParseTop(d, text, c).Ok? && ParseTop(d, text, c).value.Some?
    ensures var (n, c') := ParseTop(d, text, c).value.value;
            && RootsOk(d, roots + [n]) && EndBefore(roots + [n], c'.off)
            && ParseFrom(d, text, c, roots) == ParseFrom(d, text, c', roots + [n])
  {
  }

  /** One top-level step of the Python reader on ASCII text: whitespace up
      to the node, and the reader left at its end. */
  lemma TopStep(text: string, c: Cursor)
    requires AllAscii(text) && Inv(Python, text, c)
    requires ParseTop(Python, text, c).Ok?
    ensures ParseTop(Python, text, c).value.None? ==> SpaceBetween(Python, text, c.pos, |text|)
    ensures ParseTop(Python, text, c).value.Some? ==>
              var (n, c') := ParseTop(Python, text, c).value.value;
              && c.pos <= n.start && SpaceBetween(Python, text, c.pos, n.start)
              && Inv(Python, text, c') && c'.pos == n.end && Rem(text, c') < Rem(text, c)
  {
    if ParseTop(Python, text, c).value.Some? {
      var c0 := SkipWs(Python, text, c);
      assert c.pos <= c0.pos;
    }
  }

  lemma {:induction false} ParseFromTiles(text: string, c: Cursor, roots: seq<Node>)
    requires AllAscii(text) && Inv(Python, text, c)
    requires RootsOk(Python, roots) && EndBefore(roots, c.off)
    requires ParseFrom(Python, text, c, roots).Ok?
    ensures Tiled(Python, text, ParseFrom(Python, text, c, roots).value[|roots|..], c.pos)
    decreases Rem(text, c)
  {
    var all := ParseFrom(Python, text, c, roots).value;
    var top := ParseTop(Python, text, c);
    TopStep(text, c);
    if top.value.Some? {
      var (n, c') := top.value.value;
      ParseFromStep(Python, text, c, roots);
      ParseFromTiles(text, c', roots + [n]);
      TiledSuffix(text, all, roots, n, c.pos);
    } else {
      assert all[|roots|..] == [];
    }
  }

  lemma TiledSuffix(text: string, all: seq<Node>, roots: seq<Node>, n: Node, lo: nat)
    requires |roots| < |all| && all[|roots|] == n
    requires lo <= n.start && SpaceBetween(Python, text, lo, n.start) && Tiled(Python, text, all[|roots| + 1..], n.end)
    ensures Tiled(Python, text, all[|roots|..], lo)
  {
    assert all[|roots|..][1..] == all[|roots| + 1..];
  }

  /** On ASCII text the Python parser's roots tile the text: the ranges are
      character positions, in order, and what lies outside them is
      whitespace. Nothing but whitespace is skipped at top level. */
  lemma ParseTilesText(text: string)
    requires AllAscii(text) && Parse(Python, text).Ok?
    ensures Tiled(Python, text, Parse(Python, text).value, 0)
  {
    ParseFromTiles(text, Start(), []);
  }

  lemma {:induction false} ParseFromBoundaries(text: string, c: Cursor, roots: seq<Node>)
    requires Inv(Rust, text, c)
    requires RootsOk(Rust, roots) && EndBefore(roots, c.off) && AllOnBoundaries(text, roots)
    requires ParseFrom(Rust, text, c, roots).Ok?
    ensures AllOnBoundaries(text, ParseFrom(Rust, text, c, roots).value)
    decreases Rem(text, c)
  {
    var top := ParseTop(Rust, text, c).value;
    if top.Some? {
      var (n, c') := top.value;
      var roots' := roots + [n];
      forall i | 0 <= i < |roots'| ensures OnBoundaries(text, roots'[i]) {
        if i < |roots| {
          assert roots'[i] == roots[i];
        }
      }
      ParseFromStep(Rust, text, c, roots);
      ParseFromBoundaries(text, c', roots');
    }
  }

  /** The Rust reader reports true byte offsets: every node of every root,
      at any depth, starts and ends at the UTF-8 length of a prefix of the
      text. */
  lemma RustNodesAreByteRanges(text: string)
    requires Parse(Rust, text).Ok?
    ensures AllOnBoundaries(text, Parse(Rust, text).value)
  {
    ParseFromBoundaries(text, Start(), []);
  }

  /** The Python reader's offset quirk: after a two-byte character it reads
      the text at the byte offset as if it were a character index, so it
      skips the `)` that follows `é`. */
  lemma PythonReadsPastWideChar()
    ensures Parse(Python, "é)") == Ok([Node(WordToken, 0, 2, [], Some("é"))])
  {
    var text := "é)";
    var w := Node(WordToken, 0, 2, [], Some("é"));
    assert SkipWs(Python, text, Cursor(0, 0)) == Cursor(0, 0);
    assert Advance(Python, text, Cursor(0, 0)) == Cursor(2, 2);
    assert ScanWord(Python, text, Cursor(2, 2)) == ("", Cursor(2, 2));
    assert ScanWord(Python, text, Cursor(0, 0)) == (['é'] + "", Cursor(2, 2));
    assert ['é'] + "" == "é";
    assert ParseWord(Python, text, Cursor(0, 0)) == (w, Cursor(2, 2));
    assert ParseTop(Python, text, Cursor(0, 0)) == Ok(Some((w, Cursor(2, 2))));
    assert ParseTop(Python, text, Cursor(2, 2)) == Ok(None);
    assert ParseFrom(Python, text, Cursor(2, 2), [w]) == Ok([w]);
    ParseFromStep(Python, text, Cursor(0, 0), []);
    assert [] + [w] == [w];
    assert Parse(Python, text) == ParseFrom(Python, text, Cursor(0, 0), []);
  }

  /** The Rust reader reads `é` as one character of two bytes. */
  lemma RustWordBeforeParen()
    ensures ParseTop(Rust, "é)", Cursor(0, 0)) == Ok(Some((Node(WordToken, 0, 2, [], Some("é")), Cursor(1, 2))))
  {
    var text := "é)";
    assert SkipWs(Rust, text, Cursor(0, 0)) == Cursor(0, 0);
    assert Advance(Rust, text, Cursor(0, 0)) == Cursor(1, 2);
    assert ScanWord(Rust, text, Cursor(1, 2)) == ("", Cursor(1, 2));
    assert ScanWord(Rust, text, Cursor(0, 0)) == (['é'] + "", Cursor(1, 2));
    assert ['é'] + "" == "é";
  }

  /** The Rust parser steps one character at a time, reads that `)` and
      fails. */
  lemma RustReadsAfterWideChar()
    ensures Parse(Rust, "é)") == Err(UnexpectedCloseParen)
  {
    var text := "é)";
    RustWordBeforeParen();
    assert SkipWs(Rust, text, Cursor(1, 2)) == Cursor(1, 2);
    assert ParseTop(Rust, text, Cursor(1, 2)) == Err(UnexpectedCloseParen);
    ParseFromStep(Rust, text, Cursor(0, 0), []);
  }

  /** A `)` at top level is an error. */
  lemma CloseParenAtTop(d: Dialect)
    ensures Parse(d, ")") == Err(UnexpectedCloseParen)
  {
    assert SkipWs(d, ")", Cursor(0, 0)) == Cursor(0, 0);
  }

  /** The end of the text inside a group is an error. */
  lemma EndInsideGroup(d: Dialect)
    ensures Parse(d, "(") == Err(UnclosedExpression)
  {
    assert SkipWs(d, "(", Cursor(0, 0)) == Cursor(0, 0);
    assert Advance(d, "(", Cursor(0, 0)) == Cursor(1, 1);
    assert SkipWs(d, "(", Cursor(1, 1)) == Cursor(1, 1);
  }

  /** A `!` word not followed by a group is an error. */
  lemma BangWithoutGroup(d: Dialect)
    ensures Parse(d, "!x") == Err(ExpectedExprAfterBang)
  {
    var text := "!x";
    assert SkipWs(d, text, Cursor(0, 0)) == Cursor(0, 0);
    BangExecFails(d);
  }

  /** The `!` form reads the word `!x` and finds no `(` after it. */
  lemma BangExecFails(d: Dialect)
    ensures ParseExec(d, "!x", Cursor(0, 0)) == Err(ExpectedExprAfterBang)
  {
    var text := "!x";
    assert !IsStop(d, 'x') && !IsStop(d, '!');
    assert Advance(d, text, Cursor(1, 1)) == Cursor(2, 2);
    assert Advance(d, text, Cursor(0, 0)) == Cursor(1, 1);
    assert ScanWord(d, text, Cursor(2, 2)) == ("", Cursor(2, 2));
    assert ScanWord(d, text, Cursor(1, 1)).1 == Cursor(2, 2);
    assert ScanWord(d, text, Cursor(0, 0)).1 == Cursor(2, 2);
    assert SkipWs(d, text, Cursor(2, 2)) == Cursor(2, 2);
  }
}

=== FILE: preprocess.dfy ===
/** `parse_file` / `preprocess_code`: parse a file, classify every top-level
    node, file the kept ones in the symbol index, and flatten the index into
    potential chunks.

    The Backend stores each kept node as its text and file path; the
    Experiment records the node (range, path, kind) in a node table and
    stores the node's id. Both classify and file nodes the same way
    (`Entry`). */
module Preprocess {
  import opened Outcome
  import opened Text
  import opened Syntax
  import opened Scanner
  import opened Parser
  import opened Symbols
  import opened SymbolIndex

  /** The bucket `type + "s"` names. */
  function BucketOf(role: Role): Bucket
    requires role != Unknown && role != CommentRole
  {
    match role
    case Def => Defs
    case Call => Calls
    case Assert => Asserts
    case TypeDecl => Types
  }

  /** The name a comment at root index `idx` is filed under. */
  function CommentName(idx: nat): string {
    "comment_" + Decimal(idx)
  }

  /** Where the loop files the root at index `idx` with head `h`: unknown
      nodes and nodes without a symbol are skipped, a comment becomes a
      definition of `comment_<idx>`. */
  function Entry(h: Head, idx: nat): (r: Option<(string, Bucket)>)
    ensures r.None? <==> h.role == Unknown || (h.role != CommentRole && h.symbol.None?)
    ensures h.role == CommentRole ==> r == Some((CommentName(idx), Defs))
    ensures r.Some? && h.role != CommentRole ==> r.value.0 == h.symbol.value
  {
    if h.role == Unknown then None
    else if h.role == CommentRole then Some((CommentName(idx), Defs))
    else if h.symbol.None? then None
    else Some((h.symbol.value, BucketOf(h.role)))
  }

  /** Comments at different root indexes get different names, so no two
      comments share a row. */
  lemma CommentNamesDistinct(i: nat, j: nat)
    ensures CommentName(i) == CommentName(j) ==> i == j
  {
    if CommentName(i) == CommentName(j) {
      assert Decimal(i) == CommentName(i)[8..];
      assert Decimal(j) == CommentName(j)[8..];
      DecimalInjective(i, j);
    }
  }

  /** `extract_symbol_from_node` applied to a node of `source`. */
  function Classify(n: Node, source: string): Head {
    Extract(n.kind, PySlice(source, n.start, n.end))
  }

  /** The filing decision for root `i`. */
  function EntryAt(roots: seq<Node>, i: nat, source: string): Option<(string, Bucket)>
    requires i < |roots|
  {
    Entry(Classify(roots[i], source), i)
  }

  /** File `x` under the decision `e`, or leave the index alone. */
  function File<T(==)>(ix: Index<T>, e: Option<(string, Bucket)>, x: T, mode: Mode): Index<T> {
    match e
    case None => ix
    case Some((name, b)) => Upsert(ix, name, b, x, mode)
  }

  /** Filing keeps one row per name. */
  lemma FileUnique<T>(ix: Index<T>, e: Option<(string, Bucket)>, x: T, mode: Mode)
    ensures UniqueNames(ix) ==> UniqueNames(File(ix, e, x, mode))
  {
    if UniqueNames(ix) && e.Some? {
      UpsertUnique(ix, e.value.0, e.value.1, x, mode);
    }
  }

  lemma FileKeeps<T>(ix: Index<T>, e: Option<(string, Bucket)>, x: T, mode: Mode)
    ensures forall name, b, y :: Has(ix, name, b, y) ==> Has(File(ix, e, x, mode), name, b, y)
    ensures forall name, b, y :: Has(File(ix, e, x, mode), name, b, y) ==>
              Has(ix, name, b, y) || (e == Some((name, b)) && y == x)
    ensures e.Some? ==> Has(File(ix, e, x, mode), e.value.0, e.value.1, x)
  {
    if e.Some? {
      var (name, b) := e.value;
      forall name', b', y ensures Has(ix, name', b', y) ==> Has(File(ix, e, x, mode), name', b', y)
        ensures Has(File(ix, e, x, mode), name', b', y) ==> Has(ix, name', b', y) || (e == Some((name', b')) && y == x)
      {
        UpsertKeeps(ix, name, b, x, mode, name', b', y);
      }
      UpsertKeeps(ix, name, b, x, mode, name, b, x);
    }
  }

  /** Filing touches one bucket of one row, growing it by `x`. */
  lemma FileBucket<T>(ix: Index<T>, e: Option<(string, Bucket)>, x: T, mode: Mode, name: string, b: Bucket)
    ensures Get(RowOf(File(ix, e, x, mode), name), b) ==
            if e == Some((name, b)) then Grow(Get(RowOf(ix, name), b), x, mode) else Get(RowOf(ix, name), b)
  {
  }

  lemma FileBuckets<T>(ix: Index<T>, e: Option<(string, Bucket)>, x: T, mode: Mode)
    ensures forall name, b :: Get(RowOf(File(ix, e, x, mode), name), b) ==
              if e == Some((name, b)) then Grow(Get(RowOf(ix, name), b), x, mode) else Get(RowOf(ix, name), b)
  {
    forall name, b
      ensures Get(RowOf(File(ix, e, x, mode), name), b) ==
              if e == Some((name, b)) then Grow(Get(RowOf(ix, name), b), x, mode) else Get(RowOf(ix, name), b)
    {
      FileBucket(ix, e, x, mode, name, b);
    }
  }

  // ---------------------------------------------------------------- Backend

  /** What the Backend stores per node: `[source_code[st:end], rel_path]`. */
  datatype Fragment = Fragment(text: string, path: string)

  function FragmentOf(n: Node, source: string, path: string): Fragment {
    Fragment(PySlice(source, n.start, n.end), path)
  }

  /** Reference for what the loop files under `name` in bucket `b`: the
      fragments of the roots from `i` on whose filing decision is
      `(name, b)`, in root order. */
  function KeptFrags(source: string, path: string, roots: seq<Node>, i: nat, name: string, b: Bucket): seq<Fragment>
    requires i <= |roots|
    decreases |roots| - i
  {
    if i == |roots| then []
    else
      (if EntryAt(roots, i, source) == Some((name, b)) then [FragmentOf(roots[i], source, path)] else [])
      + KeptFrags(source, path, roots, i + 1, name, b)
  }

  /** The loop of `parse_file` from root `i` on. Every bucket grows by
      exactly the fragments of the roots filed there, once each and in root
      order (under `array_append`, by appending them); nothing already
      stored is lost. */
  function IndexRoots(source: string, path: string, roots: seq<Node>, i: nat, ix: Index<Fragment>, mode: Mode)
    : (ix': Index<Fragment>)
    requires i <= |roots|
    ensures forall name, b :: Get(RowOf(ix', name), b) ==
              GrowAll(Get(RowOf(ix, name), b), KeptFrags(source, path, roots, i, name, b), mode)
    ensures mode == Append ==>
              (forall name, b :: Get(RowOf(ix', name), b) == Get(RowOf(ix, name), b) + KeptFrags(source, path, roots, i, name, b))
    ensures forall j, name, b :: i <= j < |roots| && EntryAt(roots, j, source) == Some((name, b)) ==>
              Has(ix', name, b, FragmentOf(roots[j], source, path))
    ensures forall name, b, f :: Has(ix, name, b, f) ==> Has(ix', name, b, f)
    ensures UniqueNames(ix) ==> UniqueNames(ix')
    decreases |roots| - i
  {
    if i == |roots| then ix
    else
      var f := FragmentOf(roots[i], source, path);
      var e := EntryAt(roots, i, source);
      FileUnique(ix, e, f, mode);
      var ix' := IndexRoots(source, path, roots, i + 1, File(ix, e, f, mode), mode);
      FiledStep(source, path, roots, i, ix, mode, ix');
      KeptFragsStep(source, path, roots, i, ix, mode, ix');
      BucketsAppended(ix, ix', mode, (name, b) => KeptFrags(source, path, roots, i, name, b));
      ix'
  }

  /** One step of the loop for membership: root `i`, if kept, is filed,
      and nothing is lost. */
  lemma FiledStep(source: string, path: string, roots: seq<Node>, i: nat, ix: Index<Fragment>, mode: Mode,
                  ix': Index<Fragment>)
    requires i < |roots|
    requires var ix1 := File(ix, EntryAt(roots, i, source), FragmentOf(roots[i], source, path), mode);
             && (forall j, name, b :: i + 1 <= j < |roots| && EntryAt(roots, j, source) == Some((name, b)) ==>
                   Has(ix', name, b, FragmentOf(roots[j], source, path)))
             && (forall name, b, f :: Has(ix1, name, b, f) ==> Has(ix', name, b, f))
    ensures forall j, name, b :: i <= j < |roots| && EntryAt(roots, j, source) == Some((name, b)) ==>
              Has(ix', name, b, FragmentOf(roots[j], source, path))
    ensures forall name, b, f :: Has(ix, name, b, f) ==> Has(ix', name, b, f)
  {
    FileKeeps(ix, EntryAt(roots, i, source), FragmentOf(roots[i], source, path), mode);
  }

  /** Under `array_append`, growing every bucket by `ks` appends `ks`. */
  lemma BucketsAppended<T>(ix: Index<T>, ix': Index<T>, mode: Mode, ks: (string, Bucket) -> seq<T>)
    requires forall name, b :: Get(RowOf(ix', name), b) == GrowAll(Get(RowOf(ix, name), b), ks(name, b), mode)
    ensures mode == Append ==> forall name, b :: Get(RowOf(ix', name), b) == Get(RowOf(ix, name), b) + ks(name, b)
  {
  }

  /** One step of the loop for one bucket: filing root `i` and then the
      rest grows the bucket by `KeptFrags` from `i`. */
  lemma KeptFragsCons(source: string, path: string, roots: seq<Node>, i: nat, ix: Index<Fragment>, mode: Mode,
                      name: string, b: Bucket)
    requires i < |roots|
    ensures var ix1 := File(ix, EntryAt(roots, i, source), FragmentOf(roots[i], source, path), mode);
            GrowAll(Get(RowOf(ix1, name), b), KeptFrags(source, path, roots, i + 1, name, b), mode)
            == GrowAll(Get(RowOf(ix, name), b), KeptFrags(source, path, roots, i, name, b), mode)
  {
    var f := FragmentOf(roots[i], source, path);
    var e := EntryAt(roots, i, source);
    var ix1 := File(ix, e, f, mode);
    var rest := KeptFrags(source, path, roots, i + 1, name, b);
    var g := Get(RowOf(ix, name), b);
    FileBucket(ix, e, f, mode, name, b);
    if e == Some((name, b)) {
      assert Get(RowOf(ix1, name), b) == Grow(g, f, mode);
      assert KeptFrags(source, path, roots, i, name, b) == [f] + rest;
      GrowAllCons(g, f, rest, mode);
    } else {
      assert Get(RowOf(ix1, name), b) == g;
      assert KeptFrags(source, path, roots, i, name, b) == rest;
    }
  }

  lemma KeptFragsStep(source: string, path: string, roots: seq<Node>, i: nat, ix: Index<Fragment>, mode: Mode,
                      ix': Index<Fragment>)
    requires i < |roots|
    requires var ix1 := File(ix, EntryAt(roots, i, source), FragmentOf(roots[i], source, path), mode);
             forall name, b :: Get(RowOf(ix', name), b) ==
               GrowAll(Get(RowOf(ix1, name), b), KeptFrags(source, path, roots, i + 1, name, b), mode)
    ensures forall name, b :: Get(RowOf(ix', name), b) ==
              GrowAll(Get(RowOf(ix, name), b), KeptFrags(source, path, roots, i, name, b), mode)
  {
    forall name, b
      ensures Get(RowOf(ix', name), b) == GrowAll(Get(RowOf(ix, name), b), KeptFrags(source, path, roots, i, name, b), mode)
    {
      KeptFragsCons(source, path, roots, i, ix, mode, name, b);
    }
  }

  /** Nothing but the kept roots is added. */
  lemma {:induction false} IndexRootsAddsOnlyKept(source: string, path: string, roots: seq<Node>, i: nat,
                                                  ix: Index<Fragment>, mode: Mode, name: string, b: Bucket, f: Fragment)
    requires i <= |roots| && Has(IndexRoots(source, path, roots, i, ix, mode), name, b, f)
    ensures Has(ix, name, b, f)
            || exists j :: i <= j < |roots| && EntryAt(roots, j, source) == Some((name, b))
                           && f == FragmentOf(roots[j], source, path)
    decreases |roots| - i
  {
    if i < |roots| {
      var x := FragmentOf(roots[i], source, path);
      var e := EntryAt(roots, i, source);
      var ix1 := File(ix, e, x, mode);
      FileKeeps(ix, e, x, mode);
      IndexRootsAddsOnlyKept(source, path, roots, i + 1, ix1, mode, name, b, f);
      if !Has(ix1, name, b, f) {
        var j :| i + 1 <= j < |roots| && EntryAt(roots, j, source) == Some((name, b))
                 && f == FragmentOf(roots[j], source, path);
      } else if !Has(ix, name, b, f) {
        assert e == Some((name, b)) && f == x;
      }
    }
  }

  /** `parse_file`: a file that fails to parse adds nothing (the error
      escapes before the first insertion). */
  function ParseFile(source: string, path: string, ix: Index<Fragment>, mode: Mode)
    : (r: Result<Index<Fragment>, ParseError>)
    ensures r.Err? <==> Parse(Python, source).Err?
    ensures r.Ok? ==> forall j, name, b ::
              (0 <= j < |Parse(Python, source).value| &&
               EntryAt(Parse(Python, source).value, j, source) == Some((name, b))) ==>
                Has(r.value, name, b, FragmentOf(Parse(Python, source).value[j], source, path))
    ensures r.Ok? ==> forall name, b, f :: Has(ix, name, b, f) ==> Has(r.value, name, b, f)
    ensures r.Ok? && UniqueNames(ix) ==> UniqueNames(r.value)
  {
    var roots :- Parse(Python, source);
    Ok(IndexRoots(source, path, roots, 0, ix, mode))
  }

  /** A file of a repository: its relative path and contents. */
  datatype SourceFile = SourceFile(path: string, code: string)

  /** One file of the loop of `preprocess_code`: a file whose parse fails
      is reported and skipped. */
  function IndexFile(file: SourceFile, ix: Index<Fragment>, mode: Mode): (ix': Index<Fragment>)
    ensures forall name, b, f :: Has(ix, name, b, f) ==> Has(ix', name, b, f)
    ensures Parses(file) ==> ix' == ParseFile(file.code, file.path, ix, mode).value
    ensures !Parses(file) ==> ix' == ix
  {
    match ParseFile(file.code, file.path, ix, mode)
    case Ok(ix1) => ix1
    case Err(_) => ix
  }

  /** Every kept root of a parsable file is filed. */
  lemma FileKeepsRoots(file: SourceFile, ix: Index<Fragment>, mode: Mode, j: nat, name: string, b: Bucket)
    requires Parses(file)
    requires j < |Parse(Python, file.code).value|
    requires EntryAt(Parse(Python, file.code).value, j, file.code) == Some((name, b))
    ensures Has(IndexFile(file, ix, mode), name, b, FragmentOf(Parse(Python, file.code).value[j], file.code, file.path))
  {
  }

  /** The file loop of `preprocess_code`. */
  function IndexFiles(files: seq<SourceFile>, ix: Index<Fragment>, mode: Mode): (ix': Index<Fragment>)
    ensures forall name, b, f :: Has(ix, name, b, f) ==> Has(ix', name, b, f)
    ensures UniqueNames(ix) ==> UniqueNames(ix')
    decreases |files|
  {
    if files == [] then ix
    else IndexFiles(files[1..], IndexFile(files[0], ix, mode), mode)
  }

  function Parses(f: SourceFile): bool {
    Parse(Python, f.code).Ok?
  }

  function Parsable(files: seq<SourceFile>): (r: seq<SourceFile>)
    ensures forall f :: f in r <==> f in files && Parses(f)
  {
    if files == [] then []
    else if Parses(files[0]) then [files[0]] + Parsable(files[1..])
    else Parsable(files[1..])
  }

  /** Skipping is all a parse error does: the index is the one the
      parsable files alone produce. */
  lemma {:induction false} BrokenFilesSkipped(files: seq<SourceFile>, ix: Index<Fragment>, mode: Mode)
    ensures IndexFiles(files, ix, mode) == IndexFiles(Parsable(files), ix, mode)
    decreases |files|
  {
    if files != [] {
      BrokenFilesSkipped(files[1..], ix, mode);
      if Parses(files[0]) {
        BrokenFilesSkipped(files[1..], IndexFile(files[0], ix, mode), mode);
        assert ([files[0]] + Parsable(files[1..]))[1..] == Parsable(files[1..]);
      }
    }
  }

  /** `f` is the fragment of a root of `file` filed under `name` in bucket
      `b`. */
  ghost predicate KeptIn(file: SourceFile, name: string, b: Bucket, f: Fragment) {
    && Parses(file)
    && exists j :: 0 <= j < |Parse(Python, file.code).value|
                   && EntryAt(Parse(Python, file.code).value, j, file.code) == Some((name, b))
                   && f == FragmentOf(Parse(Python, file.code).value[j], file.code, file.path)
  }

  /** A file adds only the fragments of its own kept roots. */
  lemma IndexFileAddsOnlyKept(file: SourceFile, ix: Index<Fragment>, mode: Mode, name: string, b: Bucket, f: Fragment)
    requires Has(IndexFile(file, ix, mode), name, b, f)
    ensures Has(ix, name, b, f) || KeptIn(file, name, b, f)
  {
    if Parses(file) {
      IndexRootsAddsOnlyKept(file.code, file.path, Parse(Python, file.code).value, 0, ix, mode, name, b, f);
    }
  }

  /** The file loop adds only the fragments of kept roots of its files. */
  lemma {:induction false} IndexFilesAddsOnlyKept(files: seq<SourceFile>, ix: Index<Fragment>, mode: Mode,
                                                  name: string, b: Bucket, f: Fragment)
    requires Has(IndexFiles(files, ix, mode), name, b, f)
    ensures Has(ix, name, b, f) || exists k :: 0 <= k < |files| && KeptIn(files[k], name, b, f)
    decreases |files|
  {
    if files != [] {
      var ix1 := IndexFile(files[0], ix, mode);
      IndexFilesAddsOnlyKept(files[1..], ix1, mode, name, b, f);
      if !Has(ix1, name, b, f) {
        KeptInTail(files, name, b, f);
      } else {
        IndexFileAddsOnlyKept(files[0], ix, mode, name, b, f);
      }
    }
  }

  lemma KeptInTail(files: seq<SourceFile>, name: string, b: Bucket, f: Fragment)
    requires files != [] && exists k :: 0 <= k < |files[1..]| && KeptIn(files[1..][k], name, b, f)
    ensures exists k :: 0 <= k < |files| && KeptIn(files[k], name, b, f)
  {
    var k :| 0 <= k < |files[1..]| && KeptIn(files[1..][k], name, b, f);
    assert files[1..][k] == files[k + 1];
  }

  /** Every fragment of every potential chunk is a kept root of one of the
      files. */
  lemma PotentialChunksSound(files: seq<SourceFile>, mode: Mode)
    ensures forall i, f :: 0 <= i < |PotentialChunks(IndexFiles(files, [], mode))| &&
                           f in PotentialChunks(IndexFiles(files, [], mode))[i] ==>
              exists k, name, b :: 0 <= k < |files| && KeptIn(files[k], name, b, f)
  {
    var ix := IndexFiles(files, [], mode);
    forall i, f | 0 <= i < |PotentialChunks(ix)| && f in PotentialChunks(ix)[i]
      ensures exists k, name, b :: 0 <= k < |files| && KeptIn(files[k], name, b, f)
    {
      var k, name, b := ChunkedIsKept(files, mode, i, f);
    }
  }

  /** One fragment of one potential chunk, with the file, name and bucket
      it comes from. */
  lemma ChunkedIsKept(files: seq<SourceFile>, mode: Mode, i: nat, f: Fragment) returns (k: nat, name: string, b: Bucket)
    requires i < |IndexFiles(files, [], mode)| && f in Flatten(IndexFiles(files, [], mode)[i])
    ensures k < |files| && KeptIn(files[k], name, b, f)
  {
    var ix := IndexFiles(files, [], mode);
    name := ix[i].name;
    FlattenMembers(ix[i], f);
    b :| f in Get(ix[i], b);
    FindUnique(ix, i);
    assert Has(ix, name, b, f);
    k := FiledIsKept(files, mode, name, b, f);
  }

  /** A fragment filed by the file loop from an empty index, with the file
      it comes from. */
  lemma FiledIsKept(files: seq<SourceFile>, mode: Mode, name: string, b: Bucket, f: Fragment) returns (k: nat)
    requires Has(IndexFiles(files, [], mode), name, b, f)
    ensures k < |files| && KeptIn(files[k], name, b, f)
  {
    IndexFilesAddsOnlyKept(files, [], mode, name, b, f);
    EmptyHasNothing(name, b, f);
    k :| 0 <= k < |files| && KeptIn(files[k], name, b, f);
  }

  /** `preprocess_code` (Backend): index every file, then flatten. Nothing
      but the kept roots of the files reaches a potential chunk; the
      converse is `PreprocessCodeComplete`. */
  function PreprocessCode(files: seq<SourceFile>, mode: Mode): (r: seq<seq<Fragment>>)
    ensures forall i, f :: 0 <= i < |r| && f in r[i] ==>
              exists k, name, b :: 0 <= k < |files| && KeptIn(files[k], name, b, f)
  {
    PotentialChunksSound(files, mode);
    PotentialChunks(IndexFiles(files, [], mode))
  }

  /** What one file files, whatever was indexed before it, the whole loop
      keeps. */
  lemma {:induction false} FiledStaysFiled(files: seq<SourceFile>, ix: Index<Fragment>, mode: Mode,
                                           k: nat, name: string, b: Bucket, x: Fragment)
    requires k < |files|
    requires forall ix' :: Has(IndexFile(files[k], ix', mode), name, b, x)
    ensures Has(IndexFiles(files, ix, mode), name, b, x)
    decreases k
  {
    var ix1 := IndexFile(files[0], ix, mode);
    assert IndexFiles(files, ix, mode) == IndexFiles(files[1..], ix1, mode);
    if k > 0 {
      assert files[1..][k - 1] == files[k];
      FiledStaysFiled(files[1..], ix1, mode, k - 1, name, b, x);
    } else {
      assert Has(ix1, name, b, x);
    }
  }

  /** Every kept root of every parsable file reaches some potential chunk. */
  lemma PreprocessCodeComplete(files: seq<SourceFile>, mode: Mode, k: nat, j: nat, name: string, b: Bucket)
    requires k < |files| && Parses(files[k])
    requires j < |Parse(Python, files[k].code).value|
    requires EntryAt(Parse(Python, files[k].code).value, j, files[k].code) == Some((name, b))
    ensures exists i :: 0 <= i < |PreprocessCode(files, mode)| &&
              FragmentOf(Parse(Python, files[k].code).value[j], files[k].code, files[k].path) in PreprocessCode(files, mode)[i]
  {
    var ix := IndexFiles(files, [], mode);
    var f := FragmentOf(Parse(Python, files[k].code).value[j], files[k].code, files[k].path);
    forall ix' ensures Has(IndexFile(files[k], ix', mode), name, b, f) {
      FileKeepsRoots(files[k], ix', mode, j, name, b);
    }
    FiledStaysFiled(files, [], mode, k, name, b, f);
    HasFinds(ix, name, b, f);
    var i := Find(ix, name).value;
    StoredIsChunked(ix, name, b, f);
    assert f in PreprocessCode(files, mode)[i];
  }

  // ------------------------------------------------------------- Experiment

  /** A row of the node table: `[st, end]`, the file path, the kind. */
  datatype TextNode = TextNode(start: nat, end: nat, path: string, kind: Kind)

  /** The node table and the symbol index over node ids; a node's id is its
      position in the table. */
  datatype Store = Store(nodes: seq<TextNode>, symbols: Index<nat>)

  function NodeOf(n: Node, path: string): TextNode {
    TextNode(n.start, n.end, path, n.kind)
  }

  /** Every id in the index names a row of the node table. */
  ghost predicate IdsValid(st: Store) {
    forall name, b, id: nat :: Has(st.symbols, name, b, id) ==> id < |st.nodes|
  }

  /** One iteration for a root with filing decision `e`: a kept root's node
      is inserted, taking the next id, and that id is filed. */
  function Record(st: Store, e: Option<(string, Bucket)>, node: TextNode, mode: Mode): (st': Store)
    ensures e.None? ==> st' == st
    ensures e.Some? ==> st'.nodes == st.nodes + [node] && Has(st'.symbols, e.value.0, e.value.1, |st.nodes|)
    ensures forall name, b, id :: Has(st.symbols, name, b, id) ==> Has(st'.symbols, name, b, id)
    ensures forall name, b, id :: Has(st'.symbols, name, b, id) ==>
              Has(st.symbols, name, b, id) || (e == Some((name, b)) && id == |st.nodes|)
    ensures forall name, b :: Get(RowOf(st'.symbols, name), b) ==
              if e == Some((name, b)) then Grow(Get(RowOf(st.symbols, name), b), |st.nodes|, mode)
              else Get(RowOf(st.symbols, name), b)
  {
    FileKeeps(st.symbols, e, |st.nodes|, mode);
    FileBuckets(st.symbols, e, |st.nodes|, mode);
    match e
    case None => st
    case Some(_) => Store(st.nodes + [node], File(st.symbols, e, |st.nodes|, mode))
  }

  /** Recording keeps every filed id pointing into the node table. */
  lemma RecordValid(st: Store, e: Option<(string, Bucket)>, node: TextNode, mode: Mode)
    requires IdsValid(st)
    ensures IdsValid(Record(st, e, node, mode))
  {
  }

  /** The id a kept root takes is fresh, so `$addToSet` never finds it
      already present and behaves like `array_append`. */
  lemma RecordModesAgree(st: Store, e: Option<(string, Bucket)>, node: TextNode)
    requires IdsValid(st)
    ensures Record(st, e, node, AddToSet) == Record(st, e, node, Append)
  {
    if e.Some? {
      var (name, b) := e.value;
      var id := |st.nodes|;
      assert !Has(st.symbols, name, b, id);
      assert Upsert(st.symbols, name, b, id, AddToSet) == Upsert(st.symbols, name, b, id, Append);
    }
  }

  /** Reference for the nodes the loop inserts: those of the kept roots
      from `i` on, in root order. */
  function KeptNodes(source: string, path: string, roots: seq<Node>, i: nat): seq<TextNode>
    requires i <= |roots|
    decreases |roots| - i
  {
    if i == |roots| then []
    else (if EntryAt(roots, i, source).Some? then [NodeOf(roots[i], path)] else []) + KeptNodes(source, path, roots, i + 1)
  }

  /** Reference for the ids the loop files under `name` in bucket `b` when
      the next free id is `next`: a kept root takes the next id, and the
      ids of the roots whose filing decision is `(name, b)` are listed in
      root order. */
  function KeptIds(source: string, roots: seq<Node>, i: nat, name: string, b: Bucket, next: nat): seq<nat>
    requires i <= |roots|
    decreases |roots| - i
  {
    if i == |roots| then []
    else match EntryAt(roots, i, source)
      case None => KeptIds(source, roots, i + 1, name, b, next)
      case Some(e) => (if e == (name, b) then [next] else []) + KeptIds(source, roots, i + 1, name, b, next + 1)
  }

  /** The loop of `preprocess_code` (Experiment) from root `i` on: insert
      the node, then file its id. The node table grows by exactly the kept
      roots' nodes, in root order, and every bucket by exactly the ids those
      nodes took (under `array_append`, by appending them). */
  function IndexRootsById(source: string, path: string, roots: seq<Node>, i: nat, st: Store, mode: Mode)
    : (st': Store)
    requires i <= |roots|
    ensures st'.nodes == st.nodes + KeptNodes(source, path, roots, i)
    ensures forall name, b :: Get(RowOf(st'.symbols, name), b) ==
              GrowAll(Get(RowOf(st.symbols, name), b), KeptIds(source, roots, i, name, b, |st.nodes|), mode)
    ensures mode == Append ==>
              (forall name, b :: Get(RowOf(st'.symbols, name), b) ==
                 Get(RowOf(st.symbols, name), b) + KeptIds(source, roots, i, name, b, |st.nodes|))
    ensures forall name, b, id :: Has(st.symbols, name, b, id) ==> Has(st'.symbols, name, b, id)
    decreases |roots| - i
  {
    if i == |roots| then st
    else
      var st1 := Record(st, EntryAt(roots, i, source), NodeOf(roots[i], path), mode);
      var st' := IndexRootsById(source, path, roots, i + 1, st1, mode);
      KeptStep(source, path, roots, i, st, mode, st');
      BucketsAppended(st.symbols, st'.symbols, mode, (name, b) => KeptIds(source, roots, i, name, b, |st.nodes|));
      st'
  }

  /** One step of the loop for one bucket: recording root `i` turns the
      bucket `g` into `g1` and the next free id into `next1`; then the rest
      grows it by `KeptIds` from `i + 1`. */
  lemma KeptIdsCons(source: string, roots: seq<Node>, i: nat, name: string, b: Bucket, mode: Mode,
                       g: seq<nat>, g1: seq<nat>, next: nat, next1: nat)
    requires i < |roots|
    requires next1 == if EntryAt(roots, i, source).Some? then next + 1 else next
    requires g1 == if EntryAt(roots, i, source) == Some((name, b)) then Grow(g, next, mode) else g
    ensures GrowAll(g1, KeptIds(source, roots, i + 1, name, b, next1), mode)
            == GrowAll(g, KeptIds(source, roots, i, name, b, next), mode)
  {
    var e := EntryAt(roots, i, source);
    var rest := KeptIds(source, roots, i + 1, name, b, next1);
    if e == Some((name, b)) {
      assert KeptIds(source, roots, i, name, b, next) == [next] + rest;
      GrowAllCons(g, next, rest, mode);
      assert GrowAll(g1, rest, mode) == GrowAll(g, [next] + rest, mode);
    } else if e.Some? {
      assert next1 == next + 1 && g1 == g;
      assert KeptIds(source, roots, i, name, b, next) == rest;
    } else {
      assert next1 == next && g1 == g;
      assert KeptIds(source, roots, i, name, b, next) == rest;
    }
  }

  lemma KeptStep(source: string, path: string, roots: seq<Node>, i: nat, st: Store, mode: Mode, st': Store)
    requires i < |roots|
    requires var st1 := Record(st, EntryAt(roots, i, source), NodeOf(roots[i], path), mode);
             && st'.nodes == st1.nodes + KeptNodes(source, path, roots, i + 1)
             && forall name, b :: Get(RowOf(st'.symbols, name), b) ==
                  GrowAll(Get(RowOf(st1.symbols, name), b), KeptIds(source, roots, i + 1, name, b, |st1.nodes|), mode)
    ensures st'.nodes == st.nodes + KeptNodes(source, path, roots, i)
    ensures forall name, b :: Get(RowOf(st'.symbols, name), b) ==
              GrowAll(Get(RowOf(st.symbols, name), b), KeptIds(source, roots, i, name, b, |st.nodes|), mode)
  {
    var e := EntryAt(roots, i, source);
    var st1 := Record(st, e, NodeOf(roots[i], path), mode);
    var rest := KeptNodes(source, path, roots, i + 1);
    if e.Some? {
      var n := NodeOf(roots[i], path);
      assert KeptNodes(source, path, roots, i) == [n] + rest;
      SeqAssoc(st.nodes, [n], rest);
    } else {
      assert KeptNodes(source, path, roots, i) == rest;
    }
    forall name, b
      ensures Get(RowOf(st'.symbols, name), b) ==
              GrowAll(Get(RowOf(st.symbols, name), b), KeptIds(source, roots, i, name, b, |st.nodes|), mode)
    {
      KeptIdsCons(source, roots, i, name, b, mode, Get(RowOf(st.symbols, name), b),
                       Get(RowOf(st1.symbols, name), b), |st.nodes|, |st1.nodes|);
    }
  }

  lemma SeqAssoc<T>(a: seq<T>, b: seq<T>, c: seq<T>)
    ensures a + b + c == a + (b + c)
  {
  }

  lemma {:induction false} IdsStayValid(source: string, path: string, roots: seq<Node>, i: nat, st: Store, mode: Mode)
    requires i <= |roots| && IdsValid(st)
    ensures IdsValid(IndexRootsById(source, path, roots, i, st, mode))
    decreases |roots| - i
  {
    if i < |roots| {
      var st1 := Record(st, EntryAt(roots, i, source), NodeOf(roots[i], path), mode);
      RecordValid(st, EntryAt(roots, i, source), NodeOf(roots[i], path), mode);
      IdsStayValid(source, path, roots, i + 1, st1, mode);
    }
  }

  /** The index keeps one row per symbol name. */
  lemma {:induction false} NamesStayUnique(source: string, path: string, roots: seq<Node>, i: nat, st: Store, mode: Mode)
    requires i <= |roots| && UniqueNames(st.symbols)
    ensures UniqueNames(IndexRootsById(source, path, roots, i, st, mode).symbols)
    decreases |roots| - i
  {
    if i < |roots| {
      var e := EntryAt(roots, i, source);
      var st1 := Record(st, e, NodeOf(roots[i], path), mode);
      if e.Some? {
        UpsertUnique(st.symbols, e.value.0, e.value.1, |st.nodes|, mode);
      }
      NamesStayUnique(source, path, roots, i + 1, st1, mode);
    }
  }

  /** Each kept root gets a new id whose node is the root's, filed under
      the root's symbol and bucket. */
  lemma {:induction false} KeptRootsRecorded(source: string, path: string, roots: seq<Node>, i: nat, st: Store,
                                             mode: Mode, j: nat, name: string, b: Bucket)
    requires i <= j < |roots| && EntryAt(roots, j, source) == Some((name, b))
    ensures var st' := IndexRootsById(source, path, roots, i, st, mode);
            exists id :: |st.nodes| <= id < |st'.nodes| && st'.nodes[id] == NodeOf(roots[j], path)
                         && Has(st'.symbols, name, b, id)
    decreases |roots| - i
  {
    var st1 := Record(st, EntryAt(roots, i, source), NodeOf(roots[i], path), mode);
    var st' := IndexRootsById(source, path, roots, i + 1, st1, mode);
    assert st' == IndexRootsById(source, path, roots, i, st, mode);
    if j == i {
      var id := |st.nodes|;
      assert st'.nodes[id] == st1.nodes[id];
      assert Has(st'.symbols, name, b, id);
    } else {
      KeptRootsRecorded(source, path, roots, i + 1, st1, mode, j, name, b);
    }
  }

  /** Every new id belongs to a kept root. */
  lemma {:induction false} RecordedAreKept(source: string, path: string, roots: seq<Node>, i: nat, st: Store,
                                           mode: Mode, id: nat)
    requires i <= |roots|
    requires |st.nodes| <= id < |IndexRootsById(source, path, roots, i, st, mode).nodes|
    ensures exists j :: i <= j < |roots| && EntryAt(roots, j, source).Some?
                        && IndexRootsById(source, path, roots, i, st, mode).nodes[id] == NodeOf(roots[j], path)
    decreases |roots| - i
  {
    var st1 := Record(st, EntryAt(roots, i, source), NodeOf(roots[i], path), mode);
    var st' := IndexRootsById(source, path, roots, i + 1, st1, mode);
    assert st' == IndexRootsById(source, path, roots, i, st, mode);
    if EntryAt(roots, i, source).Some? && id == |st.nodes| {
      assert st'.nodes[id] == st1.nodes[id];
    } else {
      RecordedAreKept(source, path, roots, i + 1, st1, mode, id);
    }
  }

  /** `preprocess_code` (Experiment): parse, record and file the roots, and
      flatten the index. A parse error escapes with nothing recorded. */
  function PreprocessById(d: Dialect, source: string, path: string, st: Store, mode: Mode)
    : (r: Result<(seq<seq<nat>>, Store), ParseError>)
    ensures r.Err? <==> Parse(d, source).Err?
    ensures r.Ok? ==> st.nodes <= r.value.1.nodes
    ensures r.Ok? ==> |r.value.0| == |r.value.1.symbols|
  {
    var roots :- Parse(d, source);
    var st' := IndexRootsById(source, path, roots, 0, st, mode);
    Ok((PotentialChunks(st'.symbols), st'))
  }

  /** Node ids are fresh, so both stores build the same node table and the
      same index. */
  lemma {:induction false} ModesAgreeOnFreshIds(source: string, path: string, roots: seq<Node>, i: nat, st: Store)
    requires i <= |roots| && IdsValid(st)
    ensures IndexRootsById(source, path, roots, i, st, AddToSet) == IndexRootsById(source, path, roots, i, st, Append)
    decreases |roots| - i
  {
    if i < |roots| {
      var e := EntryAt(roots, i, source);
      var node := NodeOf(roots[i], path);
      RecordModesAgree(st, e, node);
      RecordValid(st, e, node, Append);
      ModesAgreeOnFreshIds(source, path, roots, i + 1, Record(st, e, node, Append));
    }
  }
}

=== FILE: scanner.dfy ===
/** `CharReader` and the token scanners of both parsers.

    The cursor is a pair: `pos`, the index of the next character in the text,
    and `off`, the offset the reader reports for it.
    - The Python reader keeps a single `idx`; it advances it by the UTF-8
      width of the character but also reads `text[idx]` with it, so `pos`
      and `off` are the same number and both jump by the width.
    - The Rust reader pulls characters one at a time from an iterator, so
      `pos` grows by one while `off` grows by the width: a byte offset. */
module Scanner {
  import opened Text

  datatype Dialect = Python | Rust

  datatype Cursor = Cursor(pos: nat, off: nat)

  /** The reader at the start of the text. */
  function Start(): Cursor {
    Cursor(0, 0)
  }

  /** Characters still to be read; `peek` is `None` exactly when it is zero. */
  function Rem(text: string, c: Cursor): nat {
    if c.pos < |text| then |text| - c.pos else 0
  }

  /** What each reader maintains about its cursor. */
  predicate Inv(d: Dialect, text: string, c: Cursor) {
    match d
    case Python => c.pos == c.off && (AllAscii(text) ==> c.pos <= |text|)
    case Rust => c.pos <= |text| && c.off == Utf8Len(text[..c.pos])
  }

  /** `off` is the UTF-8 length of some prefix of the text: a byte offset
      that falls between two characters. */
  predicate IsBoundary(text: string, off: nat) {
    exists k :: 0 <= k <= |text| && Utf8Len(text[..k]) == off
  }

  /** The Rust reader only ever stands on a character boundary. */
  lemma RustOnBoundary(text: string, c: Cursor)
    ensures Inv(Rust, text, c) ==> IsBoundary(text, c.off)
  {
    if Inv(Rust, text, c) {
      assert Utf8Len(text[..c.pos]) == c.off;
    }
  }

  /** Readers under which every step moves to the next character: the Rust
      reader always, the Python reader on ASCII text. */
  predicate StepsByOne(d: Dialect, text: string) {
    d == Rust || AllAscii(text)
  }

  /** `next()`: consume the peeked character. */
  function Advance(d: Dialect, text: string, c: Cursor): (c': Cursor)
    requires c.pos < |text|
    ensures Rem(text, c') < Rem(text, c)
    ensures c'.off == c.off + Utf8Width(text[c.pos])
    ensures Inv(d, text, c) ==> Inv(d, text, c')
    ensures StepsByOne(d, text) && Inv(d, text, c) ==> c'.pos == c.pos + 1
  {
    var w := Utf8Width(text[c.pos]);
    match d
    case Python =>
      assert AllAscii(text) ==> IsAscii(text[c.pos]);
      Cursor(c.pos + w, c.off + w)
    case Rust =>
      Utf8LenStep(text, c.pos);
      Cursor(c.pos + 1, c.off + w)
  }

  predicate IsSpace(d: Dialect, ch: char) {
    match d
    case Python => IsPySpace(ch)
    case Rust => IsRustWhitespace(ch)
  }

  /** Characters that end a word or a variable: whitespace, `(`, `)`, `;`. */
  predicate IsStop(d: Dialect, ch: char) {
    IsSpace(d, ch) || ch == '(' || ch == ')' || ch == ';'
  }

  /** The whitespace-skipping loops that precede every dispatch. */
  function SkipWs(d: Dialect, text: string, c: Cursor): (c': Cursor)
    ensures Rem(text, c') <= Rem(text, c)
    ensures c.off <= c'.off
    ensures Inv(d, text, c) ==> Inv(d, text, c')
    ensures c'.pos >= |text| || !IsSpace(d, text[c'.pos])
    ensures StepsByOne(d, text) && Inv(d, text, c) ==>
              c.pos <= c'.pos && forall i :: c.pos <= i < c'.pos ==> IsSpace(d, text[i])
    decreases Rem(text, c)
  {
    if c.pos < |text| && IsSpace(d, text[c.pos]) then SkipWs(d, text, Advance(d, text, c)) else c
  }

  /** The character loop of `parse_word` / `parse_variable`: collect
      characters up to whitespace, a parenthesis or `;`. */
  function ScanWord(d: Dialect, text: string, c: Cursor): (r: (string, Cursor))
    ensures Rem(text, r.1) <= Rem(text, c)
    ensures c.off <= r.1.off
    ensures Inv(d, text, c) ==> Inv(d, text, r.1)
    ensures r.1.pos >= |text| || IsStop(d, text[r.1.pos])
    ensures forall i :: 0 <= i < |r.0| ==> !IsStop(d, r.0[i])
    ensures c.pos < |text| && !IsStop(d, text[c.pos]) ==>
              Rem(text, r.1) < Rem(text, c) && c.off < r.1.off && r.0 != [] && r.0[0] == text[c.pos]
    ensures StepsByOne(d, text) && Inv(d, text, c) ==>
              c.pos <= r.1.pos <= |text| && r.0 == text[c.pos..r.1.pos]
    decreases Rem(text, c)
  {
    if c.pos < |text| && !IsStop(d, text[c.pos]) then
      var rest := ScanWord(d, text, Advance(d, text, c));
      ([text[c.pos]] + rest.0, rest.1)
    else
      ("", c)
  }

  /** The loop of `parse_comment`: consume up to, not including, a newline. */
  function ScanComment(d: Dialect, text: string, c: Cursor): (c': Cursor)
    ensures Rem(text, c') <= Rem(text, c)
    ensures c.off <= c'.off
    ensures Inv(d, text, c) ==> Inv(d, text, c')
    ensures c'.pos >= |text| || text[c'.pos] == '\n'
    ensures StepsByOne(d, text) && Inv(d, text, c) ==>
              c.pos <= c'.pos <= |text| && forall i :: c.pos <= i < c'.pos ==> text[i] != '\n'
    decreases Rem(text, c)
  {
    if c.pos < |text| && text[c.pos] != '\n' then ScanComment(d, text, Advance(d, text, c)) else c
  }

  /** The loop of `parse_string` after the opening quote: collect characters
      up to the closing quote, which is consumed but not collected. With no
      closing quote the string runs to the end of the text. */
  function ScanString(d: Dialect, text: string, c: Cursor): (r: (string, Cursor))
    ensures Rem(text, r.1) <= Rem(text, c)
    ensures c.off <= r.1.off
    ensures Inv(d, text, c) ==> Inv(d, text, r.1)
    ensures forall i :: 0 <= i < |r.0| ==> r.0[i] != '"'
    ensures StepsByOne(d, text) && Inv(d, text, c) ==>
              c.pos <= r.1.pos <= |text|
              && ((r.1.pos == |text| && r.0 == text[c.pos..])
                  || (c.pos < r.1.pos && text[r.1.pos - 1] == '"' && r.0 == text[c.pos..r.1.pos - 1]))
    decreases Rem(text, c)
  {
    if c.pos < |text| then
      var c1 := Advance(d, text, c);
      if text[c.pos] == '"' then ("", c1)
      else
        var rest := ScanString(d, text, c1);
        ([text[c.pos]] + rest.0, rest.1)
    else
      ("", c)
  }
}

=== FILE: splitter.dfy ===
/** `ChunkCodeRecursively`: split an oversized syntax node into pieces of
    source text.

    A node within the budget, or one without children, is returned whole as
    its source slice. Otherwise every child is split in turn and its pieces
    are appended to the result, the first of them possibly glued onto the
    current last piece with a `"\n"`. The Backend glues a run of leading
    pieces while each still fits (`MergeRun`); the Experiment glues at most
    the first one (`MergeFirst`). The fit test adds the two lengths and
    forgets the newline, so a glued piece may be one character over the
    budget. The node kind plays no part: any node with children is
    descended into, whatever `is_leaf` says. */
module Splitter {
  import opened Outcome
  import opened Text
  import opened Syntax
  import opened Lines

  datatype Style = MergeRun | MergeFirst

  /** `text[st:en]` for the node's range. */
  function Slice(text: string, n: Node): string {
    PySlice(text, n.start, n.end)
  }

  /** `getSize` measures the text the node covers: when its range lies in
      the text, the size is the length of its slice. */
  lemma SizeIsSliceLength(text: string, n: Node)
    requires n.start <= n.end <= |text|
    ensures |Slice(text, n)| == Size(n)
  {
  }

  /** The splitter stops at a node within the budget or without children. */
  predicate Atomic(n: Node, max: int) {
    Size(n) <= max || n.children == []
  }

  function Last(s: seq<string>): string
    requires s != []
  {
    s[|s| - 1]
  }

  /** Glue `x` and `y` into one piece. */
  function Glue(x: string, y: string): string {
    x + "\n" + y
  }

  // ------------------------------------------------------------- merging

  /** Backend merge: while the current last piece and the next piece fit
      together, glue the next piece on; at the first that does not fit,
      append it and everything after it. With nothing collected yet, all
      pieces are appended. */
  function Absorb(acc: seq<string>, pieces: seq<string>, max: int): (r: seq<string>)
    ensures Join(r) == Join(acc + pieces)
    ensures |acc| <= |r| <= |acc| + |pieces|
    ensures acc + pieces != [] ==> r != []
    ensures acc != [] ==> r[..|acc| - 1] == acc[..|acc| - 1]
    ensures acc == [] ==> r == pieces
    ensures forall i :: 0 <= i < |r| ==> r[i] in acc + pieces || |r[i]| <= max + 1
    decreases |pieces|
  {
    if acc == [] || pieces == [] then acc + pieces
    else if |Last(acc)| + |pieces[0]| > max then acc + pieces
    else
      var acc' := acc[..|acc| - 1] + [Glue(Last(acc), pieces[0])];
      GlueJoins(acc[..|acc| - 1], Last(acc), pieces[0], pieces[1..]);
      assert acc[..|acc| - 1] + [Last(acc)] == acc;
      assert [pieces[0]] + pieces[1..] == pieces;
      assert acc' + pieces[1..] == acc[..|acc| - 1] + [Glue(Last(acc), pieces[0])] + pieces[1..];
      assert acc + pieces == acc[..|acc| - 1] + [Last(acc)] + [pieces[0]] + pieces[1..];
      assert acc'[..|acc| - 1] == acc[..|acc| - 1];
      Absorb(acc', pieces[1..], max)
  }

  /** Gluing two neighbours does not change the joined text. */
  lemma GlueJoins(pre: seq<string>, x: string, y: string, post: seq<string>)
    ensures Join(pre + [Glue(x, y)] + post) == Join(pre + [x] + [y] + post)
  {
    var glued, apart := [Glue(x, y)] + post, [x] + ([y] + post);
    GlueAlone(x, y, post);
    assert pre + [Glue(x, y)] + post == pre + glued;
    assert pre + [x] + [y] + post == pre + apart;
    if pre == [] {
      assert pre + glued == glued && pre + apart == apart;
    } else {
      JoinConcat(pre, glued, '\n');
      JoinConcat(pre, apart, '\n');
    }
  }

  lemma GlueAlone(x: string, y: string, post: seq<string>)
    ensures Join([Glue(x, y)] + post) == Join([x] + ([y] + post))
  {
    JoinCons(Glue(x, y), post);
    JoinCons(x, [y] + post);
    JoinCons(y, post);
    if post != [] {
      var j := Join(post);
      assert Glue(x, y) + "\n" + j == x + "\n" + (y + "\n" + j);
    }
  }

  lemma JoinCons(x: string, rest: seq<string>)
    ensures Join([x] + rest) == if rest == [] then x else x + "\n" + Join(rest)
  {
    assert ([x] + rest)[1..] == rest;
  }

  /** The last piece after gluing on the first `m` pieces. */
  function Grown(last: string, pieces: seq<string>, m: nat): string
    requires m <= |pieces|
  {
    Join([last] + pieces[..m])
  }

  /** The Backend merge stops at the first piece that does not fit: the
      last piece absorbs exactly the leading `m` pieces each of which fitted
      onto what had been glued so far, and the rest follow unchanged. */
  predicate StopsAt(acc: seq<string>, pieces: seq<string>, max: int, m: nat)
    requires acc != [] && m <= |pieces|
  {
    && Absorb(acc, pieces, max) == acc[..|acc| - 1] + [Grown(Last(acc), pieces, m)] + pieces[m..]
    && (forall j :: 0 <= j < m ==> |Grown(Last(acc), pieces, j)| + |pieces[j]| <= max)
    && (m < |pieces| ==> |Grown(Last(acc), pieces, m)| + |pieces[m]| > max)
  }

  lemma {:induction false} AbsorbStops(acc: seq<string>, pieces: seq<string>, max: int)
    requires acc != []
    ensures exists m :: 0 <= m <= |pieces| && StopsAt(acc, pieces, max, m)
    decreases |pieces|
  {
    var last := Last(acc);
    assert Grown(last, pieces, 0) == last by { assert [last] + pieces[..0] == [last]; }
    assert acc[..|acc| - 1] + [last] == acc;
    if pieces == [] || |last| + |pieces[0]| > max {
      assert pieces[0..] == pieces;
      assert StopsAt(acc, pieces, max, 0);
    } else {
      var acc' := acc[..|acc| - 1] + [Glue(last, pieces[0])];
      AbsorbStops(acc', pieces[1..], max);
      var m' :| 0 <= m' <= |pieces[1..]| && StopsAt(acc', pieces[1..], max, m');
      AbsorbShift(acc, pieces, max, m');
    }
  }

  /** One glued piece more: stopping after `m'` further pieces is stopping
      after `m' + 1`. */
  lemma AbsorbShift(acc: seq<string>, pieces: seq<string>, max: int, m': nat)
    requires acc != [] && pieces != [] && |Last(acc)| + |pieces[0]| <= max && m' <= |pieces| - 1
    requires StopsAt(acc[..|acc| - 1] + [Glue(Last(acc), pieces[0])], pieces[1..], max, m')
    ensures StopsAt(acc, pieces, max, m' + 1)
  {
    var last := Last(acc);
    var acc' := acc[..|acc| - 1] + [Glue(last, pieces[0])];
    assert Grown(last, pieces, 0) == last by { assert [last] + pieces[..0] == [last]; }
    assert Absorb(acc, pieces, max) == Absorb(acc', pieces[1..], max);
    assert acc'[..|acc'| - 1] == acc[..|acc| - 1] && Last(acc') == Glue(last, pieces[0]);
    forall j | 0 <= j <= m' ensures Grown(Last(acc'), pieces[1..], j) == Grown(last, pieces, j + 1) {
      GlueRun(last, pieces, j);
    }
    var m := m' + 1;
    assert pieces[1..][m'..] == pieces[m..];
    assert forall j :: 0 <= j < m ==> |Grown(last, pieces, j)| + |pieces[j]| <= max by {
      forall j | 0 <= j < m ensures |Grown(last, pieces, j)| + |pieces[j]| <= max {
        if j > 0 {
          assert pieces[1..][j - 1] == pieces[j];
        }
      }
    }
    assert m < |pieces| ==> pieces[1..][m'] == pieces[m];
  }

  /** Gluing the first piece on, then `j` more, is gluing on `j + 1`. */
  lemma GlueRun(last: string, pieces: seq<string>, j: nat)
    requires j < |pieces|
    ensures Grown(Glue(last, pieces[0]), pieces[1..], j) == Grown(last, pieces, j + 1)
  {
    GlueJoins([], last, pieces[0], pieces[1..][..j]);
    assert [] + [Glue(last, pieces[0])] + pieces[1..][..j] == [Glue(last, pieces[0])] + pieces[1..][..j];
    assert [] + [last] + [pieces[0]] + pieces[1..][..j] == [last] + pieces[..j + 1];
  }

  /** Experiment merge: glue only the first piece onto the last one, and
      only when the two fit together. `sub_chunks[0]` is read, so the
      pieces must not be empty. */
  function MergeOnce(acc: seq<string>, pieces: seq<string>, max: int): (r: seq<string>)
    requires pieces != []
    ensures Join(r) == Join(acc + pieces)
    ensures |r| == |acc| + |pieces| - 1 <==> acc != [] && |Last(acc)| + |pieces[0]| <= max
    ensures |r| == |acc| + |pieces| || |r| == |acc| + |pieces| - 1
    ensures |r| == |acc| + |pieces| ==> r == acc + pieces
    ensures |r| == |acc| + |pieces| - 1 ==> r[|acc|..] == pieces[1..]
    ensures |r| == |acc| + |pieces| - 1 ==> r[|acc| - 1] == Glue(Last(acc), pieces[0])
    ensures acc != [] ==> r[..|acc| - 1] == acc[..|acc| - 1]
    ensures forall i :: 0 <= i < |r| ==> r[i] in acc + pieces || |r[i]| <= max + 1
  {
    if acc != [] && |Last(acc)| + |pieces[0]| <= max then
      var r := acc[..|acc| - 1] + [Glue(Last(acc), pieces[0])] + pieces[1..];
      GlueJoins(acc[..|acc| - 1], Last(acc), pieces[0], pieces[1..]);
      assert acc[..|acc| - 1] + [Last(acc)] == acc;
      assert [pieces[0]] + pieces[1..] == pieces;
      assert acc + pieces == acc[..|acc| - 1] + [Last(acc)] + [pieces[0]] + pieces[1..];
      assert r[|acc|..] == pieces[1..];
      r
    else acc + pieces
  }

  function Merge(style: Style, acc: seq<string>, pieces: seq<string>, max: int): (r: seq<string>)
    requires pieces != []
    ensures Join(r) == Join(acc + pieces)
    ensures |acc| <= |r| && r != []
    ensures acc != [] ==> r[..|acc| - 1] == acc[..|acc| - 1]
    ensures forall i :: 0 <= i < |r| ==> r[i] in acc + pieces || |r[i]| <= max + 1
  {
    match style
    case MergeRun => Absorb(acc, pieces, max)
    case MergeFirst => MergeOnce(acc, pieces, max)
  }

  // ------------------------------------------------------------ splitting

  /** `ChunkCodeRecursively(node, text, max_size)`. */
  function Split(style: Style, n: Node, text: string, max: int): (r: seq<string>)
    ensures r != []
    decreases n
  {
    if Atomic(n, max) then [Slice(text, n)]
    else SplitAll(style, n.children, 0, [], text, max)
  }

  /** The loop over the children from child `i` on, `acc` being the pieces
      collected so far. */
  function SplitAll(style: Style, kids: seq<Node>, i: nat, acc: seq<string>, text: string, max: int)
    : (r: seq<string>)
    requires i <= |kids|
    ensures |acc| <= |r|
    ensures acc != [] ==> r[..|acc| - 1] == acc[..|acc| - 1]
    ensures i < |kids| ==> r != []
    decreases kids, |kids| - i
  {
    if i == |kids| then acc
    else
      var m := Merge(style, acc, Split(style, kids[i], text, max), max);
      var r := SplitAll(style, kids, i + 1, m, text, max);
      assert acc != [] ==> r[..|acc| - 1] == m[..|m| - 1][..|acc| - 1];
      r
  }

  // ------------------------------------------------- reference: the frontier

  /** The nodes the splitter stops at, left to right: a reference
      definition that ignores merging altogether. */
  function Frontier(n: Node, max: int): (r: seq<Node>)
    ensures r != []
    ensures forall m :: m in r ==> Atomic(m, max)
    decreases n
  {
    if Atomic(n, max) then [n]
    else FrontierAll(n.children, 0, max)
  }

  function FrontierAll(kids: seq<Node>, i: nat, max: int): (r: seq<Node>)
    requires i <= |kids|
    ensures i < |kids| ==> r != []
    ensures forall m :: m in r ==> Atomic(m, max)
    decreases kids, |kids| - i
  {
    if i == |kids| then []
    else Frontier(kids[i], max) + FrontierAll(kids, i + 1, max)
  }

  /** The source slices of a run of nodes. */
  function Slices(text: string, ns: seq<Node>): (r: seq<string>)
    ensures |r| == |ns|
    ensures forall i :: 0 <= i < |ns| ==> r[i] == Slice(text, ns[i])
  {
    if ns == [] then [] else [Slice(text, ns[0])] + Slices(text, ns[1..])
  }

  lemma SlicesConcat(text: string, a: seq<Node>, b: seq<Node>)
    ensures Slices(text, a + b) == Slices(text, a) + Slices(text, b)
  {
    assert Slices(text, a + b) == Slices(text, a) + Slices(text, b) by {
      forall i | 0 <= i < |a + b| ensures Slices(text, a + b)[i] == (Slices(text, a) + Slices(text, b))[i] {
        if i >= |a| {
          assert (a + b)[i] == b[i - |a|];
        }
      }
    }
  }

  // ------------------------------------------------------------ properties

  /** Merging only inserts newlines between frontier slices: joining the
      pieces with `"\n"` gives the frontier slices joined with `"\n"`.
      Nothing is lost, duplicated or reordered. */
  lemma {:induction false} SplitJoin(style: Style, n: Node, text: string, max: int)
    ensures Join(Split(style, n, text, max)) == Join(Slices(text, Frontier(n, max)))
    decreases n, 1
  {
    if !Atomic(n, max) {
      SplitAllJoin(style, n.children, 0, [], text, max);
      assert [] + Slices(text, FrontierAll(n.children, 0, max)) == Slices(text, FrontierAll(n.children, 0, max));
    }
  }

  lemma {:induction false} SplitAllJoin(style: Style, kids: seq<Node>, i: nat, acc: seq<string>, text: string, max: int)
    requires i <= |kids|
    ensures Join(SplitAll(style, kids, i, acc, text, max)) == Join(acc + Slices(text, FrontierAll(kids, i, max)))
    decreases kids, 0, |kids| - i
  {
    if i == |kids| {
      assert acc + Slices(text, []) == acc;
    } else {
      var p := Split(style, kids[i], text, max);
      var f := Slices(text, Frontier(kids[i], max));
      var rest := Slices(text, FrontierAll(kids, i + 1, max));
      var m := Merge(style, acc, p, max);
      assert SplitAll(style, kids, i, acc, text, max) == SplitAll(style, kids, i + 1, m, text, max);
      SplitJoin(style, kids[i], text, max);
      SplitAllJoin(style, kids, i + 1, m, text, max);
      SlicesConcat(text, Frontier(kids[i], max), FrontierAll(kids, i + 1, max));
      assert Slices(text, FrontierAll(kids, i, max)) == f + rest;
      JoinThrough(acc, p, f, m, rest);
    }
  }

  /** One step of the join argument: the merged run joins like `acc + p`,
      and `p` joins like the frontier slices `f`. */
  lemma JoinThrough(acc: seq<string>, p: seq<string>, f: seq<string>, m: seq<string>, rest: seq<string>)
    requires p != [] && f != [] && m != []
    requires Join(m) == Join(acc + p) && Join(p) == Join(f)
    ensures Join(m + rest) == Join(acc + (f + rest))
  {
    JoinConcat(m, rest, '\n');
    JoinConcat(acc, p, '\n');
    JoinConcat(acc, f, '\n');
    JoinConcat(acc + f, rest, '\n');
    assert acc + (f + rest) == acc + f + rest;
  }

  /** A piece is a frontier slice or has been glued and is then at most one
      over the budget. */
  predicate Bounded(pieces: seq<string>, leaves: seq<string>, max: int) {
    forall k :: 0 <= k < |pieces| ==> |pieces[k]| <= max + 1 || pieces[k] in leaves
  }

  lemma {:induction false} SplitPieces(style: Style, n: Node, text: string, max: int)
    ensures Bounded(Split(style, n, text, max), Slices(text, Frontier(n, max)), max)
    decreases n, 1
  {
    if !Atomic(n, max) {
      SplitAllPieces(style, n.children, 0, [], text, max, Slices(text, FrontierAll(n.children, 0, max)));
    }
  }

  lemma {:induction false} SplitAllPieces(style: Style, kids: seq<Node>, i: nat, acc: seq<string>, text: string,
                                          max: int, leaves: seq<string>)
    requires i <= |kids|
    requires Bounded(acc, leaves, max)
    requires forall p :: p in Slices(text, FrontierAll(kids, i, max)) ==> p in leaves
    ensures Bounded(SplitAll(style, kids, i, acc, text, max), leaves, max)
    decreases kids, 0, |kids| - i
  {
    if i < |kids| {
      var p := Split(style, kids[i], text, max);
      SplitPieces(style, kids[i], text, max);
      SlicesConcat(text, Frontier(kids[i], max), FrontierAll(kids, i + 1, max));
      var m := Merge(style, acc, p, max);
      assert Bounded(m, leaves, max) by {
        forall k | 0 <= k < |m| ensures |m[k]| <= max + 1 || m[k] in leaves {
          if |m[k]| > max + 1 {
            assert m[k] in acc + p;
            if m[k] in p {
              var j :| 0 <= j < |p| && p[j] == m[k];
              assert p[j] in Slices(text, Frontier(kids[i], max));
            } else {
              var j :| 0 <= j < |acc| && acc[j] == m[k];
            }
          }
        }
      }
      SplitAllPieces(style, kids, i + 1, m, text, max, leaves);
    }
  }

  /** The budget: with a non-negative `max_size`, every piece is at most one
      over the budget, or is the whole slice of a childless node that alone
      exceeds it. */
  lemma SplitBound(style: Style, n: Node, text: string, max: int)
    requires max >= 0
    ensures forall p :: p in Split(style, n, text, max) ==>
              |p| <= max + 1 || exists m :: m in Frontier(n, max) && m.children == [] && Size(m) > max && p == Slice(text, m)
  {
    SplitPieces(style, n, text, max);
    var r := Split(style, n, text, max);
    var ms := Frontier(n, max);
    forall p | p in r && |p| > max + 1
      ensures exists m :: m in ms && m.children == [] && Size(m) > max && p == Slice(text, m)
    {
      var k :| 0 <= k < |r| && r[k] == p;
      var j :| 0 <= j < |ms| && Slices(text, ms)[j] == p;
      var m := ms[j];
      assert m in ms && p == Slice(text, m);
      assert Atomic(m, max);
    }
  }

  /** The kind of a node is never consulted: a leaf-kind node with children
      is descended into like an expression group. */
  lemma SplitIgnoresKind(style: Style, n: Node, k: Kind, text: string, max: int)
    ensures Split(style, n.(kind := k), text, max) == Split(style, n, text, max)
  {
  }

  // ------------------------------------------------------------- examples

  /** `xx yy` under a budget of 4: the two words fit by the test (2 + 2)
      and are glued into a 5-character piece. */
  lemma GluedPieceExceedsBudget(style: Style)
    ensures var n := Node(ExpressionGroup, 0, 5, [Node(WordToken, 0, 2, [], Some("xx")), Node(WordToken, 3, 5, [], Some("yy"))], None);
            Split(style, n, "xx yy", 4) == ["xx\nyy"] && |"xx\nyy"| == 4 + 1
  {
    var n := Node(ExpressionGroup, 0, 5, [Node(WordToken, 0, 2, [], Some("xx")), Node(WordToken, 3, 5, [], Some("yy"))], None);
    WordsStayWhole(style);
    WordsGlue(style);
    assert SplitAll(style, n.children, 2, ["xx\nyy"], "xx yy", 4) == ["xx\nyy"];
    assert SplitAll(style, n.children, 1, ["xx"], "xx yy", 4) == ["xx\nyy"];
  }

  lemma WordsStayWhole(style: Style)
    ensures Split(style, Node(WordToken, 0, 2, [], Some("xx")), "xx yy", 4) == ["xx"]
    ensures Split(style, Node(WordToken, 3, 5, [], Some("yy")), "xx yy", 4) == ["yy"]
  {
    var text := "xx yy";
    assert text[0..2] == "xx";
    assert text[3..5] == "yy";
  }

  lemma WordsGlue(style: Style)
    ensures Merge(style, [], ["xx"], 4) == ["xx"]
    ensures Merge(style, ["xx"], ["yy"], 4) == ["xx\nyy"]
  {
    assert Glue("xx", "yy") == "xx\nyy";
    assert ["xx"][..0] + [Glue("xx", "yy")] == ["xx\nyy"];
    if style == MergeRun {
      assert Absorb(["xx\nyy"], [], 4) == ["xx\nyy"];
    }
  }

  /** The two merges part ways when a child yields several pieces that all
      fit: the Backend glues them all, the Experiment only the first. */
  lemma MergeStylesDiffer()
    ensures Absorb(["a"], ["b", "c"], 10) == ["a\nb\nc"]
    ensures MergeOnce(["a"], ["b", "c"], 10) == ["a\nb", "c"]
  {
    assert Glue("a", "b") == "a\nb" && Glue("a\nb", "c") == "a\nb\nc";
    assert ["a"][..0] + [Glue("a", "b")] == ["a\nb"];
    assert ["a\nb"][..0] + [Glue("a\nb", "c")] == ["a\nb\nc"];
    assert ["b", "c"][1..] == ["c"] && ["c"][1..] == [];
    assert Absorb(["a\nb\nc"], [], 10) == ["a\nb\nc"];
    assert Absorb(["a\nb"], ["c"], 10) == ["a\nb\nc"];
  }
}

=== FILE: symbol_index.dfy ===
/** The symbol index: one row per symbol name, each holding four buckets
    (`defs`, `calls`, `asserts`, `types`) of stored references, and its
    flattening into "potential chunks".

    Rows are kept in the order their names were first inserted. This is an
    assumption of the model: the stores' full scans promise no order. The two stores differ in how a
    bucket grows: the document store's `$addToSet` ignores a reference the
    bucket already holds, while the SQL store's `array_append` always
    appends. `Mode` selects between them. */
module SymbolIndex {
  import opened Outcome

  datatype Bucket = Defs | Calls | Asserts | Types

  datatype Row<T> = Row(name: string, defs: seq<T>, calls: seq<T>, asserts: seq<T>, types: seq<T>)

  datatype Mode = AddToSet | Append

  type Index<T> = seq<Row<T>>

  function Get<T>(row: Row<T>, b: Bucket): seq<T> {
    match b
    case Defs => row.defs
    case Calls => row.calls
    case Asserts => row.asserts
    case Types => row.types
  }

  /** Replace one bucket; the name and the other buckets stay. */
  function Put<T>(row: Row<T>, b: Bucket, xs: seq<T>): (r: Row<T>)
    ensures r.name == row.name
    ensures Get(r, b) == xs
    ensures forall b' :: b' != b ==> Get(r, b') == Get(row, b')
  {
    match b
    case Defs => row.(defs := xs)
    case Calls => row.(calls := xs)
    case Asserts => row.(asserts := xs)
    case Types => row.(types := xs)
  }

  function EmptyRow<T>(name: string): Row<T> {
    Row(name, [], [], [], [])
  }

  /** Position of the row named `name`. */
  function Find<T>(ix: Index<T>, name: string): (r: Option<nat>)
    ensures r.Some? ==> r.value < |ix| && ix[r.value].name == name
    ensures r.Some? ==> forall i :: 0 <= i < r.value ==> ix[i].name != name
    ensures r.None? ==> forall i :: 0 <= i < |ix| ==> ix[i].name != name
  {
    if ix == [] then None
    else if ix[0].name == name then Some(0)
    else match Find(ix[1..], name)
      case None => None
      case Some(i) => Some(i + 1)
  }

  /** The row a lookup by name finds, or an empty row when there is none. */
  function RowOf<T>(ix: Index<T>, name: string): (row: Row<T>)
    ensures row.name == name
  {
    match Find(ix, name)
    case Some(i) => ix[i]
    case None => EmptyRow(name)
  }

  predicate UniqueNames<T>(ix: Index<T>) {
    forall i, j :: 0 <= i < j < |ix| ==> ix[i].name != ix[j].name
  }

  /** A bucket after one insertion under the store's mode. */
  function Grow<T(==)>(xs: seq<T>, x: T, mode: Mode): (r: seq<T>)
    ensures x in r
    ensures mode == Append ==> r == xs + [x]
    ensures mode == AddToSet ==> r == (if x in xs then xs else xs + [x])
  {
    if mode == AddToSet && x in xs then xs else xs + [x]
  }

  /** A bucket after inserting `ys` one at a time, in order. */
  function GrowAll<T(==)>(xs: seq<T>, ys: seq<T>, mode: Mode): (r: seq<T>)
    ensures mode == Append ==> r == xs + ys
    ensures xs <= r
    ensures forall i :: 0 <= i < |ys| ==> ys[i] in r
    ensures forall i :: 0 <= i < |r| ==> r[i] in xs || r[i] in ys
    decreases |ys|
  {
    if ys == [] then xs
    else
      assert ys == [ys[0]] + ys[1..];
      GrowAll(Grow(xs, ys[0], mode), ys[1..], mode)
  }

  /** Inserting `y` and then `ys` is inserting `[y] + ys`. */
  lemma GrowAllCons<T>(xs: seq<T>, y: T, ys: seq<T>, mode: Mode)
    ensures GrowAll(xs, [y] + ys, mode) == GrowAll(Grow(xs, y, mode), ys, mode)
  {
    assert ([y] + ys)[1..] == ys;
  }

  /** `upsert_symbol(name, bucket, x)`: add `x` to the bucket of the row
      named `name`, creating the row (at the end) when there is none. */
  function Upsert<T(==)>(ix: Index<T>, name: string, b: Bucket, x: T, mode: Mode): (ix': Index<T>)
    ensures |ix'| == if Find(ix, name).Some? then |ix| else |ix| + 1
    ensures forall i :: 0 <= i < |ix| ==> ix'[i].name == ix[i].name
    ensures RowOf(ix', name) == Put(RowOf(ix, name), b, Grow(Get(RowOf(ix, name), b), x, mode))
    ensures forall n :: n != name ==> RowOf(ix', n) == RowOf(ix, n)
    ensures forall i :: 0 <= i < |ix| && ix[i].name != name ==> ix'[i] == ix[i]
  {
    var row := RowOf(ix, name);
    var row' := Put(row, b, Grow(Get(row, b), x, mode));
    match Find(ix, name)
    case Some(i) =>
      var ix' := ix[i := row'];
      assert Find(ix', name) == Some(i) by { FindUpdate(ix, name, i, row'); }
      forall n | n != name ensures RowOf(ix', n) == RowOf(ix, n) {
        FindOther(ix, name, i, row', n);
      }
      ix'
    case None =>
      var ix' := ix + [row'];
      assert Find(ix', name) == Some(|ix|) by { FindAppend(ix, row', name); }
      forall n | n != name ensures RowOf(ix', n) == RowOf(ix, n) {
        FindAppend(ix, row', n);
      }
      ix'
  }

  lemma {:induction false} FindUpdate<T>(ix: Index<T>, name: string, i: nat, row: Row<T>)
    requires Find(ix, name) == Some(i) && row.name == name
    ensures Find(ix[i := row], name) == Some(i)
    decreases |ix|
  {
    if i > 0 {
      assert ix[i := row][1..] == ix[1..][i - 1 := row];
      FindUpdate(ix[1..], name, i - 1, row);
    }
  }

  lemma {:induction false} FindOther<T>(ix: Index<T>, name: string, i: nat, row: Row<T>, n: string)
    requires i < |ix| && ix[i].name == name && row.name == name && n != name
    ensures Find(ix[i := row], n) == Find(ix, n)
    ensures Find(ix, n).Some? ==> ix[i := row][Find(ix, n).value] == ix[Find(ix, n).value]
    decreases |ix|
  {
    if i > 0 && ix[0].name != n {
      assert ix[i := row][1..] == ix[1..][i - 1 := row];
      FindOther(ix[1..], name, i - 1, row, n);
    } else if i == 0 {
      assert ix[i := row][1..] == ix[1..];
    }
  }

  lemma {:induction false} FindAppend<T>(ix: Index<T>, row: Row<T>, n: string)
    requires Find(ix, row.name).None?
    ensures Find(ix + [row], n) == if n == row.name then Some(|ix|) else Find(ix, n)
    decreases |ix|
  {
    if ix == [] {
      assert ([] + [row])[1..] == [];
    } else if ix[0].name != n {
      assert (ix + [row])[1..] == ix[1..] + [row];
      FindAppend(ix[1..], row, n);
    }
  }

  /** Whether `x` is stored in bucket `b` of the row named `name`. */
  ghost predicate Has<T>(ix: Index<T>, name: string, b: Bucket, x: T) {
    x in Get(RowOf(ix, name), b)
  }

  /** The empty index holds nothing. */
  lemma EmptyHasNothing<T>(name: string, b: Bucket, x: T)
    ensures !Has([], name, b, x)
  {
    var empty: Index<T> := [];
    assert Find(empty, name).None?;
  }

  /** With one row per name, the lookup by a row's name finds that row. */
  lemma FindUnique<T>(ix: Index<T>, i: nat)
    requires UniqueNames(ix) && i < |ix|
    ensures Find(ix, ix[i].name) == Some(i)
  {
  }

  /** A stored reference lives in a row the lookup finds. */
  lemma HasFinds<T>(ix: Index<T>, name: string, b: Bucket, x: T)
    requires Has(ix, name, b, x)
    ensures Find(ix, name).Some?
  {
  }

  /** After an upsert the reference is in its bucket, and nothing any other
      lookup sees has been lost. */
  lemma UpsertKeeps<T>(ix: Index<T>, name: string, b: Bucket, x: T, mode: Mode, n: string, b': Bucket, y: T)
    ensures Has(Upsert(ix, name, b, x, mode), name, b, x)
    ensures Has(ix, n, b', y) ==> Has(Upsert(ix, name, b, x, mode), n, b', y)
    ensures Has(Upsert(ix, name, b, x, mode), n, b', y) ==> Has(ix, n, b', y) || (n == name && b' == b && y == x)
  {
  }

  /** Distinct names stay distinct: the index never holds two rows for one
      symbol. */
  lemma {:induction false} UpsertUnique<T>(ix: Index<T>, name: string, b: Bucket, x: T, mode: Mode)
    requires UniqueNames(ix)
    ensures UniqueNames(Upsert(ix, name, b, x, mode))
  {
    var ix' := Upsert(ix, name, b, x, mode);
    if Find(ix, name).None? {
      assert ix'[|ix|].name == name;
    } else {
      var i := Find(ix, name).value;
      assert ix'[i].name == name;
    }
  }

  /** With `$addToSet`, inserting the same reference twice is the same as
      inserting it once. */
  lemma UpsertIdempotent<T>(ix: Index<T>, name: string, b: Bucket, x: T)
    ensures Upsert(Upsert(ix, name, b, x, AddToSet), name, b, x, AddToSet) == Upsert(ix, name, b, x, AddToSet)
  {
    var ix1 := Upsert(ix, name, b, x, AddToSet);
    var i := Find(ix1, name).value;
    assert Find(ix1, name).Some?;
    assert ix1[i := ix1[i]] == ix1;
  }

  /** With `array_append`, every insertion adds one occurrence. */
  lemma UpsertCounts<T>(ix: Index<T>, name: string, b: Bucket, x: T)
    ensures multiset(Get(RowOf(Upsert(ix, name, b, x, Append), name), b)) == multiset(Get(RowOf(ix, name), b)) + multiset{x}
  {
  }

  /** One row's potential chunk: its buckets concatenated in column order
      (`row[2:]` flattened). */
  function Flatten<T>(row: Row<T>): (r: seq<T>)
    ensures |r| == |row.defs| + |row.calls| + |row.asserts| + |row.types|
    ensures multiset(r) == multiset(row.defs) + multiset(row.calls) + multiset(row.asserts) + multiset(row.types)
    ensures r[..|row.defs|] == row.defs
    ensures r[|row.defs|..|row.defs| + |row.calls|] == row.calls
    ensures r[|row.defs| + |row.calls|..|row.defs| + |row.calls| + |row.asserts|] == row.asserts
    ensures r[|r| - |row.types|..] == row.types
  {
    row.defs + row.calls + row.asserts + row.types
  }

  /** A reference is in the potential chunk exactly when some bucket of the
      row holds it. */
  lemma FlattenMembers<T>(row: Row<T>, x: T)
    ensures x in Flatten(row) <==> exists b :: x in Get(row, b)
  {
    var r := Flatten(row);
    assert x in r <==> x in multiset(r);
    if x in row.defs { assert x in Get(row, Defs); }
    else if x in row.calls { assert x in Get(row, Calls); }
    else if x in row.asserts { assert x in Get(row, Asserts); }
    else if x in row.types { assert x in Get(row, Types); }
  }

  /** The loop that turns every row into one potential chunk, in row order. */
  function PotentialChunks<T>(ix: Index<T>): (r: seq<seq<T>>)
    ensures |r| == |ix|
    ensures forall i :: 0 <= i < |ix| ==> r[i] == Flatten(ix[i])
  {
    if ix == [] then [] else [Flatten(ix[0])] + PotentialChunks(ix[1..])
  }

  /** Every stored reference appears in the potential chunk of its row. */
  lemma StoredIsChunked<T>(ix: Index<T>, name: string, b: Bucket, x: T)
    requires Has(ix, name, b, x)
    ensures Find(ix, name).Some? && x in PotentialChunks(ix)[Find(ix, name).value]
  {
    HasFinds(ix, name, b, x);
    FlattenMembers(RowOf(ix, name), x);
  }
}

=== FILE: symbols.dfy ===
/** `extract_symbol_from_node`: classify a top-level node by its kind and an
    anchored regular-expression match on its source text.

    The four regular expressions all have the shape
    `^<prefix>([a-zA-Z0-9_-]+)`, where the prefix is a sequence of literal
    characters and `\s*` runs. They are represented here as `Pattern`s,
    given a declarative meaning (`Denotes`, `Captures`), and matched by a
    greedy matcher (`Match`) that is proved to agree with that meaning. */
module Symbols {
  import opened Outcome
  import opened Text
  import opened Syntax

  /** The `type` the extractor reports. */
  datatype Role = Def | Call | Assert | TypeDecl | CommentRole | Unknown

  /** The extractor's result: `{"type": role, "symbol": name or None}`. */
  datatype Head = Head(role: Role, symbol: Option<string>)

  /** The character class `[a-zA-Z0-9_-]`. */
  predicate IsNameChar(ch: char) {
    ('a' <= ch <= 'z') || ('A' <= ch <= 'Z') || ('0' <= ch <= '9') || ch == '_' || ch == '-'
  }

  /** A string matched by `[a-zA-Z0-9_-]+`. */
  predicate IsName(s: string) {
    |s| > 0 && forall i :: 0 <= i < |s| ==> IsNameChar(s[i])
  }

  /** A string matched by `\s*`. */
  predicate AllSpace(s: string) {
    forall i :: 0 <= i < |s| ==> IsPySpace(s[i])
  }

  lemma NameCharNotSpace(ch: char)
    ensures IsNameChar(ch) ==> !IsPySpace(ch)
  {
  }

  /** One element of a regular-expression prefix. */
  datatype Atom = Lit(ch: char) | Spaces

  type Pattern = seq<Atom>

  /** `^\(\=\s*\(\s*` */
  function RulePrefix(): Pattern {
    [Lit('('), Lit('='), Spaces, Lit('('), Spaces]
  }

  /** `^\!\(\s*` */
  function CallPrefix(): Pattern {
    [Lit('!'), Lit('('), Spaces]
  }

  /** `^\!\(assertEqual\s*\(\s*` */
  function AssertPrefix(): Pattern {
    [ Lit('!'), Lit('('), Lit('a'), Lit('s'), Lit('s'), Lit('e'), Lit('r'), Lit('t'),
      Lit('E'), Lit('q'), Lit('u'), Lit('a'), Lit('l'), Spaces, Lit('('), Spaces ]
  }

  /** `^\(:\s*` */
  function TypePrefix(): Pattern {
    [Lit('('), Lit(':'), Spaces]
  }

  /** The strings a prefix pattern matches, as a regular expression reads
      it. */
  predicate Denotes(p: Pattern, t: string)
    decreases |p|
  {
    if p == [] then t == []
    else match p[0]
      case Lit(ch) => |t| >= 1 && t[0] == ch && Denotes(p[1..], t[1..])
      case Spaces => exists k :: 0 <= k <= |t| && AllSpace(t[..k]) && Denotes(p[1..], t[k..])
  }

  /** `re.match(prefix + "([a-zA-Z0-9_-]+)", s)` succeeds with group 1 equal
      to `name`: a prefix of `s` matches the pattern, `name` follows it, and
      the greedy `+` leaves no name character after it. */
  predicate Captures(p: Pattern, s: string, name: string) {
    exists k :: 0 <= k <= |s| && Denotes(p, s[..k]) && NameAt(s, k, name)
  }

  predicate NameAt(s: string, k: nat, name: string) {
    && IsName(name)
    && k + |name| <= |s|
    && s[k..k + |name|] == name
    && (k + |name| == |s| || !IsNameChar(s[k + |name|]))
  }

  /** Every `\s*` in the pattern is followed by a literal that is not
      whitespace, or ends the prefix (where the name, which never starts
      with whitespace, follows). All four prefixes have this form. */
  predicate WellFormed(p: Pattern) {
    forall i :: 0 <= i < |p| - 1 && p[i] == Spaces ==> p[i + 1].Lit? && !IsPySpace(p[i + 1].ch)
  }

  lemma PrefixesWellFormed()
    ensures WellFormed(RulePrefix()) && WellFormed(CallPrefix())
    ensures WellFormed(AssertPrefix()) && WellFormed(TypePrefix())
  {
    var p := AssertPrefix();
    forall i | 0 <= i < |p| - 1 && p[i] == Spaces
      ensures p[i + 1].Lit? && !IsPySpace(p[i + 1].ch)
    {
      assert i == 13 || i == 15;
    }
  }

  /** The greedy `\s*`: the first position at or after `i` that is not
      whitespace. */
  function SkipSpaces(s: string, i: nat): (j: nat)
    requires i <= |s|
    ensures i <= j <= |s|
    ensures AllSpace(s[i..j])
    ensures j == |s| || !IsPySpace(s[j])
    decreases |s| - i
  {
    if i < |s| && IsPySpace(s[i]) then SkipSpaces(s, i + 1) else i
  }

  /** The greedy `[a-zA-Z0-9_-]+`: the end of the run of name characters
      starting at `i`. */
  function NameEnd(s: string, i: nat): (j: nat)
    requires i <= |s|
    ensures i <= j <= |s|
    ensures forall k :: i <= k < j ==> IsNameChar(s[k])
    ensures j == |s| || !IsNameChar(s[j])
    decreases |s| - i
  {
    if i < |s| && IsNameChar(s[i]) then NameEnd(s, i + 1) else i
  }

  /** Match the prefix from position `i`; the position after it. */
  function MatchPrefix(p: Pattern, s: string, i: nat): (r: Option<nat>)
    requires i <= |s|
    ensures r.Some? ==> i <= r.value <= |s|
    decreases |p|
  {
    if p == [] then Some(i)
    else match p[0]
      case Lit(ch) => if i < |s| && s[i] == ch then MatchPrefix(p[1..], s, i + 1) else None
      case Spaces => MatchPrefix(p[1..], s, SkipSpaces(s, i))
  }

  /** Group 1 of the match, or `None` when the match fails. */
  function Match(p: Pattern, s: string): (r: Option<string>)
    ensures r.Some? ==> IsName(r.value)
  {
    match MatchPrefix(p, s, 0)
    case None => None
    case Some(k) =>
      var j := NameEnd(s, k);
      if j == k then None else Some(s[k..j])
  }

  lemma {:induction false} MatchPrefixSound(p: Pattern, s: string, i: nat)
    requires i <= |s| && MatchPrefix(p, s, i).Some?
    ensures Denotes(p, s[i..MatchPrefix(p, s, i).value])
    decreases |p|
  {
    var j := MatchPrefix(p, s, i).value;
    if p != [] {
      match p[0]
      case Lit(ch) =>
        MatchPrefixSound(p[1..], s, i + 1);
        assert s[i..j][1..] == s[i + 1..j];
      case Spaces =>
        var m := SkipSpaces(s, i);
        MatchPrefixSound(p[1..], s, m);
        var t := s[i..j];
        assert t[..m - i] == s[i..m];
        assert t[m - i..] == s[m..j];
    }
  }

  lemma {:induction false} SkipSpacesLands(s: string, i: nat, m: nat)
    requires i <= m <= |s|
    requires forall k :: i <= k < m ==> IsPySpace(s[k])
    requires m == |s| || !IsPySpace(s[m])
    ensures SkipSpaces(s, i) == m
    decreases m - i
  {
    if i < m {
      SkipSpacesLands(s, i + 1, m);
    }
  }

  lemma {:induction false} NameEndLands(s: string, i: nat, m: nat)
    requires i <= m <= |s|
    requires forall k :: i <= k < m ==> IsNameChar(s[k])
    requires m == |s| || !IsNameChar(s[m])
    ensures NameEnd(s, i) == m
    decreases m - i
  {
    if i < m {
      NameEndLands(s, i + 1, m);
    }
  }

  lemma WellFormedTail(p: Pattern)
    requires WellFormed(p) && p != []
    ensures WellFormed(p[1..])
  {
    forall i | 0 <= i < |p[1..]| - 1 && p[1..][i] == Spaces
      ensures p[1..][i + 1].Lit? && !IsPySpace(p[1..][i + 1].ch)
    {
      assert p[i + 1] == Spaces;
    }
  }

  lemma {:induction false} MatchPrefixComplete(p: Pattern, s: string, i: nat, j: nat)
    requires WellFormed(p)
    requires i <= j <= |s| && Denotes(p, s[i..j])
    requires j == |s| || !IsPySpace(s[j])
    ensures MatchPrefix(p, s, i) == Some(j)
    decreases |p|
  {
    var t := s[i..j];
    if p == [] {
      assert |t| == 0;
    } else {
      WellFormedTail(p);
      match p[0]
      case Lit(ch) =>
        assert t[1..] == s[i + 1..j];
        MatchPrefixComplete(p[1..], s, i + 1, j);
      case Spaces =>
        var k :| 0 <= k <= |t| && AllSpace(t[..k]) && Denotes(p[1..], t[k..]);
        var m := i + k;
        assert t[k..] == s[m..j];
        assert forall q :: i <= q < m ==> s[q] == t[..k][q - i];
        if p[1..] == [] {
          assert |t[k..]| == 0;
        } else {
          assert p[1].Lit? && !IsPySpace(p[1].ch);
          assert s[m] == t[k..][0];
        }
        SkipSpacesLands(s, i, m);
        MatchPrefixComplete(p[1..], s, m, j);
    }
  }

  /** The greedy matcher computes exactly the regular expression's group:
      it returns `name` if and only if the regular expression matches with
      group 1 equal to `name`. */
  lemma MatchIsRegex(p: Pattern, s: string, name: string)
    requires WellFormed(p)
    ensures Match(p, s) == Some(name) <==> Captures(p, s, name)
  {
    if Match(p, s) == Some(name) {
      MatchCaptures(p, s, name);
    }
    if Captures(p, s, name) {
      CapturesMatch(p, s, name);
    }
  }

  lemma MatchCaptures(p: Pattern, s: string, name: string)
    requires Match(p, s) == Some(name)
    ensures Captures(p, s, name)
  {
    var k := MatchPrefix(p, s, 0).value;
    MatchPrefixSound(p, s, 0);
    assert s[..k] == s[0..k];
    assert NameAt(s, k, name);
  }

  lemma CapturesMatch(p: Pattern, s: string, name: string)
    requires WellFormed(p) && Captures(p, s, name)
    ensures Match(p, s) == Some(name)
  {
    var k :| 0 <= k <= |s| && Denotes(p, s[..k]) && NameAt(s, k, name);
    assert s[..k] == s[0..k];
    assert s[k] == name[0];
    NameCharNotSpace(s[k]);
    MatchPrefixComplete(p, s, 0, k);
    MatchFound(p, s, k, name);
  }

  /** The regular expression matches with at most one group value. */
  lemma CaptureUnique(p: Pattern, s: string, a: string, b: string)
    requires WellFormed(p) && Captures(p, s, a) && Captures(p, s, b)
    ensures a == b
  {
    MatchIsRegex(p, s, a);
    MatchIsRegex(p, s, b);
  }

  predicate IsCallKind(k: Kind) {
    k == CallGroup || k == ExpressionGroup
  }

  /** `extract_symbol_from_node`, given the node's kind and its source
      snippet `source_text[st:end]`. */
  function Extract(kind: Kind, snippet: string): (h: Head)
    ensures h.symbol.Some? ==> IsName(h.symbol.value)
    ensures h.role == CommentRole <==> kind == Comment
    ensures h.role == Def ==> kind == RuleGroup
    ensures h.role == Call || h.role == Assert ==> IsCallKind(kind)
    ensures h.role == TypeDecl ==> kind == TypeCheckGroup
    ensures h.role in {Def, Call, TypeDecl} ==> h.symbol.Some?
    ensures h.role in {CommentRole, Unknown} ==> h.symbol == None
    ensures h.role == Call ==> h.symbol != Some("assertEqual")
  {
    if kind == RuleGroup then
      match Match(RulePrefix(), snippet)
      case Some(name) => Head(Def, Some(name))
      case None => Head(Unknown, None)
    else if IsCallKind(kind) then
      match Match(CallPrefix(), snippet)
      case Some(head) =>
        if head == "assertEqual" then Head(Assert, Match(AssertPrefix(), snippet))
        else Head(Call, Some(head))
      case None => Head(Unknown, None)
    else if kind == TypeCheckGroup then
      match Match(TypePrefix(), snippet)
      case Some(name) => Head(TypeDecl, Some(name))
      case None => Head(Unknown, None)
    else if kind == Comment then Head(CommentRole, None)
    else Head(Unknown, None)
  }

  /** The classification table, stated against the regular expressions'
      meaning rather than the matcher: definitions, */
  lemma ExtractDef(kind: Kind, s: string, name: string)
    ensures Extract(kind, s) == Head(Def, Some(name)) <==>
              kind == RuleGroup && Captures(RulePrefix(), s, name)
  {
    PrefixesWellFormed();
    MatchIsRegex(RulePrefix(), s, name);
  }

  /** calls, */
  lemma ExtractCall(kind: Kind, s: string, name: string)
    ensures Extract(kind, s) == Head(Call, Some(name)) <==>
              IsCallKind(kind) && Captures(CallPrefix(), s, name) && name != "assertEqual"
  {
    PrefixesWellFormed();
    MatchIsRegex(CallPrefix(), s, name);
  }

  /** assertions, */
  lemma ExtractAssert(kind: Kind, s: string, name: string)
    ensures Extract(kind, s) == Head(Assert, Some(name)) <==>
              IsCallKind(kind) && Captures(CallPrefix(), s, "assertEqual") && Captures(AssertPrefix(), s, name)
  {
    PrefixesWellFormed();
    MatchIsRegex(CallPrefix(), s, "assertEqual");
    MatchIsRegex(AssertPrefix(), s, name);
  }

  /** and type declarations. */
  lemma ExtractType(kind: Kind, s: string, name: string)
    ensures Extract(kind, s) == Head(TypeDecl, Some(name)) <==>
              kind == TypeCheckGroup && Captures(TypePrefix(), s, name)
  {
    PrefixesWellFormed();
    MatchIsRegex(TypePrefix(), s, name);
  }

  /** A node is unknown exactly when its kind has no rule or its text fails
      the kind's pattern; `assertEqual` without an inner name is an assert
      with no symbol. */
  lemma ExtractFailures(kind: Kind, s: string)
    ensures Extract(kind, s).role == Unknown <==>
              || kind !in {RuleGroup, CallGroup, ExpressionGroup, TypeCheckGroup, Comment}
              || (kind == RuleGroup && Match(RulePrefix(), s).None?)
              || (IsCallKind(kind) && Match(CallPrefix(), s).None?)
              || (kind == TypeCheckGroup && Match(TypePrefix(), s).None?)
    ensures Extract(kind, s) == Head(Assert, None) <==>
              IsCallKind(kind) && Match(CallPrefix(), s) == Some("assertEqual") && Match(AssertPrefix(), s).None?
  {
  }

  /** A call pattern needs `!(` with nothing between: `! (f)` is unknown. */
  lemma BangSpaceNeverMatches(kind: Kind, s: string)
    requires |s| >= 2 && s[0] == '!' && s[1] != '('
    ensures Extract(kind, s).role != Call && Extract(kind, s).role != Assert
  {
  }

  /** A plain parenthesised group is never a call: its text starts with
      `(`, not `!`. */
  lemma ParenGroupIsUnknown(s: string)
    requires |s| >= 1 && s[0] == '('
    ensures Extract(ExpressionGroup, s) == Head(Unknown, None)
  {
  }

  /** A name followed by the end of the text or a character outside the
      name class is captured whole. */
  predicate Delimited(rest: string) {
    rest == [] || !IsNameChar(rest[0])
  }

  lemma NameAfter(x: string, name: string, rest: string)
    requires IsName(name) && Delimited(rest)
    ensures NameAt(x + name + rest, |x|, name)
  {
    var s := x + name + rest;
    assert s[|x|..|x| + |name|] == name;
    if rest != [] {
      assert s[|x| + |name|] == rest[0];
    }
  }

  /** The shapes the documentation walks through, for any name: a rule
      `(= (name ...) ...)`, */
  lemma RuleNamed(name: string, rest: string)
    requires IsName(name) && Delimited(rest)
    ensures Extract(RuleGroup, "(= (" + name + rest) == Head(Def, Some(name))
  {
    var s := "(= (" + name + rest;
    var p := RulePrefix();
    assert s[0] == '(' && s[1] == '=' && s[2] == ' ' && s[3] == '(' && s[4] == name[0];
    NameCharNotSpace(name[0]);
    assert SkipSpaces(s, 3) == 3;
    assert SkipSpaces(s, 2) == 3;
    assert SkipSpaces(s, 4) == 4;
    assert p[1..] == [Lit('='), Spaces, Lit('('), Spaces];
    assert p[2..] == [Spaces, Lit('('), Spaces];
    assert p[3..] == [Lit('('), Spaces];
    assert p[4..] == [Spaces];
    assert MatchPrefix(p[4..], s, 4) == Some(4);
    assert MatchPrefix(p[3..], s, 3) == Some(4);
    assert MatchPrefix(p[2..], s, 2) == Some(4);
    assert MatchPrefix(p[1..], s, 1) == Some(4);
    NameAfter("(= (", name, rest);
    MatchFound(p, s, 4, name);
  }

  /** a call `!(name ...)`, */
  lemma CallNamed(name: string, rest: string)
    requires IsName(name) && Delimited(rest) && name != "assertEqual"
    ensures Extract(CallGroup, "!(" + name + rest) == Head(Call, Some(name))
    ensures Extract(ExpressionGroup, "!(" + name + rest) == Head(Call, Some(name))
  {
    var s := "!(" + name + rest;
    var p := CallPrefix();
    assert s[0] == '!' && s[1] == '(' && s[2] == name[0];
    NameCharNotSpace(name[0]);
    assert SkipSpaces(s, 2) == 2;
    assert p[1..] == [Lit('('), Spaces] && p[2..] == [Spaces];
    assert MatchPrefix(p[2..], s, 2) == Some(2);
    assert MatchPrefix(p[1..], s, 1) == Some(2);
    NameAfter("!(", name, rest);
    MatchFound(p, s, 2, name);
  }

  /** and a type declaration `(: name ...)`. */
  lemma TypeNamed(name: string, rest: string)
    requires IsName(name) && Delimited(rest)
    ensures Extract(TypeCheckGroup, "(: " + name + rest) == Head(TypeDecl, Some(name))
  {
    var s := "(: " + name + rest;
    var p := TypePrefix();
    assert s[0] == '(' && s[1] == ':' && s[2] == ' ' && s[3] == name[0];
    NameCharNotSpace(name[0]);
    assert SkipSpaces(s, 3) == 3;
    assert SkipSpaces(s, 2) == 3;
    assert p[1..] == [Lit(':'), Spaces] && p[2..] == [Spaces];
    assert MatchPrefix(p[2..], s, 2) == Some(3);
    assert MatchPrefix(p[1..], s, 1) == Some(3);
    NameAfter("(: ", name, rest);
    MatchFound(p, s, 3, name);
  }

  /** The matcher returns the name that follows the prefix. */
  lemma MatchFound(p: Pattern, s: string, k: nat, name: string)
    requires MatchPrefix(p, s, 0) == Some(k) && NameAt(s, k, name)
    ensures Match(p, s) == Some(name)
  {
    assert forall q :: k <= q < k + |name| ==> s[q] == name[q - k];
    NameEndLands(s, k, k + |name|);
  }
}

=== FILE: syntax.dfy ===
/** The syntax tree both parsers build: typed nodes over half-open source
    ranges. */
module Syntax {
  import opened Outcome

  /** `SyntaxNodeType`. The Rust enum has no `CallGroup`, `RuleGroup` or
      `TypeCheckGroup`; a tree from the Rust parser never contains them
      (`RustKinds` below). */
  datatype Kind =
    | Comment | VariableToken | StringToken | WordToken
    | OpenParen | CloseParen | Whitespace | LeftoverText
    | ErrorGroup | ExpressionGroup | CallGroup | RuleGroup | TypeCheckGroup

  /** `is_leaf`: only the expression and error groups count as inner nodes,
      so the Python parser's specialised groups are leaves although they
      have children. */
  predicate IsLeaf(k: Kind)
    ensures IsLeaf(k) && IsGroup(k) <==> k == CallGroup || k == RuleGroup || k == TypeCheckGroup
  {
    k != ExpressionGroup && k != ErrorGroup
  }

  predicate IsGroup(k: Kind) {
    k == ErrorGroup || k == ExpressionGroup || k == CallGroup || k == RuleGroup || k == TypeCheckGroup
  }

  /** `SyntaxNode`: kind, range `[start, end)`, children, and `parsed_text`
      (present for word, variable and string tokens only). The source's
      `message` and `is_complete` fields are never set by the parser and are
      left out. */
  datatype Node = Node(kind: Kind, start: nat, end: nat, children: seq<Node>, text: Option<string>)

  /** `getSize`: the length of the node's range. A child of a well-nested
      node is never larger than its parent. */
  function Size(n: Node): (r: int)
    ensures WellNested(n) ==> forall i :: 0 <= i < |n.children| ==> Size(n.children[i]) <= r
  {
    n.end - n.start
  }

  /** Ranges nest: every child lies inside its parent, and siblings follow
      each other without overlapping. */
  predicate WellNested(n: Node)
    decreases n
  {
    && n.start <= n.end
    && (forall i :: 0 <= i < |n.children| ==>
          n.start <= n.children[i].start && n.children[i].end <= n.end && WellNested(n.children[i]))
    && (forall i :: 0 <= i < |n.children| - 1 ==> n.children[i].end <= n.children[i + 1].start)
  }

  /** No node of the tree has a kind the Rust enum lacks. */
  predicate RustKinds(n: Node)
    decreases n
  {
    && n.kind != CallGroup && n.kind != RuleGroup && n.kind != TypeCheckGroup
    && forall i :: 0 <= i < |n.children| ==> RustKinds(n.children[i])
  }

  /** Shape of every parenthesised group: it opens with an `OpenParen` marker
      covering its first byte and closes with a `CloseParen` marker covering
      its last byte. */
  predicate GroupShape(n: Node) {
    && |n.children| >= 2
    && n.children[0] == Node(OpenParen, n.start, n.start + 1, [], None)
    && n.end >= 1
    && n.children[|n.children| - 1] == Node(CloseParen, n.end - 1, n.end, [], None)
  }
}

=== FILE: text.dfy ===
/** Character and string facts the chunker depends on: UTF-8 widths, the two
    languages' notions of whitespace, Python slicing, and decimal rendering. */
module Text {

  /** A code point below 0x80 encodes as a single UTF-8 byte. */
  predicate IsAscii(ch: char) {
    ch as int < 0x80
  }

  predicate AllAscii(s: string) {
    forall i :: 0 <= i < |s| ==> IsAscii(s[i])
  }

  /** Number of bytes of the UTF-8 encoding of `ch` (`len(c.encode("utf-8"))`,
      `char::len_utf8`). */
  function Utf8Width(ch: char): (w: nat)
    ensures 1 <= w <= 4
    ensures w == 1 <==> IsAscii(ch)
  {
    if ch as int < 0x80 then 1
    else if ch as int < 0x800 then 2
    else if ch as int < 0x1_0000 then 3
    else 4
  }

  /** Length in bytes of the UTF-8 encoding of `s`. */
  function Utf8Len(s: string): nat {
    if s == [] then 0 else Utf8Len(s[..|s| - 1]) + Utf8Width(s[|s| - 1])
  }

  lemma Utf8LenStep(s: string, i: nat)
    requires i < |s|
    ensures Utf8Len(s[..i + 1]) == Utf8Len(s[..i]) + Utf8Width(s[i])
  {
    assert s[..i + 1][..i] == s[..i];
  }

  /** Python's `str.isspace` (also what `\s` matches in a `str` regex): every
      character Rust counts as whitespace, and more. */
  predicate IsPySpace(ch: char)
    ensures IsRustWhitespace(ch) ==> IsPySpace(ch)
  {
    var n := ch as int;
    (9 <= n <= 13) || (0x1c <= n <= 0x20) || n == 0x85 || n == 0xa0 || n == 0x1680
    || (0x2000 <= n <= 0x200a) || n == 0x2028 || n == 0x2029 || n == 0x202f
    || n == 0x205f || n == 0x3000
  }

  /** Rust's `char::is_whitespace` (the Unicode White_Space property). On
      ASCII it is the space and `\t`, `\n`, vertical tab, form feed, `\r`. */
  predicate IsRustWhitespace(ch: char)
    ensures ch as int < 0x80 ==> (IsRustWhitespace(ch) <==> ch == ' ' || '\t' <= ch <= '\r')
  {
    var n := ch as int;
    (9 <= n <= 13) || n == 0x20 || n == 0x85 || n == 0xa0 || n == 0x1680
    || (0x2000 <= n <= 0x200a) || n == 0x2028 || n == 0x2029 || n == 0x202f
    || n == 0x205f || n == 0x3000
  }

  /** The two notions differ exactly on the information separators
      U+001C..U+001F, which only Python counts as whitespace. */
  lemma SpaceNotionsDiffer(ch: char)
    ensures IsPySpace(ch) != IsRustWhitespace(ch) <==> 0x1c <= ch as int <= 0x1f
  {
  }

  function Min(a: int, b: int): int {
    if a <= b then a else b
  }

  /** Python's `s[a:b]` for non-negative bounds: both bounds are clamped to
      the length, and a reversed range gives the empty string. */
  function PySlice(s: string, a: nat, b: nat): (r: string)
    ensures |r| == if Min(a, |s|) <= Min(b, |s|) then Min(b, |s|) - Min(a, |s|) else 0
    ensures forall k :: 0 <= k < |r| ==> r[k] == s[a + k]
    ensures b <= |s| && a <= b ==> r == s[a..b]
  {
    var lo := Min(a, |s|);
    var hi := Min(b, |s|);
    if lo <= hi then s[lo..hi] else ""
  }

  predicate IsDigit(ch: char) {
    '0' <= ch <= '9'
  }

  /** Value of a string of decimal digits. */
  function DecimalValue(s: string): nat
    requires forall i :: 0 <= i < |s| ==> IsDigit(s[i])
  {
    if s == [] then 0
    else
      assert IsDigit(s[|s| - 1]);
      10 * DecimalValue(s[..|s| - 1]) + (s[|s| - 1] as int - '0' as int)
  }

  /** `str(n)` for a natural number (used to name comments `comment_<idx>`). */
  function Decimal(n: nat): (r: string)
    ensures |r| >= 1
    ensures forall i :: 0 <= i < |r| ==> IsDigit(r[i])
    ensures |r| > 1 ==> r[0] != '0'
  {
    if n < 10 then [('0' as int + n) as char]
    else Decimal(n / 10) + [('0' as int + n % 10) as char]
  }

  /** Rendering then reading back gives the number again, so distinct indexes
      get distinct names. */
  lemma {:induction false} DecimalRoundTrip(n: nat)
    ensures DecimalValue(Decimal(n)) == n
  {
    if n >= 10 {
      DecimalRoundTrip(n / 10);
      var s := Decimal(n);
      assert s[..|s| - 1] == Decimal(n / 10);
    }
  }

  lemma DecimalInjective(m: nat, n: nat)
    ensures Decimal(m) == Decimal(n) ==> m == n
  {
    DecimalRoundTrip(m);
    DecimalRoundTrip(n);
  }
}
